=== FILE: README.md ===
# EC2 tag governance and selection, modelled in Dafny

The fedora-infra-scripts repository is a set of operator scripts for an EC2
estate. Each script makes one decision about instances, volumes, AMIs or
snapshots, and most decisions turn on the `FedoraGroup` tag:
- which resources are untagged, old enough to delete, name-matched or still `gp2`;
- which dependent volumes and snapshots inherit a tag;
- how resources are counted per owner, region and type.

Two further scripts summarise a cloud bill and list the packages added to
Rawhide.

This project models each of those decisions as a pure Dafny function over
the API responses, given as data. An action (a tag write, a deletion, a
volume modification) is a returned sequence or set of ids, not a side
effect. Tags are `seq<(string, string)>`, so duplicate keys and their order
are kept. Those two things decide the differences between the scripts' lookup
variants:
- exact or case-insensitive key;
- first or last match;
- "key present" or "value non-empty".

The model keeps every script's own variant and proves how the variants
relate.

Shared modules:
- `Wrappers`: `Option` and `Result`.
- `Lists`: the list comprehension `[f(x) for x in xs if p(x)]`.
- `Dicts`: a dictionary built by assignment or `update`, where the last write wins.
- `Text`: Python's `isspace`, `strip`, `startswith`, substring search and code-point order.
- `Tags`: the tag lookups.
- `Ec2`: block-device mappings.

Each script has one module:

| script | module |
|---|---|
| periodic-checker.py | `Stats`, `PeriodicChecker` |
| get_current_usage.py | `CurrentUsage` |
| fix-testing-farm-tags.py | `TestingFarmTags` |
| copy-tags-from-ami.py | `CopyTags` |
| aws-resources-without-tag.py | `UntaggedReport` |
| delete-old-amis.py | `DeleteOldAmis` |
| delete-snapshots.py | `DeleteSnapshots` |
| delete-amis.py | `DeleteAmis` |
| rawhide-changes.py | `RawhideChanges` |
| parse-ibm-cloud-bill.py | `IbmBill` |
| label-ami-id.py | `LabelAmi` |
| gp2-to-gp3.py | `Gp2ToGp3` |

Three behaviours of the code are worth stating up front:
- **Tag lookup.** The scripts do not share one lookup rule. periodic-checker.py
  lower-cases keys and lets the last tag win (`PeriodicChecker.ScanGroup`);
  aws-resources-without-tag.py takes the first `Name` in `get_name_tag` and
  the last one in `get_instance_name`.
- **Missing creation date.** In delete-old-amis.py a missing or unparsable
  `CreationDate` raises inside the comprehension and stops the run before the
  region's first deregistration (`DeleteOldAmis.OldAmis`).
- **Errors are fatal.** Apart from the failures the scripts catch, an error
  ends the script rather than being recorded and skipped. A `KeyError` on a
  missing `VolumeId` or `SnapshotId` ends the script. So does an `IndexError` when a volume's attachment returns an empty
  `Reservations` list (aws-resources-without-tag.py:18-19). An unknown
  instance id raises `ClientError` inside `describe_instances`, which also
  ends the script. The model returns a
  `Failure`, or a trace marked as crashed that keeps the writes already made.

In rawhide-changes.py the section pattern ends at `=====` or at `$`, and
without `re.MULTILINE` a `$` also matches just before a final newline. A
section that runs to the end of the email therefore loses that newline
(`RawhideChanges.SectionDropsFinalNewline`). Its last block then lacks the
newline the block pattern needs after the summary, and is not read.

## Model

| member | source | states |
|---|---|---|
| `Tags.FirstValue` | get_current_usage.py:34-38 | no value iff no key matches; otherwise the value of a tag that is the first match |
| `Tags.LastValue` | periodic-checker.py:162-169 | no value iff no key matches; otherwise the value of a tag that is the last match |
| `Tags.FirstEqualsLastWhenUnique` | periodic-checker.py:151-169 | first-wins and last-wins lookups agree when at most one tag matches |
| `Tags.FirstLastDisagreeNeedsDuplicate` | periodic-checker.py:162-169 | first-wins and last-wins lookups can differ only when the key occurs at least twice |
| `Tags.PresenceVersusNonEmpty` | get_current_usage.py:34-41 | "value non-empty" implies "key present", and the two differ exactly when the first value is `""` |
| `Tags.ExactImpliesIgnoreCase` | periodic-checker.py:162 | a key found by exact comparison is also found by the lower-casing comparison |
| `Tags.CountZero` | periodic-checker.py:162-169 | no tag matches iff the number of matching tags is zero |
| `Stats.Add` | periodic-checker.py:75-81 | the key's counter rises by `size` from its old value (0 if absent); every other key's counter and the key set are otherwise unchanged; keys stay distinct and a new key goes last |
| `Stats.SortDesc` | periodic-checker.py:83-85 | the report is in non-increasing order of value and is a permutation of the counter's entries |
| `Stats.SortDescStable` | periodic-checker.py:83-85 | entries with equal values keep their insertion order, since `sorted` is stable |
| `Stats.ReportedOnce` | periodic-checker.py:83-85 | every key is reported with its total, and no key is reported twice |
| `PeriodicChecker.ScanGroup` | periodic-checker.py:147-169 | the owner is the value of the last tag whose lower-cased key is `fedoragroup`, else `"N/A"` |
| `PeriodicChecker.ScanName` | periodic-checker.py:148-160 | the name is the value of the last tag whose lower-cased key is `name`, else `"N/A"` |
| `PeriodicChecker.DuplicateCount` | periodic-checker.py:162-169 | a duplicate error is filed at most once per owner tag after the first; exactly once when no owner value is the literal `"N/A"` |
| `PeriodicChecker.DuplicateOnSecondOwner` | periodic-checker.py:162-168 | an owner tag met while the owner is already set files one more duplicate; its corrected message names the replaced owner and the new one |
| `PeriodicChecker.AsWrittenNamesTheName` | periodic-checker.py:164-167 | with tags Name=web, FedoraGroup=copr, FedoraGroup=infra, the message as written says "web to infra", whereas the intended one says "copr to infra" |
| `PeriodicChecker.Messages` | periodic-checker.py:162-172 | one message per duplicate owner tag, in order, worded by the given wording (`AsWrittenMessage` as the script words it, `IntendedMessage` as corrected), then "Instance has no FedroaGroup owner" iff the final owner is `"N/A"` |
| `PeriodicChecker.UntaggedGetsOneError` | periodic-checker.py:171-172 | an instance with no owner tag gets exactly the missing-owner error |
| `PeriodicChecker.SingleOwnerIsClean` | periodic-checker.py:162-172 | one owner tag with a real value files no error |
| `PeriodicChecker.RecordError` | periodic-checker.py:134-141 | the message is appended to the instance's list; metadata is recorded only on the first error; other instances are untouched |
| `PeriodicChecker.RecordErrors` | periodic-checker.py:134-141 | messages are appended in order; no messages leave the store unchanged |
| `PeriodicChecker.AnalyzeInstance` | periodic-checker.py:143-189 | a terminated instance changes no counter; any other adds 1 to its owner (`"N/A"` included), its type and type/owner, and its core count to the owner's vCPUs, leaving every other instance-type, type/owner and owner key unchanged |
| `PeriodicChecker.AnalyzeInstanceErrors` | periodic-checker.py:133-180 | whatever the state, the instance is in the error store iff it already was or the scan filed a message, and then its list is the old one (or empty) followed by exactly the filed messages, in order; its record is the old one or its id, region, type, name and owner; other instances' errors and records are unchanged; without an owner tag the missing-owner message is among its errors |
| `PeriodicChecker.OwnerTotals` | periodic-checker.py:184-189 | after a batch, each owner's count is the number of its non-terminated instances and its vCPU total is the sum of their core counts |
| `CurrentUsage.Seen` | get_current_usage.py:33-38 | the set of groups seen holds every first `FedoraGroup` value found, `""` included |
| `CurrentUsage.SeenCoversCounted` | get_current_usage.py:33-41 | every tallied record's group was seen and is non-empty |
| `CurrentUsage.Bump` | get_current_usage.py:43-52 | creates the missing levels of the nested map, adds the amount to one cell, and changes nothing else |
| `CurrentUsage.TallyCell` | get_current_usage.py:28-52 | each cell is the sum of the amounts of the records with that group, region and type |
| `CurrentUsage.TallyCellExists` | get_current_usage.py:43-52 | a type key exists iff some record contributed to it |
| `CurrentUsage.TallyRegionExists` | get_current_usage.py:43-48 | a region key exists under a group iff some record contributed to it |
| `CurrentUsage.TallyGroupExists` | get_current_usage.py:40-45 | a group key exists iff some record with a non-empty value for that group exists |
| `CurrentUsage.TallyOrderIrrelevant` | get_current_usage.py:101-124 | two record sequences that are permutations of each other give the same nested tally |
| `CurrentUsage.TotalPermutation` | get_current_usage.py:43-52 | cell sums do not depend on record order |
| `CurrentUsage.CountOnes` | get_current_usage.py:114-124 | when every amount is 1 a cell counts its contributing records |
| `CurrentUsage.InstanceCellCounts` | get_current_usage.py:101-124 | an instance cell counts the instances with that group, region and type, in every state |
| `CurrentUsage.RegionShownIff` | get_current_usage.py:133-151 | a region is printed for a group iff it has an instance line or a volume line |
| `TestingFarmTags.MappingVolumes` | fix-testing-farm-tags.py:100-106 | fails iff some `Ebs` entry lacks `VolumeId`; otherwise it is exactly the volume ids of the `Ebs` entries |
| `TestingFarmTags.CollectFails` | fix-testing-farm-tags.py:85-106 | the script stops with an uncaught `KeyError` iff some selected instance has an `Ebs` entry without `VolumeId` |
| `TestingFarmTags.CollectInstances` | fix-testing-farm-tags.py:89-97 | the instances to tag are exactly those with no `FedoraGroup` key, in query order |
| `TestingFarmTags.CollectVolumes` | fix-testing-farm-tags.py:83-111 | the volume set is exactly the `Ebs` volume ids of selected instances; skipped instances add none |
| `TestingFarmTags.SkippedAddsNothing` | fix-testing-farm-tags.py:107-111 | an instance that already has the key changes neither list |
| `TestingFarmTags.TagCalls` | fix-testing-farm-tags.py:114-140 | both calls write `FedoraGroup=CI`; a call is made for instances iff there are any, and for volumes iff there are any; at most two calls, the instance call before the volume call; the instance call lists the selected instances in order, and the volume call lists each volume once |
| `TestingFarmTags.DryRunListing` | fix-testing-farm-tags.py:170-174 | the listing shows the first min(5, N) ids and, iff N > 5, a count of N - 5 more |
| `CopyTags.TagIfMissing` | copy-tags-from-ami.py:14-34 | an unknown snapshot, a snapshot whose tagging fails and other snapshots are unchanged; otherwise the snapshot afterwards has the key, and its first value is the old one if it had the key, else the AMI's value |
| `CopyTags.TagAllOutcome` | copy-tags-from-ami.py:74-78 | along one AMI's mappings, a snapshot without the key that is named and whose tagging does not fail gains exactly `(FedoraGroup, value)`, and any other snapshot is unchanged |
| `CopyTags.ProcessRegionOutcome` | copy-tags-from-ami.py:59-78 | after a region a snapshot is unchanged if it had the key, no eligible AMI names it, or its tagging fails; otherwise it gains exactly one tag, with the value of the first eligible AMI that names it |
| `CopyTags.NamedSnapshotsEndTagged` | copy-tags-from-ami.py:59-78 | a snapshot an eligible AMI names ends up with the key iff it already had it or its tagging does not fail |
| `CopyTags.FailuresStayLocal` | copy-tags-from-ami.py:18-34 | a failed, caught tagging changes nothing for any other snapshot: each one ends as it would with no failures |
| `CopyTags.ClaimNonEmpty` | copy-tags-from-ami.py:62-69 | the value copied is never empty, since AMIs with a missing or empty value are skipped |
| `UntaggedReport.GetNameTagFirst` | aws-resources-without-tag.py:10-14 | `get_name_tag` is the first `Name` value, else `"N/A"`, with `None` tags read as none |
| `UntaggedReport.InstanceNameFromLast` | aws-resources-without-tag.py:20-24 | the name loop leaves the last `Name` value, else its start value `''` |
| `UntaggedReport.NameVariants` | aws-resources-without-tag.py:10-24 | the two name lookups agree when `Name` occurs once and differ only in default (`"N/A"` against `''`) when it is absent |
| `UntaggedReport.AttachedInstanceId` | aws-resources-without-tag.py:36-37 | with no attachment the id is `"N/A"`; otherwise it is the first attachment's `InstanceId`, or `"N/A"` when it has none |
| `UntaggedReport.VolumeName` | aws-resources-without-tag.py:16-38 | no lookup for `"N/A"`; failure iff the instance cannot be described; otherwise its last `Name` or `''` |
| `UntaggedReport.VolumeLinesFail` | aws-resources-without-tag.py:34-39 | the volume loop fails iff some untagged volume is attached to an instance that cannot be described |
| `UntaggedReport.VolumeLinesFirstFailure` | aws-resources-without-tag.py:34-38 | a failing volume loop stops at the first untagged volume whose instance cannot be described, with that instance's id |
| `UntaggedReport.VolumeLinesSelect` | aws-resources-without-tag.py:34-39 | on success the lines are exactly, in enumeration order, the untagged volumes' ids each paired with the name shown for its attached instance |
| `UntaggedReport.VolumeLinesAtPositions` | aws-resources-without-tag.py:34-39 | on success line `k` is the `k`-th untagged volume's id with the name its instance lookup found, and that lookup succeeded |
| `UntaggedReport.VolumeLinesOnePerVolume` | aws-resources-without-tag.py:34-39 | one line per untagged volume, in enumeration order, carrying the volume's id and its attached instance's name |
| `UntaggedReport.InstanceLinesAtPositions` | aws-resources-without-tag.py:28-32 | line `k` of the instance section is the `k`-th untagged instance's id with its first `Name` |
| `UntaggedReport.Report` | aws-resources-without-tag.py:26-41 | the instance lines are the untagged instances, one line each, in enumeration order, with their first `Name`; the volume lines are the untagged volumes, one each, in order, each with its id and its attached instance's name (`"N/A"` when unattached, else that instance's last `Name` or `''`); failure iff a lookup fails, and then it carries the instance id of the first untagged volume whose lookup fails |
| `DeleteOldAmis.OldAmis` | delete-old-amis.py:23-26 | fails iff some AMI has no creation date; otherwise it holds exactly the AMIs created strictly before the cutoff |
| `DeleteOldAmis.DeregistrationsExact` | delete-old-amis.py:26-37 | an id is deregistered iff an AMI with it is older than the cutoff and has no `FedoraGroup` key |
| `DeleteOldAmis.TagValueIrrelevant` | delete-old-amis.py:32 | AMIs with the same keys and date are treated alike, whatever their values, `""` included |
| `DeleteOldAmis.CutoffInstantKept` | delete-old-amis.py:26 | an AMI created exactly at the cutoff is kept |
| `DeleteOldAmis.OldKeptIffProtected` | delete-old-amis.py:26-40 | among old AMIs, exactly the ones with the key are kept |
| `DeleteOldAmis.RunOutcome` | delete-old-amis.py:18-42 | the run completes iff every AMI in every region is dated; every deregistered id is eligible in some region; a completed run has deregistered every eligible AMI of every region |
| `DeleteOldAmis.RunDeregistersEligible` | delete-old-amis.py:18-37 | in a completed run, an old AMI without the key in any region is deregistered |
| `DeleteSnapshots.DayStart` | delete-snapshots.py:24 | midnight of the start day: a multiple of 86400 at most `t` and within one day of it |
| `DeleteSnapshots.Deletions` | delete-snapshots.py:23-33 | deletion is attempted for an id iff a snapshot with it starts on a day before the cutoff and has no `FedoraGroup` key |
| `DeleteSnapshots.DayAlignedCutoff` | delete-snapshots.py:14-27 | for a cutoff at midnight, comparing the truncated or the whole start time gives the same answer |
| `DeleteSnapshots.TruncationDiffersOnlyOnCutoffDay` | delete-snapshots.py:24-27 | for any cutoff, the two comparisons disagree only when the start falls on the cutoff's own day |
| `DeleteSnapshots.KeptFromCutoffDay` | delete-snapshots.py:14-27 | any snapshot started on 2019-01-01 or later is kept |
| `DeleteAmis.PatternIsPrefix` | delete-amis.py:7-22 | `re.match` of `^Fedora-AtomicHost-.*` succeeds iff the name starts with `Fedora-AtomicHost-`, case-sensitively |
| `DeleteAmis.Deregistrations` | delete-amis.py:20-28 | deregistration is attempted for an id iff an AMI with it has a name starting with the prefix |
| `DeleteAmis.UnnamedNeverSelected` | delete-amis.py:21-22 | an AMI without a name is never selected |
| `DeleteAmis.TagsIgnored` | delete-amis.py:20-25 | tags play no part in the selection |
| `RawhideChanges.ExtractSection` | rawhide-changes.py:39-43 | no section iff the marker is absent; otherwise the text after the first marker up to the first stop after it, which is the next `=====`, or else the end of the text with a final newline left out |
| `RawhideChanges.MatchFrom` | rawhide-changes.py:47 | a match of the rest of the block regex ends just after a newline, and neither capture contains a newline |
| `RawhideChanges.MatchFromCaptures` | rawhide-changes.py:47 | the package capture is the text from its start up to the first newline; the summary capture is the text right before the newline the match ends on |
| `RawhideChanges.MatchAtBlock` | rawhide-changes.py:47 | at `Package:`, one space, a plain package line and a `Summary: ` line with a plain summary, the regex matches, reads back that package and summary, and ends after the summary line |
| `RawhideChanges.FindAll` | rawhide-changes.py:47-50 | no captured package or summary contains a newline |
| `RawhideChanges.FindAllRendered` | rawhide-changes.py:47-50 | `finditer` on text that is a run of well-formed blocks gives back exactly those blocks, in order |
| `RawhideChanges.ParseEmailContent` | rawhide-changes.py:39-41 | no result iff the text lacks `===== ADDED PACKAGES =====` |
| `RawhideChanges.BuildMapKeys` | rawhide-changes.py:49-52 | the packages are exactly the stripped names of the blocks |
| `RawhideChanges.BuildMapLastWins` | rawhide-changes.py:49-52 | a package repeated in one file keeps the line of its last block |
| `RawhideChanges.ValuesNameTheirKey` | rawhide-changes.py:51-52 | each line starts with a space, the package and ` - ` |
| `RawhideChanges.ParseRendered` | rawhide-changes.py:39-52 | a section of well-formed blocks followed by `=====` parses to the map those blocks build |
| `RawhideChanges.ParsedLine` | rawhide-changes.py:39-52 | in that case the last block for a package sets its line to `" " + strip(package) + " - " + strip(summary)` |
| `RawhideChanges.SectionDropsFinalNewline` | rawhide-changes.py:39-43 | a section that runs to the end of the text loses its final newline |
| `RawhideChanges.MergeFilesKeys` | rawhide-changes.py:79-87 | the merged packages are exactly those some file with the section provides; a file without it contributes nothing |
| `RawhideChanges.MergeFilesLastWins` | rawhide-changes.py:83-87 | across files, the last file that provides a package decides its line |
| `RawhideChanges.GlobPattern` | rawhide-changes.py:56-70 | a usage error iff the argument count is wrong; success iff the argument is 6 ASCII digits; the pattern is `*YYYY-MM*` and gives the argument back |
| `RawhideChanges.PatternInjective` | rawhide-changes.py:68-70 | different valid arguments give different patterns |
| `RawhideChanges.SortedOutput` | rawhide-changes.py:88-89 | each package is printed once, in strictly increasing code-point order, with its own line |
| `IbmBill.SumRowsIsSumOfSelected` | parse-ibm-cloud-bill.py:31-43 | the total is the sum of the costs of exactly the rows that match and whose cost parses |
| `IbmBill.UnparsableCostSkipped` | parse-ibm-cloud-bill.py:34-43 | a row whose cost does not parse adds nothing, whether or not it matches |
| `IbmBill.UnmatchedRowSkipped` | parse-ibm-cloud-bill.py:39-40 | a row matching neither column adds nothing |
| `IbmBill.CalculateCostSum` | parse-ibm-cloud-bill.py:16-57 | a missing file prints `File not found: <path>` and returns `None`, so no total is printed; no header or a missing required column is an uncaught error; otherwise the total of the selected costs |
| `IbmBill.PaddedAppcodeMatches` | parse-ibm-cloud-bill.py:35-39 | whitespace around `copr-001` in `appcode` still selects the row |
| `IbmBill.PaddedGroupMatches` | parse-ibm-cloud-bill.py:36-39 | whitespace around `copr` in `Resource Group Name` still selects the row |
| `Text.StripTrims` | parse-ibm-cloud-bill.py:35-37 | `strip` removes leading and trailing whitespace and nothing else |
| `Text.StripPadded` | parse-ibm-cloud-bill.py:35-36 | stripping whitespace padding gives back a core that has no outer whitespace |
| `LabelAmi.SnapshotWritesOutcome` | label-ami-id.py:30-34 | the snapshot loop crashes iff some `Ebs` entry lacks `SnapshotId`; each write names a snapshot of the image; without a crash every `Ebs` snapshot is written |
| `LabelAmi.RegionTraceOutcome` | label-ami-id.py:23-34 | a region crashes iff a matching image has an unreadable mapping; otherwise each matching image and all its `Ebs` snapshots are tagged |
| `LabelAmi.OtherImageIgnored` | label-ami-id.py:23-26 | an image with another id adds nothing |
| `LabelAmi.Run` | label-ami-id.py:9-46 | every write carries `FedoraGroup=ga-archives`, and every AMI write names the given id |
| `LabelAmi.RunTagsEveryMatch` | label-ami-id.py:21-27 | a completed run has tagged the given id in every region that lists a matching image |
| `Gp2ToGp3.Migrations` | gp2-to-gp3.py:20-31 | every call targets `gp3`; there is a call for a volume iff it is `gp2`; a region without `gp2` volumes gets none |
| `Gp2ToGp3.RunExact` | gp2-to-gp3.py:12-31 | across regions, a volume is modified iff it is `gp2` in its region |
| `Gp2ToGp3.TagsIgnored` | gp2-to-gp3.py:20 | tags play no part in the selection |

## Left out

- boto3 and botocore calls are not modelled. Their responses are inputs, and their effects are returned id sequences or traces. This covers region discovery, describe, create_tags, deregister, delete, modify and pagination.
- In copy-tags-from-ami.py the caught failures of `describe_snapshots` and `create_tags` are modelled: an unknown snapshot, and the snapshots in `failing`, keep their tags. The other caught failures are not modelled, because they change nothing the model tracks. These are `describe_images` in copy-tags-from-ami.py, `delete_snapshot` in delete-snapshots.py, `deregister_image` in delete-amis.py, and `create_tags` in fix-testing-farm-tags.py, whose traces list the attempted calls.
- `CopyTags.ProcessRegion` takes `failing` as one fixed set per region: a snapshot whose tagging fails for one AMI fails for every AMI that names it. Failures that depend on the attempt, such as throttling, are not modelled.
- Uncaught API write calls are assumed to succeed: `deregister_image` in delete-old-amis.py (line 37), `create_tags` in label-ami-id.py (line 11) and `modify_volume` in gp2-to-gp3.py (line 31). A failure of any of them would end the script; `DeleteOldAmis.RunOutcome` and `LabelAmi.RunTagsEveryMatch` describe runs in which these calls succeed.
- API-side filters are taken as already applied: the autoscaler tag and instance state in fix-testing-farm-tags.py, and `tag:FedoraGroup` in copy-tags-from-ami.py.
- Retry with exponential backoff and jitter in periodic-checker.py is timing and randomness.
- File loggers, the JSON error file, the result-directory fallback and `shlex.quote` printing in periodic-checker.py are I/O.
- The memory counter in periodic-checker.py is not modelled. It needs a float conversion and an API lookup of instance-type descriptions.
- `get_instance_price` in get_current_usage.py is a pricing-API call and is unused.
- The progress bar and the module-level region fetch in get_current_usage.py are plumbing.
- `extract_plain_text` in rawhide-changes.py is MIME parsing. Reading files and `glob` are I/O. The model starts from the text given to `parse_email_content`, and from the contents of the files the glob matched.
- CSV reading in parse-ibm-cloud-bill.py is not modelled. A file is its header and the three fields of each row.
- `float()` in parse-ibm-cloud-bill.py is a parameter. Costs add as exact reals, so floating-point rounding is not modelled.
- Date parsing and formatting are not modelled. Times are integer seconds since the epoch.
- snapshot-and-delete-volume.py is not part of this model. It makes two API calls in sequence and has no decision.
- `Tags.Lower` lower-cases ASCII letters only. Python's `str.lower` also folds non-ASCII letters, but only the Kelvin sign (to `k`) and `İ` (to `i` plus a combining dot) become ASCII. Neither `k` nor `i` occurs in `fedoragroup` or `name`, so `Tags.Lower` is exact for the comparisons with those two keys.
- `Text.IsDigit` accepts ASCII digits only. `str.isdigit` also accepts other Unicode digits, which the YYYYMM check would let through and the glob would then use.
- `TestingFarmTags.TagCalls` takes the order of `list(volumes_to_tag)` as a parameter, because Python leaves set order unspecified. Its contract fixes the calls up to that order.
- `CurrentUsage.RegionShownIff` does not model the order in which `GROUPS` is iterated. It is a Python set.
- `PeriodicChecker.AnalyzeInstanceErrors`: `PeriodicChecker.AnalyzeInstance` files the corrected duplicate message (see Findings), through `PeriodicChecker.Filed`. The message as written is `PeriodicChecker.AsWrittenMessage`. `PeriodicChecker.Messages` takes the wording as a parameter and holds for both; `PeriodicChecker.WordingOnlyInDuplicates` shows that the two wordings differ only in the duplicate messages.
- `DeleteSnapshots.DayStart` assumes `StartTime` is in UTC, as the API returns it.

## Findings

| source | as written | input that shows it | evidently intended | confidence | as-written member | corrected member |
|---|---|---|---|---|---|---|
| periodic-checker.py:164-167 | the duplicate-owner message says "changing from {name_tag} to {value}", naming the instance's Name tag | tags `Name=web`, `FedoraGroup=copr`, `FedoraGroup=infra`: the message reads "... changing from web to infra" | "changing from copr to infra": the owner being replaced | not executed | `PeriodicChecker.AsWrittenNamesTheName` | `PeriodicChecker.DuplicateOnSecondOwner` |

=== FILE: ami_pattern.dfy ===
/**
 * delete-amis.py: deregister every AMI whose name matches
 * `^Fedora-AtomicHost-.*`, whatever its tags.
 */
module DeleteAmis {
  import opened Wrappers
  import opened Tags
  import opened Lists
  import opened Text

  const PREFIX: string := "Fedora-AtomicHost-"

  /** An AMI; `Name` may be absent. */
  datatype Ami = Ami(id: string, name: Option<string>, tags: seq<Tag>)

  /** `.` of a Python regular expression: any character but a newline. */
  predicate AnyButNewline(s: string) {
    forall i :: 0 <= i < |s| ==> s[i] != '\n'
  }

  /**
   * `re.match(pattern, s)`: the literal prefix matches at position 0 and
   * `.*` matches some (possibly empty) run after it.
   */
  predicate PatternMatches(s: string) {
    exists k :: |PREFIX| <= k <= |s| && s[..|PREFIX|] == PREFIX && AnyButNewline(s[|PREFIX|..k])
  }

  /** `re.match` with this pattern is a case-sensitive prefix test. */
  lemma PatternIsPrefix(s: string)
    ensures PatternMatches(s) <==> StartsWith(s, PREFIX)
  {
    if StartsWith(s, PREFIX) {
      assert AnyButNewline(s[|PREFIX|..|PREFIX|]);
    }
  }

  /** The selection rule, on `ami.get('Name', '')`. */
  predicate Selected(a: Ami) {
    PatternMatches(a.name.GetOr(""))
  }

  /** The AMIs whose deregistration is attempted; an error on one does not stop the others. */
  function Deregistrations(amis: seq<Ami>): (r: seq<string>)
    ensures forall id :: id in r <==> exists i :: 0 <= i < |amis| && StartsWith(amis[i].name.GetOr(""), PREFIX) && amis[i].id == id
  {
    forall a | a in amis
      ensures Selected(a) <==> StartsWith(a.name.GetOr(""), PREFIX)
    {
      PatternIsPrefix(a.name.GetOr(""));
    }
    Select(amis, Selected, (a: Ami) => a.id)
  }

  /** An AMI without a name is never selected. */
  lemma UnnamedNeverSelected(a: Ami)
    requires a.name.None?
    ensures !Selected(a)
  {
    PatternIsPrefix("");
  }

  /** Tags are not consulted: a governed AMI with a matching name is deregistered too. */
  lemma TagsIgnored(a: Ami, tags: seq<Tag>)
    ensures Selected(a) <==> Selected(a.(tags := tags))
  {
  }
}

=== FILE: copy_tags.dfy ===
/**
 * copy-tags-from-ami.py: for every AMI whose first `FedoraGroup` tag has a
 * non-empty value, give each snapshot its block-device mappings name the
 * same `FedoraGroup` value, unless that snapshot already has the key.
 *
 * The snapshots of a region are a map from snapshot id to its tags; an id
 * that is not in the map stands for a snapshot `describe_snapshots` cannot
 * return, whose exception the script catches and reports. `failing` holds
 * the snapshots whose `create_tags` call raises; that exception is caught
 * and reported too, so such a snapshot keeps its tags and the loop goes on.
 */
module CopyTags {
  import opened Wrappers
  import opened Tags
  import opened Lists
  import opened Ec2

  /** An AMI as `describe_images` returns it; its id is only printed. */
  datatype Image = Image(tags: seq<Tag>, mappings: seq<Mapping>)

  type Snapshots = map<string, seq<Tag>>

  /** The value copied: the first tag whose key is exactly `FedoraGroup`. */
  function GroupValue(img: Image): Option<string> {
    FirstValue(img.tags, Exact(FEDORA_GROUP))
  }

  /** `if not tag_value: continue` skips both a missing and an empty value. */
  predicate Eligible(img: Image) {
    HasNonEmptyFirst(img.tags, Exact(FEDORA_GROUP))
  }

  /** The snapshot ids of the mappings whose `Ebs` names one, in mapping order. */
  function Candidates(img: Image): seq<string> {
    Select(img.mappings, HasSnapshot, SnapshotOf)
  }

  /** The snapshot already has the key, so it is left alone. */
  predicate Protected(snaps: Snapshots, s: string) {
    s in snaps && HasKey(snaps[s], Exact(FEDORA_GROUP))
  }

  /** `tag_snapshot_if_missing`; a failure is caught inside it. */
  function TagIfMissing(snaps: Snapshots, sid: string, value: string, failing: set<string>): (r: Snapshots)
    ensures r.Keys == snaps.Keys
    ensures forall s :: s in snaps && s != sid ==> r[s] == snaps[s]
    ensures sid in failing ==> r == snaps
    ensures sid in snaps && sid !in failing ==> Protected(r, sid)
    ensures sid in snaps && sid !in failing ==>
      FirstValue(r[sid], Exact(FEDORA_GROUP))
      == if Protected(snaps, sid) then FirstValue(snaps[sid], Exact(FEDORA_GROUP)) else Some(value)
  {
    if sid !in snaps || Protected(snaps, sid) || sid in failing then snaps
    else
      var tags := snaps[sid];
      HasKeySnoc(tags, (FEDORA_GROUP, value), Exact(FEDORA_GROUP));
      assert FirstValue(tags + [(FEDORA_GROUP, value)], Exact(FEDORA_GROUP)) == Some(value) by {
        var t := tags + [(FEDORA_GROUP, value)];
        assert t[|tags|] == (FEDORA_GROUP, value);
        assert IsFirstMatch(t, Exact(FEDORA_GROUP), |tags|);
      }
      snaps[sid := tags + [(FEDORA_GROUP, value)]]
  }

  /** Calling it twice for the same snapshot changes nothing the second time. */
  lemma TagIfMissingIdempotent(snaps: Snapshots, sid: string, v: string, w: string, failing: set<string>)
    ensures TagIfMissing(TagIfMissing(snaps, sid, v, failing), sid, w, failing) == TagIfMissing(snaps, sid, v, failing)
  {
  }

  /** The mapping loop of one AMI. */
  function TagAll(snaps: Snapshots, ids: seq<string>, value: string, failing: set<string>): Snapshots
    decreases |ids|
  {
    if |ids| == 0 then snaps
    else TagAll(TagIfMissing(snaps, ids[0], value, failing), ids[1..], value, failing)
  }

  /** One AMI of `process_region`. */
  function ProcessImage(snaps: Snapshots, img: Image, failing: set<string>): Snapshots {
    if Eligible(img) then TagAll(snaps, Candidates(img), GroupValue(img).value, failing) else snaps
  }

  /** The image loop of `process_region`, in the order the images come. */
  function ProcessRegion(snaps: Snapshots, imgs: seq<Image>, failing: set<string>): Snapshots
    decreases |imgs|
  {
    if |imgs| == 0 then snaps
    else ProcessRegion(ProcessImage(snaps, imgs[0], failing), imgs[1..], failing)
  }

  /**
   * The value a snapshot should end up with: that of the first eligible
   * AMI that names it.
   */
  function Claim(imgs: seq<Image>, s: string): Option<string> {
    if |imgs| == 0 then None
    else if Eligible(imgs[0]) && s in Candidates(imgs[0]) then GroupValue(imgs[0])
    else Claim(imgs[1..], s)
  }

  /** What the mapping loop does to one snapshot. */
  lemma {:induction false} TagAllOutcome(snaps: Snapshots, ids: seq<string>, value: string, failing: set<string>, s: string)
    ensures TagAll(snaps, ids, value, failing).Keys == snaps.Keys
    ensures s in snaps && (Protected(snaps, s) || s !in ids || s in failing)
            ==> TagAll(snaps, ids, value, failing)[s] == snaps[s]
    ensures s in snaps && !Protected(snaps, s) && s in ids && s !in failing
            ==> TagAll(snaps, ids, value, failing)[s] == snaps[s] + [(FEDORA_GROUP, value)]
  {
    if |ids| > 0 {
      var next := TagIfMissing(snaps, ids[0], value, failing);
      TagAllOutcome(next, ids[1..], value, failing, s);
      assert ids == [ids[0]] + ids[1..];
      if s in snaps && s == ids[0] && !Protected(snaps, s) && s !in failing {
        assert next[s] == snaps[s] + [(FEDORA_GROUP, value)];
        assert Protected(next, s);
      }
    }
  }

  /**
   * After a region: every snapshot keeps its tags, except one without the
   * key that an eligible AMI names and whose tagging does not fail, which
   * gains exactly one tag with the value of the first such AMI.
   */
  lemma {:induction false} ProcessRegionOutcome(snaps: Snapshots, imgs: seq<Image>, failing: set<string>, s: string)
    requires s in snaps
    ensures ProcessRegion(snaps, imgs, failing).Keys == snaps.Keys
    ensures Protected(snaps, s) || Claim(imgs, s).None? || s in failing
            ==> ProcessRegion(snaps, imgs, failing)[s] == snaps[s]
    ensures !Protected(snaps, s) && Claim(imgs, s).Some? && s !in failing
            ==> ProcessRegion(snaps, imgs, failing)[s] == snaps[s] + [(FEDORA_GROUP, Claim(imgs, s).value)]
  {
    if |imgs| > 0 {
      var img := imgs[0];
      var next := ProcessImage(snaps, img, failing);
      if Eligible(img) {
        TagAllOutcome(snaps, Candidates(img), GroupValue(img).value, failing, s);
      }
      assert s in next;
      ProcessRegionOutcome(next, imgs[1..], failing, s);
      if Eligible(img) && s in Candidates(img) && !Protected(snaps, s) && s !in failing {
        var v := GroupValue(img).value;
        assert next[s] == snaps[s] + [(FEDORA_GROUP, v)];
        HasKeySnoc(snaps[s], (FEDORA_GROUP, v), Exact(FEDORA_GROUP));
        assert Protected(next, s);
      }
    }
  }

  /**
   * A snapshot an eligible AMI names ends up with the key unless its own
   * tagging fails: of those that lacked the key, exactly the failing ones
   * stay without it.
   */
  lemma NamedSnapshotsEndTagged(snaps: Snapshots, imgs: seq<Image>, failing: set<string>, s: string)
    requires s in snaps && Claim(imgs, s).Some?
    ensures Protected(ProcessRegion(snaps, imgs, failing), s) <==> Protected(snaps, s) || s !in failing
  {
    ProcessRegionOutcome(snaps, imgs, failing, s);
    if !Protected(snaps, s) && s !in failing {
      HasKeySnoc(snaps[s], (FEDORA_GROUP, Claim(imgs, s).value), Exact(FEDORA_GROUP));
    }
  }

  /** A failure on one snapshot does not change what happens to any other. */
  lemma FailuresStayLocal(snaps: Snapshots, imgs: seq<Image>, failing: set<string>, s: string)
    requires s in snaps && s !in failing
    ensures s in ProcessRegion(snaps, imgs, failing) && s in ProcessRegion(snaps, imgs, {})
    ensures ProcessRegion(snaps, imgs, failing)[s] == ProcessRegion(snaps, imgs, {})[s]
  {
    ProcessRegionOutcome(snaps, imgs, failing, s);
    ProcessRegionOutcome(snaps, imgs, {}, s);
  }

  /** A claimed value is never empty: AMIs whose value is empty are skipped. */
  lemma {:induction false} ClaimNonEmpty(imgs: seq<Image>, s: string)
    ensures Claim(imgs, s).Some? ==> Claim(imgs, s).value != ""
  {
    if |imgs| > 0 && !(Eligible(imgs[0]) && s in Candidates(imgs[0])) {
      ClaimNonEmpty(imgs[1..], s);
    }
  }
}

=== FILE: current_usage.dfy ===
/**
 * get_current_usage.py: total the volumes (by size) and the instances (by
 * count) of every owner, per region and per type, and decide which regions
 * the report shows for each owner.
 *
 * Here the owner is the value of the first tag whose key is exactly
 * `FedoraGroup`; a record without one, or whose value is `""`, is skipped,
 * but any value found (the empty one too) is first added to `GROUPS`.
 */
module CurrentUsage {
  import opened Wrappers
  import opened Tags
  import opened Lists

  const GROUP_KEY: KeyMatch := Exact(FEDORA_GROUP)

  /** One volume or instance: its region, its type, what it adds, its tags (`None` allowed). */
  datatype Record = Record(region: string, rtype: string, amount: int, tags: Option<seq<Tag>>)

  /** A volume of `volumes.all()`: it adds its size in GiB. */
  datatype Volume = Volume(region: string, volumeType: string, size: int, tags: Option<seq<Tag>>)

  /** An instance of `instances.all()`, in any state: it adds 1. */
  datatype Instance = Instance(region: string, instanceType: string, tags: Option<seq<Tag>>)

  function VolumeRecords(vs: seq<Volume>): (r: seq<Record>)
    ensures |r| == |vs|
    ensures forall i :: 0 <= i < |vs| ==> r[i] == Record(vs[i].region, vs[i].volumeType, vs[i].size, vs[i].tags)
  {
    seq(|vs|, i requires 0 <= i < |vs| => Record(vs[i].region, vs[i].volumeType, vs[i].size, vs[i].tags))
  }

  function InstanceRecords(xs: seq<Instance>): (r: seq<Record>)
    ensures |r| == |xs|
    ensures forall i :: 0 <= i < |xs| ==> r[i] == Record(xs[i].region, xs[i].instanceType, 1, xs[i].tags)
  {
    seq(|xs|, i requires 0 <= i < |xs| => Record(xs[i].region, xs[i].instanceType, 1, xs[i].tags))
  }

  /** The `fedora_group` the tag loop ends with: the first exact match, or `None`. */
  function GroupOf(rec: Record): Option<string> {
    FirstValue(OrEmpty(rec.tags), GROUP_KEY)
  }

  /** `if not fedora_group: continue` lets the record through. */
  predicate Counted(rec: Record) {
    HasNonEmptyFirst(OrEmpty(rec.tags), GROUP_KEY)
  }

  /** The record adds to cell `(g, r, t)`. */
  predicate Contributes(rec: Record, g: string, r: string, t: string) {
    Counted(rec) && GroupOf(rec).value == g && rec.region == r && rec.rtype == t
  }

  /** The record creates or adds to some cell of owner `g` in region `r`. */
  predicate ContributesTo(rec: Record, g: string, r: string) {
    Counted(rec) && GroupOf(rec).value == g && rec.region == r
  }

  /** The record creates or adds to some cell of owner `g`. */
  predicate ContributesToGroup(rec: Record, g: string) {
    Counted(rec) && GroupOf(rec).value == g
  }

  /** `GROUPS` after the records: every value found, even `""`. */
  function Seen(recs: seq<Record>): (s: set<string>)
    ensures forall g :: g in s <==> exists i :: 0 <= i < |recs| && GroupOf(recs[i]) == Some(g)
  {
    set i | 0 <= i < |recs| && GroupOf(recs[i]).Some? :: GroupOf(recs[i]).value
  }

  /** A counted record's owner is in `GROUPS`, and so may be `""`, which is never counted. */
  lemma SeenCoversCounted(recs: seq<Record>, i: int)
    requires 0 <= i < |recs| && Counted(recs[i])
    ensures GroupOf(recs[i]).value in Seen(recs) && GroupOf(recs[i]).value != ""
  {
  }

  // ---------------------------------------------------------------------
  // The nested tally `data[group][region][type]`

  type Tally = map<string, map<string, map<string, int>>>

  predicate In1(t: Tally, g: string) {
    g in t
  }

  predicate In2(t: Tally, g: string, r: string) {
    g in t && r in t[g]
  }

  predicate In3(t: Tally, g: string, r: string, ty: string) {
    g in t && r in t[g] && ty in t[g][r]
  }

  /** The value of a cell, 0 where no cell exists. */
  function Cell(t: Tally, g: string, r: string, ty: string): int {
    if In3(t, g, r, ty) then t[g][r][ty] else 0
  }

  /** Create the missing levels at `{}` and the missing cell at 0, then add `amt`. */
  function Bump(t: Tally, g: string, r: string, ty: string, amt: int): (u: Tally)
    ensures forall g' :: In1(u, g') <==> In1(t, g') || g' == g
    ensures forall g', r' :: In2(u, g', r') <==> In2(t, g', r') || (g' == g && r' == r)
    ensures forall g', r', ty' :: In3(u, g', r', ty') <==> In3(t, g', r', ty') || (g' == g && r' == r && ty' == ty)
    ensures forall g', r', ty' ::
      (Cell(u, g', r', ty') == Cell(t, g', r', ty') + (if g' == g && r' == r && ty' == ty then amt else 0))
  {
    var byRegion := if g in t then t[g] else map[];
    var byType := if r in byRegion then byRegion[r] else map[];
    var cur := if ty in byType then byType[ty] else 0;
    t[g := byRegion[r := byType[ty := cur + amt]]]
  }

  /** `get_volumes_by_group` / `get_instances_by_group_and_region` over the records in order. */
  function TallyAll(recs: seq<Record>): Tally {
    if |recs| == 0 then map[]
    else
      var n := |recs| - 1;
      var t := TallyAll(recs[..n]);
      var rec := recs[n];
      if Counted(rec) then Bump(t, GroupOf(rec).value, rec.region, rec.rtype, rec.amount) else t
  }

  /** The sum of `amount` over the records that add to cell `(g, r, ty)`. */
  function Total(recs: seq<Record>, g: string, r: string, ty: string): int {
    if |recs| == 0 then 0
    else
      var n := |recs| - 1;
      Total(recs[..n], g, r, ty) + (if Contributes(recs[n], g, r, ty) then recs[n].amount else 0)
  }

  /** Each cell holds the sum over the records that add to it. */
  lemma {:induction false} TallyCell(recs: seq<Record>, g: string, r: string, ty: string)
    ensures Cell(TallyAll(recs), g, r, ty) == Total(recs, g, r, ty)
  {
    if |recs| > 0 {
      TallyCell(recs[..|recs| - 1], g, r, ty);
    }
  }

  /** A cell exists iff some record adds to it. */
  lemma {:induction false} TallyCellExists(recs: seq<Record>, g: string, r: string, ty: string)
    ensures In3(TallyAll(recs), g, r, ty) <==> exists i :: 0 <= i < |recs| && Contributes(recs[i], g, r, ty)
  {
    if |recs| > 0 {
      var n := |recs| - 1;
      TallyCellExists(recs[..n], g, r, ty);
      PrefixWitness(recs, n);
      if exists i :: 0 <= i < |recs| && Contributes(recs[i], g, r, ty) {
        var i :| 0 <= i < |recs| && Contributes(recs[i], g, r, ty);
        if i < n {
          assert Contributes(recs[..n][i], g, r, ty);
        }
      }
    }
  }

  /** A region level exists for an owner iff some record of that owner is in that region. */
  lemma {:induction false} TallyRegionExists(recs: seq<Record>, g: string, r: string)
    ensures In2(TallyAll(recs), g, r) <==> exists i :: 0 <= i < |recs| && ContributesTo(recs[i], g, r)
  {
    if |recs| > 0 {
      var n := |recs| - 1;
      TallyRegionExists(recs[..n], g, r);
      PrefixWitness(recs, n);
      if exists i :: 0 <= i < |recs| && ContributesTo(recs[i], g, r) {
        var i :| 0 <= i < |recs| && ContributesTo(recs[i], g, r);
        if i < n {
          assert ContributesTo(recs[..n][i], g, r);
        }
      }
    }
  }

  /** An owner level exists iff some counted record has that owner. */
  lemma {:induction false} TallyGroupExists(recs: seq<Record>, g: string)
    ensures In1(TallyAll(recs), g) <==> exists i :: 0 <= i < |recs| && ContributesToGroup(recs[i], g)
  {
    if |recs| > 0 {
      var n := |recs| - 1;
      TallyGroupExists(recs[..n], g);
      PrefixWitness(recs, n);
      if exists i :: 0 <= i < |recs| && ContributesToGroup(recs[i], g) {
        var i :| 0 <= i < |recs| && ContributesToGroup(recs[i], g);
        if i < n {
          assert ContributesToGroup(recs[..n][i], g);
        }
      }
    }
  }

  /** The prefix holds the same records at the same positions. */
  lemma PrefixWitness(recs: seq<Record>, n: nat)
    requires n <= |recs|
    ensures forall i :: 0 <= i < n ==> recs[..n][i] == recs[i]
  {
  }

  // ---------------------------------------------------------------------
  // Order independence

  /** `Total` distributes over concatenation. */
  lemma {:induction false} TotalAppend(a: seq<Record>, b: seq<Record>, g: string, r: string, ty: string)
    ensures Total(a + b, g, r, ty) == Total(a, g, r, ty) + Total(b, g, r, ty)
    decreases |b|
  {
    if |b| == 0 {
      assert a + b == a;
    } else {
      var n := |b| - 1;
      assert (a + b)[..|a| + n] == a + b[..n];
      TotalAppend(a, b[..n], g, r, ty);
    }
  }

  /** Rearranging the records does not change any sum. */
  lemma {:induction false} TotalPermutation(xs: seq<Record>, ys: seq<Record>, g: string, r: string, ty: string)
    requires multiset(xs) == multiset(ys)
    ensures Total(xs, g, r, ty) == Total(ys, g, r, ty)
    decreases |xs|
  {
    if |xs| == 0 {
      assert |ys| == |multiset(ys)| == 0;
    } else {
      var n := |xs| - 1;
      var x := xs[n];
      assert x in multiset(ys) by {
        assert xs == xs[..n] + [x];
      }
      var k :| 0 <= k < |ys| && ys[k] == x;
      var rest := ys[..k] + ys[k + 1..];
      RemoveOne(xs, n);
      RemoveOne(ys, k);
      assert xs[..n] + xs[n + 1..] == xs[..n];
      TotalPermutation(xs[..n], rest, g, r, ty);
      TotalRemove(ys, k, g, r, ty);
    }
  }

  /** Taking out the record at `k` takes one copy of it out of the multiset. */
  lemma RemoveOne(ys: seq<Record>, k: int)
    requires 0 <= k < |ys|
    ensures multiset(ys[..k] + ys[k + 1..]) == multiset(ys) - multiset{ys[k]}
  {
    assert ys == ys[..k] + [ys[k]] + ys[k + 1..];
  }

  /** Taking out the record at `k` takes its amount out of the sum if it adds there. */
  lemma TotalRemove(ys: seq<Record>, k: int, g: string, r: string, ty: string)
    requires 0 <= k < |ys|
    ensures Total(ys, g, r, ty) ==
      Total(ys[..k] + ys[k + 1..], g, r, ty) + (if Contributes(ys[k], g, r, ty) then ys[k].amount else 0)
  {
    var x := ys[k];
    assert ys == ys[..k] + ([x] + ys[k + 1..]);
    TotalAppend(ys[..k], [x] + ys[k + 1..], g, r, ty);
    TotalAppend([x], ys[k + 1..], g, r, ty);
    TotalAppend(ys[..k], ys[k + 1..], g, r, ty);
    assert [x][..0] == [];
  }

  /** Some record of a permutation satisfies a property iff some record of the original does. */
  lemma SameMembers(xs: seq<Record>, ys: seq<Record>)
    requires multiset(xs) == multiset(ys)
    ensures forall x :: x in xs <==> x in ys
  {
    forall x
      ensures x in xs <==> x in ys
    {
      assert x in xs <==> x in multiset(xs);
      assert x in ys <==> x in multiset(ys);
    }
  }

  /** The nested tally does not depend on the order in which records arrive. */
  lemma TallyOrderIrrelevant(xs: seq<Record>, ys: seq<Record>)
    requires multiset(xs) == multiset(ys)
    ensures TallyAll(xs) == TallyAll(ys)
  {
    var a, b := TallyAll(xs), TallyAll(ys);
    SameMembers(xs, ys);
    forall g
      ensures g in a <==> g in b
    {
      SameGroups(xs, ys, g);
    }
    forall g | g in a
      ensures a[g] == b[g]
    {
      forall r
        ensures r in a[g] <==> r in b[g]
      {
        SameRegions(xs, ys, g, r);
      }
      forall r | r in a[g]
        ensures a[g][r] == b[g][r]
      {
        forall ty
          ensures ty in a[g][r] <==> ty in b[g][r]
        {
          SameTypes(xs, ys, g, r, ty);
        }
        forall ty | ty in a[g][r]
          ensures a[g][r][ty] == b[g][r][ty]
        {
          TallyCell(xs, g, r, ty);
          TallyCell(ys, g, r, ty);
          TotalPermutation(xs, ys, g, r, ty);
        }
      }
    }
  }

  /** Record sequences with the same members create the same owner keys. */
  lemma SameGroups(xs: seq<Record>, ys: seq<Record>, g: string)
    requires forall x :: x in xs <==> x in ys
    ensures In1(TallyAll(xs), g) <==> In1(TallyAll(ys), g)
  {
    TallyGroupExists(xs, g);
    TallyGroupExists(ys, g);
    if exists i :: 0 <= i < |xs| && ContributesToGroup(xs[i], g) {
      var i :| 0 <= i < |xs| && ContributesToGroup(xs[i], g);
      assert xs[i] in ys;
    }
    if exists i :: 0 <= i < |ys| && ContributesToGroup(ys[i], g) {
      var i :| 0 <= i < |ys| && ContributesToGroup(ys[i], g);
      assert ys[i] in xs;
    }
  }

  /** Record sequences with the same members create the same region keys. */
  lemma SameRegions(xs: seq<Record>, ys: seq<Record>, g: string, r: string)
    requires forall x :: x in xs <==> x in ys
    ensures In2(TallyAll(xs), g, r) <==> In2(TallyAll(ys), g, r)
  {
    TallyRegionExists(xs, g, r);
    TallyRegionExists(ys, g, r);
    if exists i :: 0 <= i < |xs| && ContributesTo(xs[i], g, r) {
      var i :| 0 <= i < |xs| && ContributesTo(xs[i], g, r);
      assert xs[i] in ys;
    }
    if exists i :: 0 <= i < |ys| && ContributesTo(ys[i], g, r) {
      var i :| 0 <= i < |ys| && ContributesTo(ys[i], g, r);
      assert ys[i] in xs;
    }
  }

  /** Record sequences with the same members create the same type keys. */
  lemma SameTypes(xs: seq<Record>, ys: seq<Record>, g: string, r: string, ty: string)
    requires forall x :: x in xs <==> x in ys
    ensures In3(TallyAll(xs), g, r, ty) <==> In3(TallyAll(ys), g, r, ty)
  {
    TallyCellExists(xs, g, r, ty);
    TallyCellExists(ys, g, r, ty);
    if exists i :: 0 <= i < |xs| && Contributes(xs[i], g, r, ty) {
      var i :| 0 <= i < |xs| && Contributes(xs[i], g, r, ty);
      assert xs[i] in ys;
    }
    if exists i :: 0 <= i < |ys| && Contributes(ys[i], g, r, ty) {
      var i :| 0 <= i < |ys| && Contributes(ys[i], g, r, ty);
      assert ys[i] in xs;
    }
  }

  // ---------------------------------------------------------------------
  // `print_volume_instance_data`

  /** `output_instance or output_volume`: owner `g` has some line in region `r`. */
  predicate RegionShown(instances: Tally, volumes: Tally, g: string, r: string) {
    (In2(instances, g, r) && |instances[g][r]| > 0) || (In2(volumes, g, r) && |volumes[g][r]| > 0)
  }

  /** The regions printed under owner `g`, in the order of `REGIONS`. */
  function ShownRegions(regions: seq<string>, instances: Tally, volumes: Tally, g: string): seq<string> {
    Select(regions, r => RegionShown(instances, volumes, g, r), r => r)
  }

  /** A region level of the tally is never empty. */
  lemma RegionLevelNonEmpty(recs: seq<Record>, g: string, r: string)
    requires In2(TallyAll(recs), g, r)
    ensures |TallyAll(recs)[g][r]| > 0
  {
    TallyRegionExists(recs, g, r);
    var i :| 0 <= i < |recs| && ContributesTo(recs[i], g, r);
    TallyCellExists(recs, g, r, recs[i].rtype);
    assert recs[i].rtype in TallyAll(recs)[g][r];
  }

  /** A region is printed for an owner iff one of its instances or volumes is counted there. */
  lemma RegionShownIff(insts: seq<Instance>, vols: seq<Volume>, g: string, r: string)
    ensures var ir, vr := InstanceRecords(insts), VolumeRecords(vols);
      RegionShown(TallyAll(ir), TallyAll(vr), g, r) <==>
        (exists i :: 0 <= i < |ir| && ContributesTo(ir[i], g, r))
        || (exists i :: 0 <= i < |vr| && ContributesTo(vr[i], g, r))
  {
    var ir, vr := InstanceRecords(insts), VolumeRecords(vols);
    TallyRegionExists(ir, g, r);
    TallyRegionExists(vr, g, r);
    if In2(TallyAll(ir), g, r) {
      RegionLevelNonEmpty(ir, g, r);
    }
    if In2(TallyAll(vr), g, r) {
      RegionLevelNonEmpty(vr, g, r);
    }
  }

  /** The records that add to cell `(g, r, ty)`, in order. */
  function Contributors(recs: seq<Record>, g: string, r: string, ty: string): seq<Record> {
    Select(recs, (rec: Record) => Contributes(rec, g, r, ty), (rec: Record) => rec)
  }

  /** `instances_data[g][r][t]` counts the instances, whatever their state. */
  lemma {:induction false} InstanceCellCounts(xs: seq<Instance>, g: string, r: string, ty: string)
    ensures Total(InstanceRecords(xs), g, r, ty) == |Contributors(InstanceRecords(xs), g, r, ty)|
  {
    var recs := InstanceRecords(xs);
    CountOnes(recs, g, r, ty);
  }

  /** With every amount 1, the sum over a cell is the number of records adding to it. */
  lemma {:induction false} CountOnes(recs: seq<Record>, g: string, r: string, ty: string)
    requires forall i :: 0 <= i < |recs| ==> recs[i].amount == 1
    ensures Total(recs, g, r, ty) == |Contributors(recs, g, r, ty)|
  {
    if |recs| > 0 {
      var n := |recs| - 1;
      var front, x := recs[..n], recs[n];
      CountOnes(front, g, r, ty);
      assert recs == front + [x];
      SelectSnoc(front, x, (rec: Record) => Contributes(rec, g, r, ty), (rec: Record) => rec);
    }
  }
}

=== FILE: dicts.dfy ===
/**
 * Python dictionaries built by assignment: `d[k] = v` over a sequence of
 * pairs, and `d.update(m)` over a sequence of dictionaries. A later
 * assignment to the same key overwrites an earlier one.
 */
module Dicts {
  import opened Wrappers

  /** `d = {}; for k, v in ps: d[k] = v`. */
  function Assign<K(==), V>(ps: seq<(K, V)>): map<K, V> {
    if |ps| == 0 then map[]
    else Assign(ps[..|ps| - 1])[ps[|ps| - 1].0 := ps[|ps| - 1].1]
  }

  /** Index `i` is the last pair whose key is `k`. */
  predicate IsLastKey<K(==), V>(ps: seq<(K, V)>, k: K, i: int) {
    0 <= i < |ps| && ps[i].0 == k && forall j :: i < j < |ps| ==> ps[j].0 != k
  }

  /** A key is in the dictionary iff some pair assigned it. */
  lemma {:induction false} AssignKeys<K, V>(ps: seq<(K, V)>, k: K)
    ensures k in Assign(ps) <==> exists i :: 0 <= i < |ps| && ps[i].0 == k
  {
    if |ps| > 0 {
      var n := |ps| - 1;
      AssignKeys(ps[..n], k);
      if k in Assign(ps[..n]) {
        var i :| 0 <= i < n && ps[..n][i].0 == k;
        assert ps[i].0 == k;
      }
      if exists i :: 0 <= i < |ps| && ps[i].0 == k {
        var i :| 0 <= i < |ps| && ps[i].0 == k;
        if i < n {
          assert ps[..n][i].0 == k;
        }
      }
    }
  }

  /** The value kept for `k` is the one of the last pair that assigned it. */
  lemma {:induction false} AssignLastWins<K, V>(ps: seq<(K, V)>, k: K, i: int)
    requires IsLastKey(ps, k, i)
    ensures k in Assign(ps) && Assign(ps)[k] == ps[i].1
  {
    var n := |ps| - 1;
    if i < n {
      assert IsLastKey(ps[..n], k, i) by {
        forall j | i < j < n
          ensures ps[..n][j].0 != k
        {
          assert ps[..n][j] == ps[j];
        }
      }
      AssignLastWins(ps[..n], k, i);
    }
  }

  /** A key that some pair assigns has a last such pair. */
  lemma {:induction false} LastKeyExists<K, V>(ps: seq<(K, V)>, k: K) returns (i: int)
    requires exists j :: 0 <= j < |ps| && ps[j].0 == k
    ensures IsLastKey(ps, k, i)
  {
    var n := |ps| - 1;
    if ps[n].0 == k {
      i := n;
    } else {
      var j :| 0 <= j < |ps| && ps[j].0 == k;
      assert ps[..n][j].0 == k;
      i := LastKeyExists(ps[..n], k);
      assert ps[..n][i] == ps[i];
    }
  }

  /** `m` is present and holds `k`. */
  predicate Yields<K(==), V>(m: Option<map<K, V>>, k: K) {
    m.Some? && k in m.value
  }

  /**
   * `d = {}; for m in ms: d.update(m)`, where an absent `m` makes `update`
   * raise and the caller catches it, so `d` is left as it was.
   */
  function UpdateAll<K(==), V>(ms: seq<Option<map<K, V>>>): map<K, V> {
    if |ms| == 0 then map[]
    else
      var acc := UpdateAll(ms[..|ms| - 1]);
      match ms[|ms| - 1]
      case None => acc
      case Some(m) => acc + m
  }

  /** A key is in the merged dictionary iff some present dictionary holds it. */
  lemma {:induction false} UpdateAllKeys<K, V>(ms: seq<Option<map<K, V>>>, k: K)
    ensures k in UpdateAll(ms) <==> exists i :: 0 <= i < |ms| && Yields(ms[i], k)
  {
    if |ms| > 0 {
      var n := |ms| - 1;
      UpdateAllKeys(ms[..n], k);
      if k in UpdateAll(ms[..n]) {
        var i :| 0 <= i < n && Yields(ms[..n][i], k);
        assert Yields(ms[i], k);
      }
      if exists i :: 0 <= i < |ms| && Yields(ms[i], k) {
        var i :| 0 <= i < |ms| && Yields(ms[i], k);
        if i < n {
          assert Yields(ms[..n][i], k);
        }
      }
    }
  }

  /** The merged value of `k` comes from the last dictionary that holds it. */
  lemma {:induction false} UpdateAllLastWins<K, V>(ms: seq<Option<map<K, V>>>, k: K, i: int)
    requires 0 <= i < |ms| && Yields(ms[i], k)
    requires forall j :: i < j < |ms| ==> !Yields(ms[j], k)
    ensures k in UpdateAll(ms) && UpdateAll(ms)[k] == ms[i].value[k]
  {
    var n := |ms| - 1;
    if i < n {
      forall j | i < j < n
        ensures !Yields(ms[..n][j], k)
      {
        assert ms[..n][j] == ms[j];
      }
      assert ms[..n][i] == ms[i];
      UpdateAllLastWins(ms[..n], k, i);
    }
  }
}

=== FILE: ec2.dfy ===
/** Response shapes shared by the scripts that walk `BlockDeviceMappings`. */
module Ec2 {
  import opened Wrappers

  /** The `Ebs` entry of a mapping; either id may be missing from the response. */
  datatype Ebs = Ebs(volumeId: Option<string>, snapshotId: Option<string>)

  /** One block-device mapping: `Ebs` is absent for instance-store and similar devices. */
  datatype Mapping = Mapping(ebs: Option<Ebs>)

  /** The mapping has an `Ebs` entry. */
  predicate HasEbs(m: Mapping) {
    m.ebs.Some?
  }

  /** The mapping has an `Ebs` entry that names a snapshot. */
  predicate HasSnapshot(m: Mapping) {
    m.ebs.Some? && m.ebs.value.snapshotId.Some?
  }

  /** The snapshot id of a mapping, `""` where there is none. */
  function SnapshotOf(m: Mapping): string {
    if HasSnapshot(m) then m.ebs.value.snapshotId.value else ""
  }
}

=== FILE: gp2_to_gp3.dfy ===
/**
 * gp2-to-gp3.py: in every region, change every `gp2` volume to `gp3`. Each
 * `modify_volume` call is one entry of the returned list.
 */
module Gp2ToGp3 {
  import opened Tags
  import opened Lists

  const GP2: string := "gp2"
  const GP3: string := "gp3"

  datatype Volume = Volume(id: string, volumeType: string, tags: seq<Tag>)

  /** One `modify_volume(VolumeId=..., VolumeType=...)` call. */
  datatype Modify = Modify(region: string, volumeId: string, volumeType: string)

  /** The volumes `describe_volumes` lists in one region. */
  datatype Region = Region(name: string, volumes: seq<Volume>)

  /** `volume['VolumeType'] == 'gp2'`. */
  predicate IsGp2(v: Volume) {
    v.volumeType == GP2
  }

  /** The calls of one region, in listing order. */
  function Migrations(r: Region): (calls: seq<Modify>)
    ensures forall c :: c in calls ==> c.region == r.name && c.volumeType == GP3
    ensures forall c :: c in calls ==> exists i :: 0 <= i < |r.volumes| && IsGp2(r.volumes[i]) && r.volumes[i].id == c.volumeId
    ensures forall i :: 0 <= i < |r.volumes| && IsGp2(r.volumes[i]) ==> Modify(r.name, r.volumes[i].id, GP3) in calls
    ensures (forall i :: 0 <= i < |r.volumes| ==> !IsGp2(r.volumes[i])) ==> calls == []
  {
    Select(r.volumes, IsGp2, (v: Volume) => Modify(r.name, v.id, GP3))
  }

  /** The region loop. */
  function Run(regions: seq<Region>): seq<Modify>
    decreases |regions|
  {
    if |regions| == 0 then [] else Migrations(regions[0]) + Run(regions[1..])
  }

  /** A call is made for a volume iff it is `gp2` in its region, and it always targets `gp3`. */
  lemma RunExact(regions: seq<Region>, name: string, id: string)
    ensures forall c :: c in Run(regions) ==> c.volumeType == GP3
    ensures (exists c :: c in Run(regions) && c.region == name && c.volumeId == id) <==>
      exists k, i :: 0 <= k < |regions| && regions[k].name == name && 0 <= i < |regions[k].volumes|
        && IsGp2(regions[k].volumes[i]) && regions[k].volumes[i].id == id
  {
    RunTargetsGp3(regions);
    RunCallsExact(regions, name, id);
    if exists k :: 0 <= k < |regions| && regions[k].name == name && ListsGp2(regions[k], id) {
      var k :| 0 <= k < |regions| && regions[k].name == name && ListsGp2(regions[k], id);
      var i :| 0 <= i < |regions[k].volumes| && IsGp2(regions[k].volumes[i]) && regions[k].volumes[i].id == id;
    }
  }

  lemma {:induction false} RunTargetsGp3(regions: seq<Region>)
    ensures forall c :: c in Run(regions) ==> c.volumeType == GP3
    decreases |regions|
  {
    if |regions| > 0 {
      RunTargetsGp3(regions[1..]);
    }
  }

  /** Some call in `calls` modifies volume `id` of region `name`. */
  predicate HasCall(calls: seq<Modify>, name: string, id: string) {
    exists c :: c in calls && c.region == name && c.volumeId == id
  }

  /** Region `r` lists volume `id` as `gp2`. */
  predicate ListsGp2(r: Region, id: string) {
    exists i :: 0 <= i < |r.volumes| && IsGp2(r.volumes[i]) && r.volumes[i].id == id
  }

  /** One region's calls name exactly its own `gp2` volumes. */
  lemma MigrationsExact(r: Region, name: string, id: string)
    ensures HasCall(Migrations(r), name, id) <==> r.name == name && ListsGp2(r, id)
  {
    if r.name == name && ListsGp2(r, id) {
      var i :| 0 <= i < |r.volumes| && IsGp2(r.volumes[i]) && r.volumes[i].id == id;
      assert Modify(name, id, GP3) in Migrations(r);
    }
  }

  lemma {:induction false} RunCallsExact(regions: seq<Region>, name: string, id: string)
    ensures HasCall(Run(regions), name, id) <==>
      exists k :: 0 <= k < |regions| && regions[k].name == name && ListsGp2(regions[k], id)
    decreases |regions|
  {
    if |regions| > 0 {
      var tail := regions[1..];
      RunCallsExact(tail, name, id);
      MigrationsExact(regions[0], name, id);
      HasCallAppend(Migrations(regions[0]), Run(tail), name, id);
      if exists k :: 0 <= k < |tail| && tail[k].name == name && ListsGp2(tail[k], id) {
        var k :| 0 <= k < |tail| && tail[k].name == name && ListsGp2(tail[k], id);
        assert regions[k + 1] == tail[k];
      }
      if exists k :: 0 <= k < |regions| && regions[k].name == name && ListsGp2(regions[k], id) {
        var k :| 0 <= k < |regions| && regions[k].name == name && ListsGp2(regions[k], id);
        if k > 0 {
          assert tail[k - 1] == regions[k];
        }
      }
    }
  }

  lemma HasCallAppend(a: seq<Modify>, b: seq<Modify>, name: string, id: string)
    ensures HasCall(a + b, name, id) <==> HasCall(a, name, id) || HasCall(b, name, id)
  {
    if HasCall(a + b, name, id) {
      var c :| c in a + b && c.region == name && c.volumeId == id;
      assert c in a || c in b;
    }
  }

  /** Tags are not consulted. */
  lemma TagsIgnored(r: Region, i: int, tags: seq<Tag>)
    requires 0 <= i < |r.volumes|
    ensures Migrations(r) == Migrations(r.(volumes := r.volumes[i := r.volumes[i].(tags := tags)]))
  {
    var vs := r.volumes;
    var ws := vs[i := vs[i].(tags := tags)];
    SelectPointwise(vs, ws, IsGp2, (v: Volume) => Modify(r.name, v.id, GP3));
  }
}

=== FILE: ibm_bill.dfy ===
/**
 * parse-ibm-cloud-bill.py: after three discarded lines and a header, sum
 * the `Cost` column over the rows whose `appcode` is `copr-001` or whose
 * `Resource Group Name` is `copr`.
 *
 * The CSV reader is not modelled: a file is given as its header (absent
 * when the file ends before it) and its rows, each holding the three
 * columns the script reads, `None` for a field the row is too short to
 * have. `float()` is a parameter, `parse`, returning `None` where it would
 * raise `ValueError`; costs are added as exact reals.
 */
module IbmBill {
  import opened Wrappers
  import opened Text
  import opened Lists

  const APPCODE: string := "appcode"
  const GROUP_NAME: string := "Resource Group Name"
  const COST: string := "Cost"
  const REQUIRED: seq<string> := [APPCODE, GROUP_NAME, COST]

  const COPR_APPCODE: string := "copr-001"
  const COPR_GROUP: string := "copr"

  /** The three fields of one `csv.DictReader` row. */
  datatype Row = Row(appcode: Option<string>, groupName: Option<string>, cost: Option<string>)

  /** The file as the script sees it. */
  datatype BillFile =
    | Missing                                               // `open` raises `FileNotFoundError`, which is caught
    | Short                                                 // fewer than three lines: `next` raises
    | Table(fieldnames: Option<seq<string>>, rows: seq<Row>)

  /** The script's errors that nothing catches. */
  datatype BillError = StopIteration | NoHeader | MissingColumns

  /** What `calculate_cost_sum` returns. `NotFound` is its `None` after printing `File not found: <path>`;
      the caller then prints no total. `Crash` is an uncaught error. */
  datatype Outcome = NotFound | Total(sum: real) | Crash(error: BillError)

  /** `not_none(value, default)`. */
  function NotNone<T>(value: Option<T>, default: T): (r: T)
    ensures value.None? ==> r == default
    ensures value.Some? ==> r == value.value
  {
    match value
    case None => default
    case Some(v) => v
  }

  /** `all(col in reader.fieldnames for col in required_columns)`. */
  predicate HasRequiredColumns(fieldnames: seq<string>) {
    forall i :: 0 <= i < |REQUIRED| ==> REQUIRED[i] in fieldnames
  }

  /** The row-selection predicate, on stripped fields. */
  predicate Matches(row: Row) {
    Strip(NotNone(row.appcode, "")) == COPR_APPCODE || Strip(NotNone(row.groupName, "")) == COPR_GROUP
  }

  /** `float(not_none(row["Cost"], "0").strip())`. */
  function CostOf(row: Row, parse: string -> Option<real>): Option<real> {
    parse(Strip(NotNone(row.cost, "0")))
  }

  /** A row adds its cost iff the cost parses and the row matches; the parse comes first. */
  predicate Contributes(row: Row, parse: string -> Option<real>) {
    CostOf(row, parse).Some? && Matches(row)
  }

  /** The row loop: `total_cost += cost` for each matching row, skipping unparsable costs. */
  function SumRows(rows: seq<Row>, parse: string -> Option<real>): real
    decreases |rows|
  {
    if |rows| == 0 then 0.0
    else
      var n := |rows| - 1;
      var row := rows[n];
      SumRows(rows[..n], parse) + if Contributes(row, parse) then CostOf(row, parse).value else 0.0
  }

  /** A plain sum. */
  function Sum(xs: seq<real>): real
    decreases |xs|
  {
    if |xs| == 0 then 0.0 else xs[0] + Sum(xs[1..])
  }

  lemma {:induction false} SumAppend(a: seq<real>, b: seq<real>)
    ensures Sum(a + b) == Sum(a) + Sum(b)
    decreases |a|
  {
    if |a| > 0 {
      assert (a + b)[0] == a[0] && (a + b)[1..] == a[1..] + b;
      SumAppend(a[1..], b);
    } else {
      assert a + b == b;
    }
  }

  /** The cost a row adds: its parsed cost if it contributes, nothing otherwise. */
  function Picked(row: Row, parse: string -> Option<real>): seq<real> {
    if Contributes(row, parse) then [CostOf(row, parse).value] else []
  }

  /** The costs that count, in row order. */
  function Selected(rows: seq<Row>, parse: string -> Option<real>): seq<real>
    decreases |rows|
  {
    if |rows| == 0 then [] else Picked(rows[0], parse) + Selected(rows[1..], parse)
  }

  /** A row in front adds its own cost in front. */
  lemma SelectedCons(row: Row, rest: seq<Row>, parse: string -> Option<real>)
    ensures Selected([row] + rest, parse) == Picked(row, parse) + Selected(rest, parse)
  {
    assert ([row] + rest)[1..] == rest;
  }

  lemma {:induction false} SelectedAppend(a: seq<Row>, b: seq<Row>, parse: string -> Option<real>)
    ensures Selected(a + b, parse) == Selected(a, parse) + Selected(b, parse)
    decreases |a|
  {
    if |a| > 0 {
      var row, rest := a[0], a[1..];
      assert a == [row] + rest;
      assert a + b == [row] + (rest + b);
      SelectedCons(row, rest + b, parse);
      SelectedCons(row, rest, parse);
      SelectedAppend(rest, b, parse);
      AppendAssoc(Picked(row, parse), Selected(rest, parse), Selected(b, parse));
    } else {
      assert a + b == b;
    }
  }

  /** The loop's total is the sum of the costs of exactly the contributing rows. */
  lemma {:induction false} SumRowsIsSumOfSelected(rows: seq<Row>, parse: string -> Option<real>)
    ensures SumRows(rows, parse) == Sum(Selected(rows, parse))
    decreases |rows|
  {
    if |rows| > 0 {
      var n := |rows| - 1;
      var front, row := rows[..n], rows[n];
      assert rows == front + [row];
      SumRowsIsSumOfSelected(front, parse);
      SelectedAppend(front, [row], parse);
      SumAppend(Selected(front, parse), Selected([row], parse));
      SingleRow(row, parse);
    }
  }

  /** What one row adds, on both sides. */
  lemma SingleRow(row: Row, parse: string -> Option<real>)
    ensures Sum(Selected([row], parse)) == if Contributes(row, parse) then CostOf(row, parse).value else 0.0
  {
    var one := [row];
    assert one[0] == row && one[1..] == [];
    assert Selected(one[1..], parse) == [];
    if Contributes(row, parse) {
      var c := CostOf(row, parse).value;
      assert Selected(one, parse) == [c];
      assert [c][1..] == [];
      assert Sum([c]) == c + Sum([]);
    } else {
      assert Selected(one, parse) == [];
    }
  }

  /** A row whose cost does not parse adds nothing, even when it matches. */
  lemma UnparsableCostSkipped(rows: seq<Row>, row: Row, parse: string -> Option<real>)
    requires CostOf(row, parse).None?
    ensures SumRows(rows + [row], parse) == SumRows(rows, parse)
  {
    assert (rows + [row])[..|rows|] == rows;
  }

  /** A row that matches neither column adds nothing. */
  lemma UnmatchedRowSkipped(rows: seq<Row>, row: Row, parse: string -> Option<real>)
    requires !Matches(row)
    ensures SumRows(rows + [row], parse) == SumRows(rows, parse)
  {
    assert (rows + [row])[..|rows|] == rows;
  }

  /** `calculate_cost_sum` followed by the caller's `is not None` test. */
  function CalculateCostSum(file: BillFile, parse: string -> Option<real>): (r: Outcome)
    ensures r == NotFound <==> file.Missing?
    ensures r.Crash? && r.error == NoHeader <==> file.Table? && file.fieldnames.None?
    ensures r.Crash? && r.error == MissingColumns
            <==> file.Table? && file.fieldnames.Some? && !HasRequiredColumns(file.fieldnames.value)
    ensures r.Total? <==> file.Table? && file.fieldnames.Some? && HasRequiredColumns(file.fieldnames.value)
    ensures r.Total? ==> r.sum == Sum(Selected(file.rows, parse))
  {
    match file
    case Missing => NotFound
    case Short => Crash(StopIteration)
    case Table(fieldnames, rows) =>
      if fieldnames.None? then Crash(NoHeader)
      else if !HasRequiredColumns(fieldnames.value) then Crash(MissingColumns)
      else
        SumRowsIsSumOfSelected(rows, parse);
        Total(SumRows(rows, parse))
  }

  /** Whitespace around `copr-001` in the `appcode` field still selects the row. */
  lemma PaddedAppcodeMatches(row: Row, p: string, q: string)
    requires AllSpace(p) && AllSpace(q) && row.appcode == Some(p + COPR_APPCODE + q)
    ensures Matches(row)
  {
    StripPadded(p, COPR_APPCODE, q);
  }

  /** Whitespace around `copr` in the group field still selects the row. */
  lemma PaddedGroupMatches(row: Row, p: string, q: string)
    requires AllSpace(p) && AllSpace(q) && row.groupName == Some(p + COPR_GROUP + q)
    ensures Matches(row)
  {
    StripPadded(p, COPR_GROUP, q);
  }
}

=== FILE: label_ami.dfy ===
/**
 * label-ami-id.py: in every region, tag each image whose id is the given
 * one with `FedoraGroup=ga-archives`, then tag the snapshot of each of its
 * mappings that has an `Ebs` entry with the same pair.
 *
 * Each `create_tags` call is a write in the returned trace. An `Ebs` entry
 * without `SnapshotId` makes `block_device['Ebs']['SnapshotId']` raise;
 * nothing catches it, so the trace stops there, keeping the writes made so
 * far.
 */
module LabelAmi {
  import opened Tags
  import opened Ec2

  const TAG: Tag := (FEDORA_GROUP, "ga-archives")

  datatype Kind = AmiKind | SnapshotKind

  /** One `tag_resource` call. */
  datatype Write = Write(kind: Kind, id: string, region: string, tag: Tag)

  /** The writes made, and whether the run ended on the `KeyError`. */
  datatype Trace = Trace(writes: seq<Write>, crashed: bool)

  datatype Image = Image(id: string, mappings: seq<Mapping>)

  /** The images `describe_images` lists in one region. */
  datatype Region = Region(name: string, images: seq<Image>)

  /** A mapping the snapshot loop cannot read. */
  predicate Broken(m: Mapping) {
    m.ebs.Some? && m.ebs.value.snapshotId.None?
  }

  /** The snapshot loop of one image. */
  function SnapshotWrites(region: string, ms: seq<Mapping>): (t: Trace)
    ensures forall w :: w in t.writes ==> w.kind == SnapshotKind && w.region == region && w.tag == TAG
    decreases |ms|
  {
    if |ms| == 0 then Trace([], false)
    else
      var n := |ms| - 1;
      var t := SnapshotWrites(region, ms[..n]);
      var m := ms[n];
      if t.crashed || m.ebs.None? then t
      else if m.ebs.value.snapshotId.None? then Trace(t.writes, true)
      else Trace(t.writes + [Write(SnapshotKind, m.ebs.value.snapshotId.value, region, TAG)], false)
  }

  /** The snapshot loop crashes iff some mapping's `Ebs` has no snapshot id; otherwise it tags every one. */
  lemma SnapshotWritesOutcome(region: string, ms: seq<Mapping>)
    ensures SnapshotWrites(region, ms).crashed <==> exists j :: 0 <= j < |ms| && Broken(ms[j])
    ensures forall w :: w in SnapshotWrites(region, ms).writes ==>
      exists j :: 0 <= j < |ms| && HasSnapshot(ms[j]) && SnapshotOf(ms[j]) == w.id
    ensures !SnapshotWrites(region, ms).crashed ==> forall j :: 0 <= j < |ms| && HasEbs(ms[j]) ==>
      Write(SnapshotKind, SnapshotOf(ms[j]), region, TAG) in SnapshotWrites(region, ms).writes
  {
    SnapshotCrash(region, ms);
    SnapshotOrigins(region, ms);
    SnapshotsAllWritten(region, ms);
  }

  lemma {:induction false} SnapshotCrash(region: string, ms: seq<Mapping>)
    ensures SnapshotWrites(region, ms).crashed <==> exists j :: 0 <= j < |ms| && Broken(ms[j])
    decreases |ms|
  {
    if |ms| > 0 {
      var n := |ms| - 1;
      var front := ms[..n];
      SnapshotCrash(region, front);
      assert forall j :: 0 <= j < n ==> front[j] == ms[j];
    }
  }

  lemma {:induction false} SnapshotOrigins(region: string, ms: seq<Mapping>)
    ensures forall w :: w in SnapshotWrites(region, ms).writes ==>
      exists j :: 0 <= j < |ms| && HasSnapshot(ms[j]) && SnapshotOf(ms[j]) == w.id
    decreases |ms|
  {
    if |ms| > 0 {
      var n := |ms| - 1;
      var front := ms[..n];
      SnapshotOrigins(region, front);
      assert forall j :: 0 <= j < n ==> front[j] == ms[j];
    }
  }

  lemma {:induction false} SnapshotsAllWritten(region: string, ms: seq<Mapping>)
    ensures !SnapshotWrites(region, ms).crashed ==> forall j :: 0 <= j < |ms| && HasEbs(ms[j]) ==>
      Write(SnapshotKind, SnapshotOf(ms[j]), region, TAG) in SnapshotWrites(region, ms).writes
    decreases |ms|
  {
    if |ms| > 0 {
      var n := |ms| - 1;
      var front := ms[..n];
      SnapshotsAllWritten(region, front);
      assert forall j :: 0 <= j < n ==> front[j] == ms[j];
    }
  }

  /** The image loop of one region: only images with the given id are processed. */
  function RegionTrace(amiId: string, region: string, imgs: seq<Image>): (t: Trace)
    ensures forall w :: w in t.writes ==> w.region == region && w.tag == TAG
    ensures forall w :: w in t.writes && w.kind == AmiKind ==> w.id == amiId
    decreases |imgs|
  {
    if |imgs| == 0 then Trace([], false)
    else
      var n := |imgs| - 1;
      var t := RegionTrace(amiId, region, imgs[..n]);
      var img := imgs[n];
      if t.crashed || img.id != amiId then t
      else
        var s := SnapshotWrites(region, img.mappings);
        Trace(t.writes + [Write(AmiKind, amiId, region, TAG)] + s.writes, s.crashed)
  }

  /** An image with another id adds nothing. */
  lemma OtherImageIgnored(amiId: string, region: string, imgs: seq<Image>, img: Image)
    requires img.id != amiId
    ensures RegionTrace(amiId, region, imgs + [img]) == RegionTrace(amiId, region, imgs)
  {
    assert (imgs + [img])[..|imgs|] == imgs;
  }

  /** An image that is processed. */
  predicate Matching(amiId: string, img: Image) {
    img.id == amiId
  }

  /** A region's loop crashes iff a matching image has an unreadable mapping; otherwise every matching image and all its snapshots are tagged. */
  lemma RegionTraceOutcome(amiId: string, region: string, imgs: seq<Image>)
    ensures RegionTrace(amiId, region, imgs).crashed <==>
      exists i, j :: 0 <= i < |imgs| && Matching(amiId, imgs[i]) && 0 <= j < |imgs[i].mappings| && Broken(imgs[i].mappings[j])
    ensures !RegionTrace(amiId, region, imgs).crashed ==>
      (exists i :: 0 <= i < |imgs| && Matching(amiId, imgs[i])) ==> Write(AmiKind, amiId, region, TAG) in RegionTrace(amiId, region, imgs).writes
    ensures !RegionTrace(amiId, region, imgs).crashed ==>
      forall i, j :: 0 <= i < |imgs| && Matching(amiId, imgs[i]) && 0 <= j < |imgs[i].mappings| && HasEbs(imgs[i].mappings[j]) ==>
        Write(SnapshotKind, SnapshotOf(imgs[i].mappings[j]), region, TAG) in RegionTrace(amiId, region, imgs).writes
  {
    RegionCrash(amiId, region, imgs);
    RegionTagsImage(amiId, region, imgs);
    RegionTagsSnapshots(amiId, region, imgs);
  }

  lemma {:induction false} RegionCrash(amiId: string, region: string, imgs: seq<Image>)
    ensures RegionTrace(amiId, region, imgs).crashed <==>
      exists i, j :: 0 <= i < |imgs| && Matching(amiId, imgs[i]) && 0 <= j < |imgs[i].mappings| && Broken(imgs[i].mappings[j])
    decreases |imgs|
  {
    if |imgs| > 0 {
      var n := |imgs| - 1;
      var front, img := imgs[..n], imgs[n];
      RegionCrash(amiId, region, front);
      assert forall i :: 0 <= i < n ==> front[i] == imgs[i];
      SnapshotCrash(region, img.mappings);
    }
  }

  lemma {:induction false} RegionTagsImage(amiId: string, region: string, imgs: seq<Image>)
    ensures !RegionTrace(amiId, region, imgs).crashed ==>
      (exists i :: 0 <= i < |imgs| && Matching(amiId, imgs[i])) ==> Write(AmiKind, amiId, region, TAG) in RegionTrace(amiId, region, imgs).writes
    decreases |imgs|
  {
    if |imgs| > 0 {
      var n := |imgs| - 1;
      var front := imgs[..n];
      RegionTagsImage(amiId, region, front);
      assert forall i :: 0 <= i < n ==> front[i] == imgs[i];
    }
  }

  lemma {:induction false} RegionTagsSnapshots(amiId: string, region: string, imgs: seq<Image>)
    ensures !RegionTrace(amiId, region, imgs).crashed ==>
      forall i, j :: 0 <= i < |imgs| && Matching(amiId, imgs[i]) && 0 <= j < |imgs[i].mappings| && HasEbs(imgs[i].mappings[j]) ==>
        Write(SnapshotKind, SnapshotOf(imgs[i].mappings[j]), region, TAG) in RegionTrace(amiId, region, imgs).writes
    decreases |imgs|
  {
    if |imgs| > 0 {
      var n := |imgs| - 1;
      var front, img := imgs[..n], imgs[n];
      RegionTagsSnapshots(amiId, region, front);
      assert forall i :: 0 <= i < n ==> front[i] == imgs[i];
      SnapshotsAllWritten(region, img.mappings);
    }
  }

  /** `find_and_tag_ami_and_snapshots` over the regions in order; a crash ends the run. */
  function Run(amiId: string, regions: seq<Region>): (t: Trace)
    ensures forall w :: w in t.writes ==> w.tag == TAG
    ensures forall w :: w in t.writes && w.kind == AmiKind ==> w.id == amiId
    decreases |regions|
  {
    if |regions| == 0 then Trace([], false)
    else
      var n := |regions| - 1;
      var t := Run(amiId, regions[..n]);
      if t.crashed then t
      else
        var r := RegionTrace(amiId, regions[n].name, regions[n].images);
        Trace(t.writes + r.writes, r.crashed)
  }

  /** A completed run has tagged every matching image, in every region where one is listed. */
  lemma {:induction false} RunTagsEveryMatch(amiId: string, regions: seq<Region>, k: int, i: int)
    requires !Run(amiId, regions).crashed
    requires 0 <= k < |regions| && 0 <= i < |regions[k].images| && Matching(amiId, regions[k].images[i])
    ensures Write(AmiKind, amiId, regions[k].name, TAG) in Run(amiId, regions).writes
    decreases |regions|
  {
    var n := |regions| - 1;
    var t := Run(amiId, regions[..n]);
    assert !t.crashed;
    if k < n {
      assert regions[..n][k] == regions[k];
      RunTagsEveryMatch(amiId, regions[..n], k, i);
    } else {
      RegionTagsImage(amiId, regions[n].name, regions[n].images);
    }
  }
}

=== FILE: lists.dfy ===
/** List comprehensions the scripts write inline: `[f(x) for x in xs if p(x)]`. */
module Lists {

  /** `[f(x) for x in xs if p(x)]`, keeping the order of `xs`. */
  function Select<T, U>(xs: seq<T>, p: T -> bool, f: T -> U): (r: seq<U>)
    ensures |r| <= |xs|
    ensures forall i :: 0 <= i < |xs| && p(xs[i]) ==> f(xs[i]) in r
    ensures forall y :: y in r ==> exists i :: 0 <= i < |xs| && p(xs[i]) && f(xs[i]) == y
    ensures (forall i :: 0 <= i < |xs| ==> p(xs[i])) ==> |r| == |xs|
    ensures (forall i :: 0 <= i < |xs| ==> !p(xs[i])) ==> r == []
  {
    if |xs| == 0 then []
    else
      var rest := Select(xs[1..], p, f);
      assert forall i :: 1 <= i < |xs| ==> xs[i] == xs[1..][i - 1];
      if p(xs[0]) then [f(xs[0])] + rest else rest
  }

  /** Selecting over a concatenation selects over each part. */
  lemma {:induction false} SelectAppend<T, U>(a: seq<T>, b: seq<T>, p: T -> bool, f: T -> U)
    ensures Select(a + b, p, f) == Select(a, p, f) + Select(b, p, f)
  {
    if |a| == 0 {
      assert a + b == b;
    } else {
      assert (a + b)[1..] == a[1..] + b;
      SelectAppend(a[1..], b, p, f);
    }
  }

  /** Selecting over one more element appends its image when it passes the filter. */
  lemma SelectSnoc<T, U>(xs: seq<T>, x: T, p: T -> bool, f: T -> U)
    ensures Select(xs + [x], p, f) == Select(xs, p, f) + if p(x) then [f(x)] else []
  {
    assert [x][1..] == [];
    SelectAppend(xs, [x], p, f);
  }

  /** Two sequences that agree on the filter and the image everywhere give the same selection. */
  lemma {:induction false} SelectPointwise<T, U>(xs: seq<T>, ys: seq<T>, p: T -> bool, f: T -> U)
    requires |xs| == |ys|
    requires forall i :: 0 <= i < |xs| ==> p(xs[i]) == p(ys[i]) && f(xs[i]) == f(ys[i])
    ensures Select(xs, p, f) == Select(ys, p, f)
    decreases |xs|
  {
    if |xs| > 0 {
      assert forall i :: 1 <= i < |xs| ==> xs[1..][i - 1] == xs[i] && ys[1..][i - 1] == ys[i];
      SelectPointwise(xs[1..], ys[1..], p, f);
    }
  }

  /** The indices of the elements of `xs` that pass `p`, in increasing order. */
  function Positions<T>(xs: seq<T>, p: T -> bool): (r: seq<nat>)
    ensures forall k :: 0 <= k < |r| ==> r[k] < |xs| && p(xs[r[k]])
    ensures forall k, l :: 0 <= k < l < |r| ==> r[k] < r[l]
    ensures forall i :: 0 <= i < |xs| && p(xs[i]) ==> i in r
    decreases |xs|
  {
    if |xs| == 0 then []
    else
      var n := |xs| - 1;
      var front := Positions(xs[..n], p);
      assert forall i :: 0 <= i < n ==> xs[..n][i] == xs[i];
      front + if p(xs[n]) then [n] else []
  }

  /**
   * The comprehension yields one element per passing element of `xs`, in
   * the order of `xs`: its `k`-th element is the image of the `k`-th
   * passing one.
   */
  lemma SelectAtPositions<T, U>(xs: seq<T>, p: T -> bool, f: T -> U)
    ensures |Select(xs, p, f)| == |Positions(xs, p)|
    ensures forall k :: 0 <= k < |Positions(xs, p)| ==> Select(xs, p, f)[k] == f(xs[Positions(xs, p)[k]])
  {
    SelectIndexed(xs, p, f);
  }

  /** The pairing of `Select` with `Positions`, proved one element at a time from the back. */
  lemma {:induction false} SelectIndexed<T, U>(xs: seq<T>, p: T -> bool, f: T -> U)
    ensures Indexed(xs, Positions(xs, p), Select(xs, p, f), f)
    decreases |xs|
  {
    if |xs| > 0 {
      SelectIndexed(xs[..|xs| - 1], p, f);
      SelectIndexedStep(xs, p, f);
    }
  }

  /** One step of `SelectIndexed`: the pairing survives appending the last element. */
  lemma SelectIndexedStep<T, U>(xs: seq<T>, p: T -> bool, f: T -> U)
    requires |xs| > 0
    requires Indexed(xs[..|xs| - 1], Positions(xs[..|xs| - 1], p), Select(xs[..|xs| - 1], p, f), f)
    ensures Indexed(xs, Positions(xs, p), Select(xs, p, f), f)
  {
    PositionsStep(xs, p);
    SelectStep(xs, p, f);
    IndexedExtend(xs, Positions(xs[..|xs| - 1], p), Select(xs[..|xs| - 1], p, f),
                  Positions(xs, p), Select(xs, p, f), f, p(xs[|xs| - 1]));
  }

  /** `sel[k]` is the image of `xs[pos[k]]`, for every `k`. */
  ghost predicate Indexed<T, U>(xs: seq<T>, pos: seq<nat>, sel: seq<U>, f: T -> U) {
    |sel| == |pos| && forall k :: 0 <= k < |pos| ==> pos[k] < |xs| && sel[k] == f(xs[pos[k]])
  }

  /** Extending a pairing on all but the last element by that element's index and image, when it is taken. */
  lemma IndexedExtend<T, U>(xs: seq<T>, pos: seq<nat>, sel: seq<U>, pos': seq<nat>, sel': seq<U>, f: T -> U, take: bool)
    requires |xs| > 0 && Indexed(xs[..|xs| - 1], pos, sel, f)
    requires pos' == pos + (if take then [|xs| - 1] else [])
    requires sel' == sel + (if take then [f(xs[|xs| - 1])] else [])
    ensures Indexed(xs, pos', sel', f)
  {
    var n := |xs| - 1;
    forall k | 0 <= k < |pos'|
      ensures pos'[k] < |xs| && sel'[k] == f(xs[pos'[k]])
    {
      if k < |pos| {
        assert xs[..n][pos[k]] == xs[pos[k]];
      }
    }
  }

  /** `Select` of a non-empty sequence, taken apart at its last element. */
  lemma SelectStep<T, U>(xs: seq<T>, p: T -> bool, f: T -> U)
    requires |xs| > 0
    ensures Select(xs, p, f) == Select(xs[..|xs| - 1], p, f) + if p(xs[|xs| - 1]) then [f(xs[|xs| - 1])] else []
  {
    SplitLast(xs);
    SelectSnoc(xs[..|xs| - 1], xs[|xs| - 1], p, f);
  }

  /** Concatenation is associative. */
  lemma AppendAssoc<T>(a: seq<T>, b: seq<T>, c: seq<T>)
    ensures a + (b + c) == (a + b) + c
  {
  }

  /** A non-empty sequence is its front followed by its last element. */
  lemma SplitLast<T>(xs: seq<T>)
    requires |xs| > 0
    ensures xs == xs[..|xs| - 1] + [xs[|xs| - 1]]
  {
  }

  /** `Positions` of a non-empty sequence, taken apart at its last element. */
  lemma PositionsStep<T>(xs: seq<T>, p: T -> bool)
    requires |xs| > 0
    ensures Positions(xs, p) == Positions(xs[..|xs| - 1], p) + if p(xs[|xs| - 1]) then [|xs| - 1] else []
  {
  }

  /** `xs` has no element twice. */
  predicate NoDuplicates<T(==)>(xs: seq<T>) {
    forall i, j :: 0 <= i < j < |xs| ==> xs[i] != xs[j]
  }

  /** The elements of `xs` as a set. */
  function Elements<T>(xs: seq<T>): set<T> {
    set x | x in xs
  }
}

=== FILE: old_amis.dfy ===
/**
 * delete-old-amis.py: deregister every AMI created strictly before the
 * cutoff that has no `FedoraGroup` key.
 *
 * Creation times are whole seconds since the Unix epoch, rounded down;
 * against a cutoff that is itself a whole second, `<` decides the same way
 * on the rounded and on the exact time. The creation dates of a region are
 * all parsed before anything is deregistered there, so an AMI whose date is
 * missing or unparsable stops the run before the region's first action.
 */
module DeleteOldAmis {
  import opened Wrappers
  import opened Tags
  import opened Lists

  /** 2025-10-01T00:00:00Z. */
  const CUTOFF: int := 1759276800

  datatype Ami = Ami(id: string, creation: Option<int>, tags: seq<Tag>)

  /** The `KeyError` or `ValueError` raised by the `old_amis` comprehension. */
  datatype BadCreationDate = BadCreationDate(id: string)

  /** `any(tag['Key'] == 'FedoraGroup' ...)`: the key alone protects, whatever its value. */
  predicate Protected(a: Ami) {
    HasKey(a.tags, Exact(FEDORA_GROUP))
  }

  /** The comprehension's filter, for an AMI whose date parsed. */
  predicate IsOld(a: Ami, cutoff: int) {
    a.creation.Some? && a.creation.value < cutoff
  }

  /** The script's rule for one AMI. */
  predicate Deregistered(a: Ami, cutoff: int) {
    IsOld(a, cutoff) && !Protected(a)
  }

  /** `old_amis`: the AMIs created before the cutoff, or the error of the first undated one. */
  function OldAmis(amis: seq<Ami>, cutoff: int): (r: Result<seq<Ami>, BadCreationDate>)
    ensures r.Failure? <==> exists i :: 0 <= i < |amis| && amis[i].creation.None?
    ensures r.Success? ==> forall a :: a in r.value <==> a in amis && IsOld(a, cutoff)
    decreases |amis|
  {
    if |amis| == 0 then Success([])
    else
      var n := |amis| - 1;
      var a := amis[n];
      assert amis == amis[..n] + [a];
      match OldAmis(amis[..n], cutoff)
      case Failure(e) => Failure(e)
      case Success(older) =>
        if a.creation.None? then Failure(BadCreationDate(a.id))
        else if a.creation.value < cutoff then Success(older + [a])
        else Success(older)
  }

  /** The deregistrations of one region, in the order the AMIs come. */
  function Deregistrations(amis: seq<Ami>, cutoff: int): Result<seq<string>, BadCreationDate> {
    match OldAmis(amis, cutoff)
    case Failure(e) => Failure(e)
    case Success(older) => Success(Select(older, (a: Ami) => !Protected(a), (a: Ami) => a.id))
  }

  /** An id is deregistered iff some AMI with that id is old and has no key. */
  lemma DeregistrationsExact(amis: seq<Ami>, cutoff: int, id: string)
    requires Deregistrations(amis, cutoff).Success?
    ensures id in Deregistrations(amis, cutoff).value
            <==> exists a :: a in amis && Deregistered(a, cutoff) && a.id == id
  {
    var older := OldAmis(amis, cutoff).value;
    var r := Select(older, (a: Ami) => !Protected(a), (a: Ami) => a.id);
    if id in r {
      var i :| 0 <= i < |older| && !Protected(older[i]) && older[i].id == id;
      assert older[i] in older;
    }
    if exists a :: a in amis && Deregistered(a, cutoff) && a.id == id {
      var a :| a in amis && Deregistered(a, cutoff) && a.id == id;
      var i :| 0 <= i < |older| && older[i] == a;
    }
  }

  /** A missing creation date anywhere in the region means nothing there is deregistered. */
  lemma UndatedAmiStopsRegion(amis: seq<Ami>, cutoff: int, i: int)
    requires 0 <= i < |amis| && amis[i].creation.None?
    ensures Deregistrations(amis, cutoff).Failure?
  {
  }

  /** Tag values play no part: two AMIs with the same keys and date are treated alike, even with `""` values. */
  lemma TagValueIrrelevant(a: Ami, b: Ami, cutoff: int)
    requires a.creation == b.creation && |a.tags| == |b.tags|
    requires forall i :: 0 <= i < |a.tags| ==> a.tags[i].0 == b.tags[i].0
    ensures Deregistered(a, cutoff) <==> Deregistered(b, cutoff)
  {
    if HasKey(a.tags, Exact(FEDORA_GROUP)) {
      var i :| 0 <= i < |a.tags| && Matches(Exact(FEDORA_GROUP), a.tags[i].0);
      assert Matches(Exact(FEDORA_GROUP), b.tags[i].0);
    }
    if HasKey(b.tags, Exact(FEDORA_GROUP)) {
      var i :| 0 <= i < |b.tags| && Matches(Exact(FEDORA_GROUP), b.tags[i].0);
      assert Matches(Exact(FEDORA_GROUP), a.tags[i].0);
    }
  }

  /** The comparison is strict: an AMI created at the cutoff is kept. */
  lemma CutoffInstantKept(a: Ami, cutoff: int)
    requires a.creation == Some(cutoff)
    ensures !Deregistered(a, cutoff)
  {
  }

  /** Among old AMIs, exactly the protected ones are kept. */
  lemma OldKeptIffProtected(a: Ami, cutoff: int)
    requires IsOld(a, cutoff)
    ensures !Deregistered(a, cutoff) <==> Protected(a)
  {
  }

  /**
   * The region loop: each region's deregistrations happen before the next
   * region is read, and the first region with an undated AMI ends the run.
   */
  function Run(regions: seq<seq<Ami>>, cutoff: int): (r: (seq<string>, Option<BadCreationDate>))
    decreases |regions|
  {
    if |regions| == 0 then ([], None)
    else
      match Deregistrations(regions[0], cutoff)
      case Failure(e) => ([], Some(e))
      case Success(ids) =>
        var rest := Run(regions[1..], cutoff);
        (ids + rest.0, rest.1)
  }

  /**
   * The run completes iff every AMI of every region is dated; every id it
   * deregisters is eligible in some region, and a completed run deregisters
   * every eligible AMI of every region.
   */
  lemma RunOutcome(regions: seq<seq<Ami>>, cutoff: int, id: string)
    ensures Run(regions, cutoff).1.None? <==>
      forall k, i :: 0 <= k < |regions| && 0 <= i < |regions[k]| ==> regions[k][i].creation.Some?
    ensures id in Run(regions, cutoff).0 ==>
      exists k, a :: 0 <= k < |regions| && a in regions[k] && Deregistered(a, cutoff) && a.id == id
    ensures Run(regions, cutoff).1.None? ==>
      forall k, a :: 0 <= k < |regions| && a in regions[k] && Deregistered(a, cutoff) ==> a.id in Run(regions, cutoff).0
  {
    RunCompletes(regions, cutoff);
    RunEligible(regions, cutoff, id);
    if Run(regions, cutoff).1.None? {
      forall k, a | 0 <= k < |regions| && a in regions[k] && Deregistered(a, cutoff)
        ensures a.id in Run(regions, cutoff).0
      {
        RunDeregistersEligible(regions, cutoff, k, a);
      }
    }
  }

  /** A completed run deregisters every eligible AMI, whichever region lists it. */
  lemma {:induction false} RunDeregistersEligible(regions: seq<seq<Ami>>, cutoff: int, k: int, a: Ami)
    requires Run(regions, cutoff).1.None?
    requires 0 <= k < |regions| && a in regions[k] && Deregistered(a, cutoff)
    ensures a.id in Run(regions, cutoff).0
    decreases |regions|
  {
    var tail := regions[1..];
    match Deregistrations(regions[0], cutoff)
    case Failure(_) =>
      assert false;
    case Success(ids) =>
      if k == 0 {
        DeregistrationsExact(regions[0], cutoff, a.id);
      } else {
        assert tail[k - 1] == regions[k];
        RunDeregistersEligible(tail, cutoff, k - 1, a);
      }
  }

  lemma {:induction false} RunCompletes(regions: seq<seq<Ami>>, cutoff: int)
    ensures Run(regions, cutoff).1.None? <==>
      forall k, i :: 0 <= k < |regions| && 0 <= i < |regions[k]| ==> regions[k][i].creation.Some?
    decreases |regions|
  {
    if |regions| > 0 {
      var tail := regions[1..];
      RunCompletes(tail, cutoff);
      match Deregistrations(regions[0], cutoff)
      case Failure(_) =>
        var i :| 0 <= i < |regions[0]| && regions[0][i].creation.None?;
      case Success(ids) =>
        if forall k, i :: 0 <= k < |tail| && 0 <= i < |tail[k]| ==> tail[k][i].creation.Some? {
          forall k, i | 0 <= k < |regions| && 0 <= i < |regions[k]|
            ensures regions[k][i].creation.Some?
          {
            if k > 0 {
              assert regions[k] == tail[k - 1];
            }
          }
        } else {
          var k, i :| 0 <= k < |tail| && 0 <= i < |tail[k]| && tail[k][i].creation.None?;
          assert regions[k + 1][i].creation.None?;
        }
    }
  }

  lemma {:induction false} RunEligible(regions: seq<seq<Ami>>, cutoff: int, id: string)
    ensures id in Run(regions, cutoff).0 ==>
      exists k, a :: 0 <= k < |regions| && a in regions[k] && Deregistered(a, cutoff) && a.id == id
    decreases |regions|
  {
    if |regions| > 0 {
      var tail := regions[1..];
      RunEligible(tail, cutoff, id);
      match Deregistrations(regions[0], cutoff)
      case Failure(_) =>
      case Success(ids) =>
        if id in ids {
          DeregistrationsExact(regions[0], cutoff, id);
          var a :| a in regions[0] && Deregistered(a, cutoff) && a.id == id;
        } else if id in Run(regions, cutoff).0 {
          var k, a :| 0 <= k < |tail| && a in tail[k] && Deregistered(a, cutoff) && a.id == id;
          assert regions[k + 1] == tail[k];
        }
    }
  }
}

=== FILE: old_snapshots.dfy ===
/**
 * delete-snapshots.py: delete every snapshot started before 2019-01-01 that
 * has no `FedoraGroup` key. The start time is cut down to its UTC calendar
 * date before the comparison.
 *
 * Times are seconds since the Unix epoch; the start of a day is the time
 * rounded down to a multiple of 86400 (Dafny's `/` rounds toward minus
 * infinity for a positive divisor, as the calendar does).
 */
module DeleteSnapshots {
  import opened Tags
  import opened Lists

  const SECONDS_PER_DAY: int := 86400

  /** 2019-01-01T00:00:00Z. */
  const CUTOFF: int := 1546300800

  datatype Snapshot = Snapshot(id: string, startTime: int, tags: seq<Tag>)

  /** `strptime(StartTime.strftime("%Y-%m-%d"), "%Y-%m-%d")`: midnight of the start day. */
  function DayStart(t: int): (r: int)
    ensures r <= t < r + SECONDS_PER_DAY
    ensures r % SECONDS_PER_DAY == 0
  {
    (t / SECONDS_PER_DAY) * SECONDS_PER_DAY
  }

  /** Two times on the same day have the same day start, and day starts are unique per day. */
  lemma DayStartUnique(t: int, d: int)
    requires d % SECONDS_PER_DAY == 0 && d <= t < d + SECONDS_PER_DAY
    ensures DayStart(t) == d
  {
    var q := d / SECONDS_PER_DAY;
    assert d == q * SECONDS_PER_DAY;
    assert q * SECONDS_PER_DAY <= t < (q + 1) * SECONDS_PER_DAY;
  }

  /** The script's rule: the start day is before the cutoff and the key is absent. */
  predicate Deletable(s: Snapshot, cutoff: int) {
    DayStart(s.startTime) < cutoff && !HasKey(s.tags, Exact(FEDORA_GROUP))
  }

  /** The snapshots whose deletion is attempted, in listing order; a failed delete changes nothing later. */
  function Deletions(snaps: seq<Snapshot>, cutoff: int): (r: seq<string>)
    ensures forall id :: id in r <==> exists i :: 0 <= i < |snaps| && Deletable(snaps[i], cutoff) && snaps[i].id == id
  {
    Select(snaps, (s: Snapshot) => Deletable(s, cutoff), (s: Snapshot) => s.id)
  }

  /** For a cutoff at midnight, truncating the start time changes nothing. */
  lemma DayAlignedCutoff(t: int, cutoff: int)
    requires cutoff % SECONDS_PER_DAY == 0
    ensures DayStart(t) < cutoff <==> t < cutoff
  {
    if DayStart(t) < cutoff && t >= cutoff {
      DayStartUnique(cutoff, cutoff);
      assert DayStart(t) + SECONDS_PER_DAY <= cutoff by {
        var a, c := t / SECONDS_PER_DAY, cutoff / SECONDS_PER_DAY;
        assert a * SECONDS_PER_DAY < c * SECONDS_PER_DAY;
        assert a < c;
      }
    }
  }

  /** For any cutoff, whole and truncated comparisons disagree only for a start on the cutoff's own day. */
  lemma TruncationDiffersOnlyOnCutoffDay(t: int, cutoff: int)
    requires (DayStart(t) < cutoff) != (t < cutoff)
    ensures DayStart(t) == DayStart(cutoff)
    ensures DayStart(t) < cutoff <= t
  {
    DayStartUnique(cutoff, DayStart(t));
  }

  /** Every snapshot started on 2019-01-01 or later is kept. */
  lemma KeptFromCutoffDay(s: Snapshot)
    requires s.startTime >= CUTOFF
    ensures !Deletable(s, CUTOFF)
  {
    DayAlignedCutoff(s.startTime, CUTOFF);
  }
}

=== FILE: periodic_checker.dfy ===
/**
 * `Analyzer` of periodic-checker.py: the per-instance tag scan, the error
 * records it files, and the counters it keeps per owner and instance type.
 *
 * The scan differs from the other scripts: keys are compared after
 * lower-casing, the last matching tag wins, and both the owner and the name
 * default to `"N/A"`. A second owner tag, seen while an owner is already
 * set, files an error for the instance.
 */
module PeriodicChecker {
  import opened Wrappers
  import opened Tags
  import opened Stats

  const NA: string := "N/A"
  const TERMINATED: string := "terminated"
  const NO_OWNER: string := "Instance has no FedroaGroup owner"
  const DUPLICATE_PREFIX: string := "Tag FedoraGroup specified multiple times, changing from "

  /** `key.lower() == "fedoragroup"`. */
  const GROUP_KEY: KeyMatch := IgnoreCase("fedoragroup")

  /** `key.lower() == "name"`. */
  const NAME_KEY: KeyMatch := IgnoreCase("name")

  /** The fields of one described instance the analysis reads. */
  datatype Instance = Instance(
    id: string,
    state: string,               // `State.Name`
    itype: string,               // `InstanceType`
    coreCount: int,              // `CpuOptions.CoreCount`
    tags: Option<seq<Tag>>)      // `None` when the `Tags` key is absent

  /** A second owner tag: the owner it replaces, the name seen so far, the new owner. */
  datatype Duplicate = Duplicate(previous: string, nameSoFar: string, value: string)

  /** The state of the tag loop: current owner, current name, duplicates met. */
  datatype Scan = Scan(group: string, name: string, duplicates: seq<Duplicate>)

  /** The `for tag in instance.get('Tags', [])` loop of `analyze_instance`. */
  function ScanTags(tags: seq<Tag>): Scan {
    if |tags| == 0 then Scan(NA, NA, [])
    else
      var s := ScanTags(tags[..|tags| - 1]);
      var t := tags[|tags| - 1];
      var name := if Matches(NAME_KEY, t.0) then t.1 else s.name;
      if Matches(GROUP_KEY, t.0) then
        var dup := if s.group != NA then [Duplicate(s.group, name, t.1)] else [];
        Scan(t.1, name, s.duplicates + dup)
      else Scan(s.group, name, s.duplicates)
  }

  /** The owner: the last tag whose key is `fedoragroup` in any case, else `"N/A"`. */
  lemma {:induction false} ScanGroup(tags: seq<Tag>)
    ensures ScanTags(tags).group == LastValue(tags, GROUP_KEY).GetOr(NA)
  {
    if |tags| > 0 {
      var n := |tags| - 1;
      ScanGroup(tags[..n]);
      assert tags == tags[..n] + [tags[n]];
      LastValueSnoc(tags[..n], tags[n], GROUP_KEY);
    }
  }

  /** The name: the last tag whose key is `name` in any case, else `"N/A"`. */
  lemma {:induction false} ScanName(tags: seq<Tag>)
    ensures ScanTags(tags).name == LastValue(tags, NAME_KEY).GetOr(NA)
  {
    if |tags| > 0 {
      var n := |tags| - 1;
      ScanName(tags[..n]);
      assert tags == tags[..n] + [tags[n]];
      LastValueSnoc(tags[..n], tags[n], NAME_KEY);
    }
  }

  /** No owner tag carries the literal value `"N/A"`. */
  predicate NoLiteralNA(tags: seq<Tag>) {
    forall i :: 0 <= i < |tags| && Matches(GROUP_KEY, tags[i].0) ==> tags[i].1 != NA
  }

  /**
   * Every owner tag after the first is a duplicate, unless an owner tag
   * literally says `"N/A"`, which resets the loop as if no owner had been seen.
   */
  lemma {:induction false} DuplicateCount(tags: seq<Tag>)
    ensures |ScanTags(tags).duplicates| + (if HasKey(tags, GROUP_KEY) then 1 else 0) <= Count(tags, GROUP_KEY)
    ensures NoLiteralNA(tags) ==>
      |ScanTags(tags).duplicates| + (if HasKey(tags, GROUP_KEY) then 1 else 0) == Count(tags, GROUP_KEY)
  {
    if |tags| > 0 {
      var n := |tags| - 1;
      var front, t := tags[..n], tags[n];
      assert tags == front + [t];
      DuplicateCount(front);
      HasKeySnoc(front, t, GROUP_KEY);
      ScanGroup(front);
      assert NoLiteralNA(tags) ==> NoLiteralNA(front) by {
        assert forall i :: 0 <= i < n ==> front[i] == tags[i];
      }
      if NoLiteralNA(tags) && HasKey(front, GROUP_KEY) {
        var v := LastValue(front, GROUP_KEY).value;
        var i :| IsLastMatch(front, GROUP_KEY, i) && front[i].1 == v;
        assert tags[i] == front[i];
      }
    }
  }

  /** The duplicate message as the script writes it: it names the *name* tag seen so far. */
  function AsWrittenMessage(d: Duplicate): string {
    DUPLICATE_PREFIX + d.nameSoFar + " to " + d.value
  }

  /** The duplicate message as evidently intended: it names the owner being replaced. */
  function IntendedMessage(d: Duplicate): string {
    DUPLICATE_PREFIX + d.previous + " to " + d.value
  }

  /** A second owner tag files a duplicate naming the owner it replaces and the new one. */
  lemma DuplicateOnSecondOwner(tags: seq<Tag>, t: Tag)
    requires Matches(GROUP_KEY, t.0) && ScanTags(tags).group != NA
    ensures HasKey(tags, GROUP_KEY)
    ensures var d := ScanTags(tags + [t]).duplicates;
      && d == ScanTags(tags).duplicates + [d[|d| - 1]]
      && IntendedMessage(d[|d| - 1]) == DUPLICATE_PREFIX + LastValue(tags, GROUP_KEY).value + " to " + t.1
  {
    ScanGroup(tags);
    assert (tags + [t])[..|tags|] == tags;
  }

  /** The message as written names the instance's name, not the replaced owner. */
  lemma AsWrittenNamesTheName()
    ensures var tags := [("Name", "web"), ("FedoraGroup", "copr"), ("FedoraGroup", "infra")];
      && |ScanTags(tags).duplicates| == 1
      && AsWrittenMessage(ScanTags(tags).duplicates[0]) == DUPLICATE_PREFIX + "web to infra"
      && IntendedMessage(ScanTags(tags).duplicates[0]) == DUPLICATE_PREFIX + "copr to infra"
  {
    var tags := [("Name", "web"), ("FedoraGroup", "copr"), ("FedoraGroup", "infra")];
    assert Lower("Name") == "name";
    assert Lower("FedoraGroup") == "fedoragroup";
    assert tags[..0] == [];
    assert tags[..1] == [("Name", "web")] && tags[..1][..0] == [];
    assert tags[..2] == [("Name", "web"), ("FedoraGroup", "copr")] && tags[..2][..1] == tags[..1];
    assert ScanTags(tags[..1]) == Scan(NA, "web", []);
    assert ScanTags(tags[..2]) == Scan("copr", "web", []);
    assert ScanTags(tags) == Scan("infra", "web", [Duplicate("copr", "web", "infra")]);
  }

  /**
   * The messages `analyze_instance` files for an instance, in order, with
   * the duplicate message worded by `wording`: `AsWrittenMessage` is what
   * the script files, `IntendedMessage` the corrected wording.
   */
  function Messages(tags: seq<Tag>, wording: Duplicate -> string): (r: seq<string>)
    ensures |r| == |ScanTags(tags).duplicates| + (if ScanTags(tags).group == NA then 1 else 0)
    ensures forall i :: 0 <= i < |ScanTags(tags).duplicates| ==>
      r[i] == wording(ScanTags(tags).duplicates[i])
    ensures ScanTags(tags).group == NA ==> r[|r| - 1] == NO_OWNER
  {
    var s := ScanTags(tags);
    seq(|s.duplicates|, i requires 0 <= i < |s.duplicates| => wording(s.duplicates[i]))
      + (if s.group == NA then [NO_OWNER] else [])
  }

  /** The messages the rest of the model files: the corrected wording. */
  function Filed(tags: seq<Tag>): seq<string> {
    Messages(tags, IntendedMessage)
  }

  /** The two wordings file the same number of messages and differ only in the duplicate ones. */
  lemma WordingOnlyInDuplicates(tags: seq<Tag>, w1: Duplicate -> string, w2: Duplicate -> string)
    ensures |Messages(tags, w1)| == |Messages(tags, w2)|
    ensures forall i :: |ScanTags(tags).duplicates| <= i < |Messages(tags, w1)| ==>
      Messages(tags, w1)[i] == Messages(tags, w2)[i] == NO_OWNER
  {
  }

  /** Without any owner tag the only message is the missing-owner error. */
  lemma UntaggedGetsOneError(tags: seq<Tag>)
    requires !HasKey(tags, GROUP_KEY)
    ensures Filed(tags) == [NO_OWNER]
  {
    ScanGroup(tags);
    DuplicateCount(tags);
    CountZero(tags, GROUP_KEY);
  }

  /** Exactly one owner tag with a real value files no message at all. */
  lemma SingleOwnerIsClean(tags: seq<Tag>)
    requires Count(tags, GROUP_KEY) == 1 && NoLiteralNA(tags)
    ensures Filed(tags) == []
  {
    CountZero(tags, GROUP_KEY);
    DuplicateCount(tags);
    ScanGroup(tags);
    var i :| IsLastMatch(tags, GROUP_KEY, i) && tags[i].1 == LastValue(tags, GROUP_KEY).value;
  }

  // ---------------------------------------------------------------------
  // `_error`

  /** The instance as stored with its errors, carrying the `script_override_*` fields. */
  datatype Annotated = Annotated(instance: Instance, region: string, name: string, group: string)

  datatype ErrorRecord = ErrorRecord(errors: seq<string>, metadata: Annotated)

  type ErrorStore = map<string, ErrorRecord>

  /** `_error(instance, message)`: the first error creates the record, later ones append. */
  function RecordError(store: ErrorStore, meta: Annotated, message: string): (r: ErrorStore)
    ensures r.Keys == store.Keys + {meta.instance.id}
    ensures forall id :: id in store && id != meta.instance.id ==> r[id] == store[id]
    ensures var id := meta.instance.id;
      && r[id].errors == (if id in store then store[id].errors else []) + [message]
      && r[id].metadata == (if id in store then store[id].metadata else meta)
  {
    var id := meta.instance.id;
    if id in store then store[id := store[id].(errors := store[id].errors + [message])]
    else store[id := ErrorRecord([message], meta)]
  }

  /** `_error` for each message in order. */
  function RecordErrors(store: ErrorStore, meta: Annotated, messages: seq<string>): (r: ErrorStore)
    ensures r.Keys == store.Keys + (if |messages| > 0 then {meta.instance.id} else {})
    ensures forall id :: id in store && id != meta.instance.id ==> r[id] == store[id]
    ensures |messages| == 0 ==> r == store
    ensures var id := meta.instance.id;
      |messages| > 0 ==>
        && r[id].errors == (if id in store then store[id].errors else []) + messages
        && r[id].metadata == (if id in store then store[id].metadata else meta)
    decreases |messages|
  {
    if |messages| == 0 then store
    else
      var n := |messages| - 1;
      var before := RecordErrors(store, meta, messages[..n]);
      assert messages == messages[..n] + [messages[n]];
      RecordError(before, meta, messages[n])
  }

  // ---------------------------------------------------------------------
  // `analyze_instance`

  /** The counters and error records an `Analyzer` accumulates (memory is not modelled). */
  datatype Analyzer = Analyzer(
    owners: Counter,
    instanceTypes: Counter,
    typesPerOwner: Counter,
    vcpus: Counter,
    errors: ErrorStore)

  predicate Valid(a: Analyzer) {
    DistinctKeys(a.owners) && DistinctKeys(a.instanceTypes)
    && DistinctKeys(a.typesPerOwner) && DistinctKeys(a.vcpus)
  }

  const Empty: Analyzer := Analyzer([], [], [], [], map[])

  /** The owner `analyze_instance` settles on. */
  function Group(inst: Instance): string {
    ScanTags(OrEmpty(inst.tags)).group
  }

  /** `analyze_instance(instance, region)`. */
  function AnalyzeInstance(a: Analyzer, inst: Instance, region: string): (r: Analyzer)
    requires Valid(a)
    ensures Valid(r)
    ensures inst.state == TERMINATED ==>
      r.owners == a.owners && r.instanceTypes == a.instanceTypes
      && r.typesPerOwner == a.typesPerOwner && r.vcpus == a.vcpus
    ensures inst.state != TERMINATED ==>
      var g := LastValue(OrEmpty(inst.tags), GROUP_KEY).GetOr(NA);
      && Get(r.owners, g) == Get(a.owners, g) + 1
      && (forall k :: k != g ==> Get(r.owners, k) == Get(a.owners, k))
      && Get(r.instanceTypes, inst.itype) == Get(a.instanceTypes, inst.itype) + 1
      && Get(r.typesPerOwner, inst.itype + "/" + g) == Get(a.typesPerOwner, inst.itype + "/" + g) + 1
      && Get(r.vcpus, g) == Get(a.vcpus, g) + inst.coreCount
      && (forall k :: k != g ==> Get(r.vcpus, k) == Get(a.vcpus, k))
    ensures inst.state != TERMINATED ==>
      var g := LastValue(OrEmpty(inst.tags), GROUP_KEY).GetOr(NA);
      && (forall k :: k != inst.itype ==> Get(r.instanceTypes, k) == Get(a.instanceTypes, k))
      && (forall k :: k != inst.itype + "/" + g ==> Get(r.typesPerOwner, k) == Get(a.typesPerOwner, k))
  {
    var tags := OrEmpty(inst.tags);
    var s := ScanTags(tags);
    ScanGroup(tags);
    var msgs := Filed(tags);
    var meta := Annotated(inst, region, s.name, s.group);
    var errors := RecordErrors(a.errors, meta, msgs);
    if inst.state != TERMINATED then
      var g := s.group;
      Analyzer(
        Add(a.owners, g, 1),
        Add(a.instanceTypes, inst.itype, 1),
        Add(a.typesPerOwner, inst.itype + "/" + g, 1),
        Add(a.vcpus, g, inst.coreCount),
        errors)
    else a.(errors := errors)
  }

  /**
   * What `analyze_instance` files: the instance's problems are appended to
   * its record, which is created with the instance's metadata on its first
   * problem, and every other record is left alone.
   */
  lemma AnalyzeInstanceErrors(a: Analyzer, inst: Instance, region: string)
    requires Valid(a)
    ensures var r := AnalyzeInstance(a, inst, region);
      && (inst.id in r.errors <==> inst.id in a.errors || |Filed(OrEmpty(inst.tags))| > 0)
      && (forall id :: id != inst.id ==>
            (id in r.errors <==> id in a.errors) && (id in a.errors ==> r.errors[id] == a.errors[id]))
    ensures var r := AnalyzeInstance(a, inst, region);
      inst.id in r.errors ==>
      && r.errors[inst.id].errors
         == (if inst.id in a.errors then a.errors[inst.id].errors else []) + Filed(OrEmpty(inst.tags))
      && r.errors[inst.id].metadata
         == (if inst.id in a.errors then a.errors[inst.id].metadata
             else Annotated(inst, region, ScanTags(OrEmpty(inst.tags)).name, ScanTags(OrEmpty(inst.tags)).group))
    ensures LastValue(OrEmpty(inst.tags), GROUP_KEY).None? ==>
      var r := AnalyzeInstance(a, inst, region);
      inst.id in r.errors && NO_OWNER in r.errors[inst.id].errors
  {
    ScanGroup(OrEmpty(inst.tags));
    ErrorsRecorded(a, inst, region);
  }

  /** `analyze_instance` files the instance's messages whatever its state. */
  lemma ErrorsRecorded(a: Analyzer, inst: Instance, region: string)
    requires Valid(a)
    ensures AnalyzeInstance(a, inst, region).errors
      == RecordErrors(a.errors, Annotated(inst, region, ScanTags(OrEmpty(inst.tags)).name, Group(inst)), Filed(OrEmpty(inst.tags)))
  {
  }

  /** The instances of every reservation of every region, with their region, in order. */
  function AnalyzeAll(a: Analyzer, xs: seq<(Instance, string)>): (r: Analyzer)
    requires Valid(a)
    ensures Valid(r)
  {
    if |xs| == 0 then a
    else
      var n := |xs| - 1;
      AnalyzeInstance(AnalyzeAll(a, xs[..n]), xs[n].0, xs[n].1)
  }

  /** How many live (not terminated) instances settle on owner `g`. */
  function LiveOwnedBy(xs: seq<(Instance, string)>, g: string): nat {
    if |xs| == 0 then 0
    else
      var n := |xs| - 1;
      LiveOwnedBy(xs[..n], g) + (if xs[n].0.state != TERMINATED && Group(xs[n].0) == g then 1 else 0)
  }

  /** The cores of the live instances that settle on owner `g`. */
  function LiveCores(xs: seq<(Instance, string)>, g: string): int {
    if |xs| == 0 then 0
    else
      var n := |xs| - 1;
      LiveCores(xs[..n], g) + (if xs[n].0.state != TERMINATED && Group(xs[n].0) == g then xs[n].0.coreCount else 0)
  }

  /** After a whole run, `owners[g]` counts the live instances owned by `g` and `vcpus[g]` sums their cores. */
  lemma {:induction false} OwnerTotals(xs: seq<(Instance, string)>, g: string)
    ensures Get(AnalyzeAll(Empty, xs).owners, g) == LiveOwnedBy(xs, g)
    ensures Get(AnalyzeAll(Empty, xs).vcpus, g) == LiveCores(xs, g)
  {
    if |xs| > 0 {
      var n := |xs| - 1;
      var prev := AnalyzeAll(Empty, xs[..n]);
      assert AnalyzeAll(Empty, xs) == AnalyzeInstance(prev, xs[n].0, xs[n].1);
      OwnerTotals(xs[..n], g);
      OwnerStep(prev, xs[n].0, xs[n].1, g);
    }
  }

  /** What one instance adds to owner `g`'s two counters. */
  lemma OwnerStep(a: Analyzer, inst: Instance, region: string, g: string)
    requires Valid(a)
    ensures var live := inst.state != TERMINATED && Group(inst) == g;
      && Get(AnalyzeInstance(a, inst, region).owners, g) == Get(a.owners, g) + (if live then 1 else 0)
      && Get(AnalyzeInstance(a, inst, region).vcpus, g) == Get(a.vcpus, g) + (if live then inst.coreCount else 0)
  {
    ScanGroup(OrEmpty(inst.tags));
  }
}

=== FILE: rawhide.dfy ===
/**
 * rawhide-changes.py: pull the `===== ADDED PACKAGES =====` section out of
 * a compose report, read its `Package:` / `Summary:` blocks, merge the
 * results of several reports and list them by package name.
 *
 * The two regular expressions are modelled by the exact match each one
 * produces under Python's backtracking, not by a simplified grammar:
 *
 *  - section: `===== ADDED PACKAGES =====(.*?)(?:=====|$)` with DOTALL;
 *    the lazy group stops at the first `=====`, at the end of the text,
 *    or just before a newline that ends the text (`$` without MULTILINE);
 *  - block: `Package:\s*(.*?)\nSummary:\s*(.*?)\n`; `.` does not match a
 *    newline, `\s*` is greedy and gives back one character at a time.
 */
module RawhideChanges {
  import opened Wrappers
  import opened Text
  import opened Lists
  import opened Dicts

  const MARKER: string := "===== ADDED PACKAGES ====="
  const FENCE: string := "====="
  const PACKAGE: string := "Package:"
  const SUMMARY: string := "Summary:"

  // ---------------------------------------------------------------------
  // The section

  /** Position `k` is where `(?:=====|$)` can match. */
  predicate IsSectionStop(s: string, k: int) {
    0 <= k <= |s| && (OccursAt(s, FENCE, k) || k == |s| || (k == |s| - 1 && s[k] == '\n'))
  }

  /** Where the lazy `(.*?)` started at `k` stops: the first stop position. */
  function SectionEnd(s: string, k: nat): (r: nat)
    requires k <= |s|
    ensures k <= r <= |s| && IsSectionStop(s, r)
    ensures forall j :: k <= j < r ==> !IsSectionStop(s, j)
    decreases |s| - k
  {
    if IsSectionStop(s, k) then k else SectionEnd(s, k + 1)
  }

  /**
   * `sec` is what the lazy `(.*?)` captures from `start`: the text up to the
   * first stop position, which holds no `=====`.
   */
  predicate IsSection(content: string, start: nat, sec: string) {
    && start + |sec| <= |content|
    && sec == content[start..start + |sec|]
    && IsSectionStop(content, start + |sec|)
    && (forall j :: start <= j < start + |sec| ==> !IsSectionStop(content, j))
    && !Contains(sec, FENCE)
  }

  /** The text captured by the section regex, or `None` when the marker is missing. */
  function ExtractSection(content: string): (r: Option<string>)
    ensures r.None? <==> !Contains(content, MARKER)
    ensures r.Some? ==> IsSection(content, FindFrom(content, MARKER, 0).value + |MARKER|, r.value)
  {
    match FindFrom(content, MARKER, 0)
    case None => None
    case Some(i) =>
      SectionFrom(content, i + |MARKER|);
      Some(content[i + |MARKER|..SectionEnd(content, i + |MARKER|)])
  }

  /** The capture from `start` is the text up to the first stop position. */
  lemma SectionFrom(content: string, start: nat)
    requires start <= |content|
    ensures IsSection(content, start, content[start..SectionEnd(content, start)])
  {
    NoFenceBeforeStop(content, start, SectionEnd(content, start));
  }

  /** Text that no stop position interrupts holds no `=====`. */
  lemma NoFenceBeforeStop(s: string, start: nat, stop: nat)
    requires start <= stop <= |s|
    requires forall j :: start <= j < stop ==> !IsSectionStop(s, j)
    ensures !Contains(s[start..stop], FENCE)
  {
    var sec := s[start..stop];
    forall k | 0 <= k <= |sec|
      ensures !OccursAt(sec, FENCE, k)
    {
      if OccursAt(sec, FENCE, k) {
        assert s[start + k..][..|FENCE|] == sec[k..][..|FENCE|];
        assert IsSectionStop(s, start + k);
      }
    }
  }

  // ---------------------------------------------------------------------
  // One `Package:` / `Summary:` block

  /** How many whitespace characters `\s*` can take from `i` on. */
  function SpaceRun(s: string, i: nat): (r: nat)
    requires i <= |s|
    ensures i + r <= |s|
    ensures forall j :: i <= j < i + r ==> IsSpace(s[j])
    ensures i + r == |s| || !IsSpace(s[i + r])
  {
    SpaceEnd(s, i) - i
  }

  /** `s` has a newline just before position `e`: where a block match ends. */
  predicate EndsLine(s: string, e: int) {
    0 < e <= |s| && s[e - 1] == '\n'
  }

  /** Where `.*?\n` starting at `from` ends: the first newline at or after `from`, since `.` never matches one. */
  function NextNewline(s: string, from: nat): (r: Option<nat>)
    requires from <= |s|
    ensures r.Some? ==> from <= r.value < |s| && s[r.value] == '\n' && '\n' !in s[from..r.value]
    ensures r.None? ==> '\n' !in s[from..]
    decreases |s| - from
  {
    if from == |s| then None
    else if s[from] == '\n' then Some(from)
    else
      var r := NextNewline(s, from + 1);
      assert r.Some? ==> s[from..r.value] == [s[from]] + s[from + 1..r.value];
      assert s[from..] == [s[from]] + s[from + 1..];
      r
  }

  /**
   * `\s*(.*?)\n` at `b`, with `\s*` first taking `k` characters and then
   * giving them back one by one: the capture and the position after `\n`.
   */
  function MatchSummary(s: string, b: nat, k: nat): (r: Option<(string, nat)>)
    requires b + k <= |s|
    ensures r.Some? ==> b < r.value.1 && EndsLine(s, r.value.1) && '\n' !in r.value.0
    decreases k
  {
    match NextNewline(s, b + k)
    case Some(n) =>
      Some((s[b + k..n], n + 1))
    case None =>
      if k == 0 then None else MatchSummary(s, b, k - 1)
  }

  /**
   * `(.*?)\nSummary:\s*(.*?)\n` with the package capture starting at `a`:
   * the lazy capture can only stop at the first newline, which must begin
   * `\nSummary:`.
   */
  function MatchFrom(s: string, a: nat): (r: Option<(string, string, nat)>)
    requires a <= |s|
    ensures r.Some? ==> a < r.value.2 && EndsLine(s, r.value.2) && '\n' !in r.value.0 && '\n' !in r.value.1
  {
    match NextNewline(s, a)
    case None => None
    case Some(n) => MatchAfterNewline(s, a, n)
  }

  /** The rest of `MatchFrom` once the package capture `s[a..n]` has reached the newline at `n`. */
  function MatchAfterNewline(s: string, a: nat, n: nat): (r: Option<(string, string, nat)>)
    requires a <= n < |s| && '\n' !in s[a..n]
    ensures r.Some? ==> n < r.value.2 && EndsLine(s, r.value.2) && r.value.0 == s[a..n] && '\n' !in r.value.1
  {
    if n + 1 + |SUMMARY| <= |s| && StartsWith(s[n + 1..], SUMMARY) then
      var b := n + 1 + |SUMMARY|;
      var m := MatchSummary(s, b, SpaceRun(s, b));
      if m.None? then None
      else Some((s[a..n], m.value.0, m.value.1))
    else None
  }

  /** The summary capture is the text right before the newline the match ends on. */
  lemma {:induction false} MatchSummaryCapture(s: string, b: nat, k: nat)
    requires b + k <= |s| && MatchSummary(s, b, k).Some?
    ensures var m := MatchSummary(s, b, k).value;
      && |m.0| < m.1 - b && m.1 <= |s|
      && m.0 == s[m.1 - 1 - |m.0|..m.1 - 1]
    decreases k
  {
    if NextNewline(s, b + k).None? {
      MatchSummaryCapture(s, b, k - 1);
    }
  }

  /**
   * What a block match from `a` captured: the package is the text from `a`
   * up to the first newline, and the summary is the text right before the
   * newline the match ends on.
   */
  lemma {:induction false} MatchFromCaptures(s: string, a: nat)
    requires a <= |s| && MatchFrom(s, a).Some?
    ensures var m := MatchFrom(s, a).value;
      && a + |m.0| < |s| && m.0 == s[a..a + |m.0|] && s[a + |m.0|] == '\n'
      && a + |m.1| < m.2 && m.1 == s[m.2 - 1 - |m.1|..m.2 - 1]
  {
    AfterNewlineCaptures(s, a, NextNewline(s, a).value);
  }

  /** The summary capture of `MatchAfterNewline` sits right before the newline the match ends on. */
  lemma AfterNewlineCaptures(s: string, a: nat, n: nat)
    requires a <= n < |s| && '\n' !in s[a..n] && MatchAfterNewline(s, a, n).Some?
    ensures var m := MatchAfterNewline(s, a, n).value;
      && n + |m.1| < m.2 <= |s| && m.1 == s[m.2 - 1 - |m.1|..m.2 - 1]
  {
    MatchSummaryCapture(s, n + 1 + |SUMMARY|, SpaceRun(s, n + 1 + |SUMMARY|));
  }

  /**
   * `\s*(.*?)\nSummary:\s*(.*?)\n` at `q`, with the first `\s*` taking `k`
   * characters and giving them back one by one.
   */
  function MatchBlock(s: string, q: nat, k: nat): (r: Option<(string, string, nat)>)
    requires q + k <= |s|
    ensures r.Some? ==>
      && q < r.value.2 && EndsLine(s, r.value.2)
      && '\n' !in r.value.0 && '\n' !in r.value.1
    decreases k
  {
    match MatchFrom(s, q + k)
    case Some(m) => Some(m)
    case None => if k == 0 then None else MatchBlock(s, q, k - 1)
  }

  /** The raw captures of one block. */
  datatype Block = Block(pkg: string, summary: string)

  /** The block regex tried at position `p`: the captures and where the match ends. */
  function MatchAt(s: string, p: nat): (r: Option<(Block, nat)>)
    requires p <= |s|
    ensures r.Some? ==>
      && StartsWith(s[p..], PACKAGE)
      && p + |PACKAGE| < r.value.1 && EndsLine(s, r.value.1)
      && '\n' !in r.value.0.pkg && '\n' !in r.value.0.summary
  {
    if StartsWith(s[p..], PACKAGE) then
      match MatchBlock(s, p + |PACKAGE|, SpaceRun(s, p + |PACKAGE|))
      case None => None
      case Some((x, y, e)) => Some((Block(x, y), e))
    else None
  }

  /** `pattern.finditer(s)` from position `pos`: successive non-overlapping matches. */
  function FindAll(s: string, pos: nat): (r: seq<Block>)
    requires pos <= |s|
    ensures forall i :: 0 <= i < |r| ==> '\n' !in r[i].pkg && '\n' !in r[i].summary
    decreases |s| - pos
  {
    if pos == |s| then []
    else
      match MatchAt(s, pos)
      case Some((b, end)) => [b] + FindAll(s, end)
      case None => FindAll(s, pos + 1)
  }

  // ---------------------------------------------------------------------
  // Well-formed blocks parse back

  /** A field the block regex captures whole: one non-empty line not starting with whitespace. */
  predicate PlainField(x: string) {
    |x| > 0 && !IsSpace(x[0]) && '\n' !in x
  }

  predicate PlainBlock(b: Block) {
    PlainField(b.pkg) && PlainField(b.summary)
  }

  /** A block as a compose report writes it: `Package: x`, `Summary: y`, each on its own line. */
  function BlockText(b: Block): string {
    PACKAGE + " " + b.pkg + "\n" + SUMMARY + " " + b.summary + "\n"
  }

  /** Blocks written one after the other. */
  function Render(bs: seq<Block>): string
    decreases |bs|
  {
    if |bs| == 0 then [] else BlockText(bs[0]) + Render(bs[1..])
  }

  /** The first newline at or after `from` is the one `NextNewline` finds. */
  lemma NextNewlineAt(s: string, from: nat, n: nat)
    requires from <= n < |s| && s[n] == '\n' && '\n' !in s[from..n]
    ensures NextNewline(s, from) == Some(n)
  {
    assert s[from..][n - from] == '\n';
  }

  /** One whitespace character followed by a non-space one: `\s*` takes exactly one. */
  lemma SpaceRunOne(s: string, i: nat)
    requires i + 1 < |s| && IsSpace(s[i]) && !IsSpace(s[i + 1])
    ensures SpaceRun(s, i) == 1
  {
  }

  /** Where each part of a written block sits. */
  lemma BlockLayout(b: Block)
    ensures var t, lx, ly := BlockText(b), |b.pkg|, |b.summary|;
      && |t| == 20 + lx + ly
      && t[..8] == PACKAGE && t[8] == ' '
      && t[9..9 + lx] == b.pkg && t[9 + lx] == '\n'
      && t[10 + lx..18 + lx] == SUMMARY && t[18 + lx] == ' '
      && t[19 + lx..19 + lx + ly] == b.summary && t[19 + lx + ly] == '\n'
  {
    var head, mid := PACKAGE + " ", "\n" + SUMMARY + " ";
    var t := BlockText(b);
    assert t == head + b.pkg + mid + b.summary + "\n";
    var lx := |b.pkg|;
    assert t[9 + lx..19 + lx] == mid;
  }

  /** A slice of a copy of `t` inside `s` is the same slice of `t`. */
  lemma CopySlice(s: string, p: nat, t: string, i: nat, j: nat)
    requires p + |t| <= |s| && s[p..p + |t|] == t && i <= j <= |t|
    ensures s[p + i..p + j] == t[i..j]
  {
    forall k | 0 <= k < j - i
      ensures s[p + i..p + j][k] == t[i..j][k]
    {
      assert s[p..p + |t|][i + k] == s[p + i + k];
    }
  }

  /** A character of a copy of `t` inside `s` is the same character of `t`. */
  lemma CopyChar(s: string, p: nat, t: string, i: nat)
    requires p + |t| <= |s| && s[p..p + |t|] == t && i < |t|
    ensures s[p + i] == t[i]
  {
    assert s[p..p + |t|][i] == s[p + i];
  }

  /** `\s*(.*?)\n` on one space, a plain summary and its newline. */
  lemma SummaryLine(s: string, c: nat, y: string)
    requires PlainField(y) && c + 2 + |y| <= |s|
    requires s[c] == ' ' && s[c + 1..c + 1 + |y|] == y && s[c + 1 + |y|] == '\n'
    ensures MatchSummary(s, c, SpaceRun(s, c)) == Some((y, c + 2 + |y|))
  {
    assert s[c + 1] == y[0] by { assert s[c + 1..c + 1 + |y|][0] == s[c + 1]; }
    SpaceRunOne(s, c);
    NextNewlineAt(s, c + 1, c + 1 + |y|);
  }

  /** `MatchAfterNewline` once the summary capture is known. */
  lemma {:induction false} AfterNewlineStep(s: string, a: nat, n: nat, y: string, e: nat)
    requires a <= n < |s| && '\n' !in s[a..n] && n + 1 + |SUMMARY| <= |s|
    requires StartsWith(s[n + 1..], SUMMARY)
    requires MatchSummary(s, n + 1 + |SUMMARY|, SpaceRun(s, n + 1 + |SUMMARY|)) == Some((y, e))
    ensures MatchAfterNewline(s, a, n) == Some((s[a..n], y, e))
  {
  }

  /** `MatchFrom` once the package line and the summary capture are known. */
  lemma {:induction false} MatchFromStep(s: string, a: nat, n: nat, y: string, e: nat)
    requires a <= n && n + 1 + |SUMMARY| <= |s| && NextNewline(s, a) == Some(n)
    requires StartsWith(s[n + 1..], SUMMARY)
    requires MatchSummary(s, n + 1 + |SUMMARY|, SpaceRun(s, n + 1 + |SUMMARY|)) == Some((y, e))
    ensures MatchFrom(s, a) == Some((s[a..n], y, e))
  {
    AfterNewlineStep(s, a, n, y, e);
  }

  /** The `Summary:` line after the package line's newline at `n`. */
  lemma SummaryAfter(s: string, n: nat, y: string)
    requires PlainField(y) && n + 11 + |y| <= |s|
    requires s[n + 1..n + 9] == SUMMARY && s[n + 9] == ' '
    requires s[n + 10..n + 10 + |y|] == y && s[n + 10 + |y|] == '\n'
    ensures StartsWith(s[n + 1..], SUMMARY)
    ensures MatchSummary(s, n + 9, SpaceRun(s, n + 9)) == Some((y, n + 11 + |y|))
  {
    assert s[n + 1..][..|SUMMARY|] == s[n + 1..n + 9];
    SummaryLine(s, n + 9, y);
  }

  /** From `a` on, `s` holds the package `x`, a newline, `Summary: `, the summary `y` and a newline. */
  predicate BlockLines(s: string, a: nat, x: string, y: string) {
    && a + |x| + 11 + |y| <= |s|
    && s[a..a + |x|] == x && s[a + |x|] == '\n'
    && s[a + |x| + 1..a + |x| + 9] == SUMMARY && s[a + |x| + 9] == ' '
    && s[a + |x| + 10..a + |x| + 10 + |y|] == y && s[a + |x| + 10 + |y|] == '\n'
  }

  /** `(.*?)\nSummary:\s*(.*?)\n` from `a` over a plain package line and a plain summary line. */
  lemma PackageLines(s: string, a: nat, x: string, y: string, e: nat)
    requires PlainField(x) && PlainField(y) && BlockLines(s, a, x, y) && e == a + |x| + 11 + |y|
    ensures MatchFrom(s, a) == Some((x, y, e))
  {
    var n := a + |x|;
    NextNewlineAt(s, a, n);
    SummaryAfter(s, n, y);
    MatchFromStep(s, a, n, y, n + 11 + |y|);
  }

  /** `MatchAt` once `\s*` has taken one space and the rest of the block is known. */
  lemma MatchAtStep(s: string, p: nat, x: string, y: string, e: nat)
    requires p + 9 <= |s| && StartsWith(s[p..], PACKAGE)
    requires SpaceRun(s, p + 8) == 1 && MatchFrom(s, p + 9) == Some((x, y, e))
    ensures MatchAt(s, p) == Some((Block(x, y), e))
  {
    assert |PACKAGE| == 8;
    assert MatchBlock(s, p + 8, 1) == Some((x, y, e));
  }

  /**
   * The block regex at `Package:`, one space and the lines of a plain
   * block captures the block's two fields and ends after its summary line.
   */
  lemma MatchAtBlock(s: string, p: nat, b: Block)
    requires PlainBlock(b)
    requires p + 9 <= |s| && StartsWith(s[p..], PACKAGE) && s[p + 8] == ' '
    requires BlockLines(s, p + 9, b.pkg, b.summary)
    ensures MatchAt(s, p) == Some((b, p + 20 + |b.pkg| + |b.summary|))
  {
    assert s[p + 9] == b.pkg[0] by { assert s[p + 9..p + 9 + |b.pkg|][0] == s[p + 9]; }
    LinesMatchFrom(s, p, b);
    MatchAtStep(s, p, b.pkg, b.summary, p + 20 + |b.pkg| + |b.summary|);
    assert Block(b.pkg, b.summary) == b;
  }

  /** Past `Package:` and one space, the lines of a block are matched by the rest of the block regex. */
  lemma LinesMatchFrom(s: string, p: nat, b: Block)
    requires PlainBlock(b) && p + 10 <= |s| && IsSpace(s[p + 8]) && !IsSpace(s[p + 9])
    requires BlockLines(s, p + 9, b.pkg, b.summary)
    ensures SpaceRun(s, p + 8) == 1
    ensures MatchFrom(s, p + 9) == Some((b.pkg, b.summary, p + 20 + |b.pkg| + |b.summary|))
  {
    SpaceRunOne(s, p + 8);
    PackageLines(s, p + 9, b.pkg, b.summary, p + 20 + |b.pkg| + |b.summary|);
  }

  /** A copy of a written block inside `s`, read off piece by piece. */
  lemma BlockCopied(s: string, p: nat, b: Block)
    requires PlainBlock(b)
    requires p + |BlockText(b)| <= |s| && s[p..p + |BlockText(b)|] == BlockText(b)
    ensures |BlockText(b)| == 20 + |b.pkg| + |b.summary|
    ensures StartsWith(s[p..], PACKAGE) && s[p + 8] == ' '
    ensures BlockLines(s, p + 9, b.pkg, b.summary)
  {
    PackageLineCopied(s, p, b);
    SummaryLineCopied(s, p, b);
  }

  /** The `Package:` line of a copied block. */
  lemma PackageLineCopied(s: string, p: nat, b: Block)
    requires PlainBlock(b)
    requires p + |BlockText(b)| <= |s| && s[p..p + |BlockText(b)|] == BlockText(b)
    ensures |BlockText(b)| == 20 + |b.pkg| + |b.summary|
    ensures StartsWith(s[p..], PACKAGE) && s[p + 8] == ' '
    ensures s[p + 9..p + 9 + |b.pkg|] == b.pkg && s[p + 9 + |b.pkg|] == '\n'
  {
    BlockLayout(b);
    CopySlice(s, p, BlockText(b), 0, 8);
    assert s[p..][..|PACKAGE|] == PACKAGE;
    CopySlice(s, p, BlockText(b), 9, 9 + |b.pkg|);
    CopyChar(s, p, BlockText(b), 8);
    CopyChar(s, p, BlockText(b), 9);
    CopyChar(s, p, BlockText(b), 9 + |b.pkg|);
  }

  /** The `Summary:` line of a copied block. */
  lemma SummaryLineCopied(s: string, p: nat, b: Block)
    requires PlainBlock(b)
    requires p + |BlockText(b)| <= |s| && s[p..p + |BlockText(b)|] == BlockText(b)
    ensures p + 9 + |b.pkg| + 11 + |b.summary| <= |s|
    ensures s[p + 9 + |b.pkg| + 1..p + 9 + |b.pkg| + 9] == SUMMARY && s[p + 9 + |b.pkg| + 9] == ' '
    ensures s[p + 9 + |b.pkg| + 10..p + 9 + |b.pkg| + 10 + |b.summary|] == b.summary
    ensures s[p + 9 + |b.pkg| + 10 + |b.summary|] == '\n'
  {
    BlockLayout(b);
    CopySlice(s, p, BlockText(b), 10 + |b.pkg|, 18 + |b.pkg|);
    CopySlice(s, p, BlockText(b), 19 + |b.pkg|, 19 + |b.pkg| + |b.summary|);
    CopyChar(s, p, BlockText(b), 18 + |b.pkg|);
    CopyChar(s, p, BlockText(b), 19 + |b.pkg| + |b.summary|);
  }

  /** `finditer` after a match at `pos`: the block, then the search from where it ended. */
  lemma FindAllStep(s: string, pos: nat, b: Block, e: nat)
    requires pos < |s| && MatchAt(s, pos) == Some((b, e))
    ensures FindAll(s, pos) == [b] + FindAll(s, e)
  {
  }

  /** A suffix that starts with `t`: `t` is copied at `pos`, and what follows is the suffix after it. */
  lemma SuffixSplit(s: string, pos: nat, t: string, rest: string)
    requires pos <= |s| && s[pos..] == t + rest
    ensures pos + |t| <= |s| && s[pos..pos + |t|] == t && s[pos + |t|..] == rest
  {
    assert s[pos..pos + |t|] == s[pos..][..|t|];
    assert s[pos + |t|..] == s[pos..][|t|..];
  }

  /** Written blocks are found again, in order, and nothing else is. */
  lemma {:induction false} FindAllRendered(s: string, pos: nat, bs: seq<Block>)
    requires pos <= |s| && s[pos..] == Render(bs)
    requires forall i :: 0 <= i < |bs| ==> PlainBlock(bs[i])
    ensures FindAll(s, pos) == bs
    decreases |bs|
  {
    if |bs| == 0 {
      assert |s[pos..]| == 0;
    } else {
      var t := BlockText(bs[0]);
      SuffixSplit(s, pos, t, Render(bs[1..]));
      BlockCopied(s, pos, bs[0]);
      MatchAtBlock(s, pos, bs[0]);
      FindAllStep(s, pos, bs[0], pos + |t|);
      FindAllRendered(s, pos + |t|, bs[1..]);
      assert bs == [bs[0]] + bs[1..];
    }
  }

  /** The dictionary key of a block: the stripped package name. */
  function Key(b: Block): string {
    Strip(b.pkg)
  }

  /** The dictionary value of a block: `f" {package} - {summary.strip()}"`. */
  function Line(b: Block): string {
    " " + Key(b) + " - " + Strip(b.summary)
  }

  /** The `(package, line)` assignment each block performs, in order. */
  function Entries(bs: seq<Block>): (r: seq<(string, string)>)
    ensures |r| == |bs|
    ensures forall i :: 0 <= i < |bs| ==> r[i] == (Key(bs[i]), Line(bs[i]))
  {
    seq(|bs|, i requires 0 <= i < |bs| => (Key(bs[i]), Line(bs[i])))
  }

  /** `RESULT[package] = line` for every block in order. */
  function BuildMap(bs: seq<Block>): map<string, string> {
    Assign(Entries(bs))
  }

  /** Index `i` is the last block whose key is `k`. */
  predicate IsLastFor(bs: seq<Block>, k: string, i: int) {
    0 <= i < |bs| && Key(bs[i]) == k && forall j :: i < j < |bs| ==> Key(bs[j]) != k
  }

  /** A package is in the dictionary iff some block names it. */
  lemma BuildMapKeys(bs: seq<Block>, k: string)
    ensures k in BuildMap(bs) <==> exists i :: 0 <= i < |bs| && Key(bs[i]) == k
  {
    var es := Entries(bs);
    AssignKeys(es, k);
    if exists i :: 0 <= i < |es| && es[i].0 == k {
      var i :| 0 <= i < |es| && es[i].0 == k;
      assert Key(bs[i]) == k;
    }
  }

  /** A later duplicate overwrites: the value is the line of the last block with that key. */
  lemma BuildMapLastWins(bs: seq<Block>, k: string, i: int)
    requires IsLastFor(bs, k, i)
    ensures k in BuildMap(bs) && BuildMap(bs)[k] == Line(bs[i])
  {
    var es := Entries(bs);
    assert IsLastKey(es, k, i);
    AssignLastWins(es, k, i);
  }

  /** Every value is the line of its own key: `" " + key + " - " + summary`. */
  lemma ValuesNameTheirKey(bs: seq<Block>, k: string)
    requires k in BuildMap(bs)
    ensures StartsWith(BuildMap(bs)[k], " " + k + " - ")
  {
    var es := Entries(bs);
    AssignKeys(es, k);
    var i := LastKeyExists(es, k);
    AssignLastWins(es, k, i);
    assert Line(bs[i]) == (" " + k + " - ") + Strip(bs[i].summary);
  }

  /** `parse_email_content`: `None` without the marker, else the block dictionary. */
  function ParseEmailContent(content: string): (r: Option<map<string, string>>)
    ensures r.None? <==> !Contains(content, MARKER)
  {
    match ExtractSection(content)
    case None => None
    case Some(sec) => Some(BuildMap(FindAll(sec, 0)))
  }

  /** The lazy section capture stops at `r` when `r` is a stop and nothing before it is. */
  lemma SectionEndAt(s: string, k: nat, r: nat)
    requires k <= r <= |s| && IsSectionStop(s, r)
    requires forall j :: k <= j < r ==> !IsSectionStop(s, j)
    ensures SectionEnd(s, k) == r
  {
  }

  /** The marker at the very start is the first one. */
  lemma MarkerFirst(c: string)
    requires StartsWith(c, MARKER)
    ensures FindFrom(c, MARKER, 0) == Some(0)
  {
    assert OccursAt(c, MARKER, 0) by { assert c[0..] == c; }
  }

  /** Written blocks end with a newline. */
  lemma {:induction false} RenderEndsInNewline(bs: seq<Block>)
    requires |bs| > 0
    ensures |Render(bs)| > 0 && Render(bs)[|Render(bs)| - 1] == '\n'
    decreases |bs|
  {
    var t, rest := BlockText(bs[0]), Render(bs[1..]);
    if |bs| > 1 {
      RenderEndsInNewline(bs[1..]);
      assert Render(bs)[|Render(bs)| - 1] == rest[|rest| - 1];
    } else {
      assert Render(bs) == t;
    }
  }

  /** A section free of `=====` and ending in a newline, closed by the next heading's `=====`. */
  lemma SectionBeforeFence(r: string, post: string)
    requires !Contains(r, FENCE) && (r == [] || r[|r| - 1] == '\n')
    ensures ExtractSection(MARKER + r + FENCE + post) == Some(r)
  {
    var c := MARKER + r + FENCE + post;
    var start := |MARKER|;
    assert c[..|MARKER|] == MARKER;
    MarkerFirst(c);
    assert c[start..start + |r|] == r;
    assert IsSectionStop(c, start + |r|) by {
      assert c[start + |r|..][..|FENCE|] == FENCE;
    }
    forall j | start <= j < start + |r|
      ensures !IsSectionStop(c, j)
    {
      NoFenceInside(c, start, r, j);
    }
    SectionEndAt(c, start, start + |r|);
  }

  /**
   * A report whose added-packages section holds written blocks and is
   * followed by another `=====` heading: the dictionary is built from
   * exactly those blocks, in order.
   */
  lemma {:induction false} ParseRendered(bs: seq<Block>, post: string)
    requires forall i :: 0 <= i < |bs| ==> PlainBlock(bs[i])
    requires !Contains(Render(bs), FENCE)
    ensures ParseEmailContent(MARKER + Render(bs) + FENCE + post) == Some(BuildMap(bs))
  {
    RenderedSection(bs, post);
    RenderedBlocks(bs);
    ParseSection(MARKER + Render(bs) + FENCE + post, Render(bs));
  }

  /** The section of such a report is the written blocks. */
  lemma {:induction false} RenderedSection(bs: seq<Block>, post: string)
    requires !Contains(Render(bs), FENCE)
    ensures ExtractSection(MARKER + Render(bs) + FENCE + post) == Some(Render(bs))
  {
    if |bs| > 0 {
      RenderEndsInNewline(bs);
    }
    SectionBeforeFence(Render(bs), post);
  }

  /** `finditer` over the written blocks alone finds them all, in order. */
  lemma {:induction false} RenderedBlocks(bs: seq<Block>)
    requires forall i :: 0 <= i < |bs| ==> PlainBlock(bs[i])
    ensures FindAll(Render(bs), 0) == bs
  {
    var r := Render(bs);
    assert r[0..] == r;
    FindAllRendered(r, 0, bs);
  }

  /** `parse_email_content` once the section is known. */
  lemma ParseSection(c: string, sec: string)
    requires ExtractSection(c) == Some(sec)
    ensures ParseEmailContent(c) == Some(BuildMap(FindAll(sec, 0)))
  {
  }

  /** No `=====` starts inside a copy of blocks free of it that a longer text continues. */
  lemma NoFenceInside(c: string, start: nat, r: string, j: nat)
    requires start + |r| + |FENCE| <= |c| && c[start..start + |r|] == r
    requires !Contains(r, FENCE) && (r == [] || r[|r| - 1] == '\n')
    requires start <= j < start + |r|
    ensures !IsSectionStop(c, j)
  {
    var k := j - start;
    assert c[j..][..|FENCE|] == c[j..j + |FENCE|];
    if j + |FENCE| <= start + |r| {
      CopySlice(c, start, r, k, k + |FENCE|);
      assert !OccursAt(r, FENCE, k);
      assert r[k..][..|FENCE|] == r[k..k + |FENCE|];
    } else {
      var last := start + |r| - 1;
      CopyChar(c, start, r, |r| - 1);
      assert c[j..j + |FENCE|][last - j] == '\n';
    }
  }

  /** The line a parsed report files under a package is built from its last block. */
  lemma {:induction false} ParsedLine(bs: seq<Block>, post: string, i: int)
    requires forall i :: 0 <= i < |bs| ==> PlainBlock(bs[i])
    requires !Contains(Render(bs), FENCE)
    requires 0 <= i < |bs| && IsLastFor(bs, Strip(bs[i].pkg), i)
    ensures var r := ParseEmailContent(MARKER + Render(bs) + FENCE + post);
      && r.Some? && Strip(bs[i].pkg) in r.value
      && r.value[Strip(bs[i].pkg)] == " " + Strip(bs[i].pkg) + " - " + Strip(bs[i].summary)
  {
    ParseRendered(bs, post);
    BuildMapLastWins(bs, Strip(bs[i].pkg), i);
  }

  /**
   * `$` also matches just before a newline that ends the text, and the lazy
   * capture stops there: when the section runs to the end of the report,
   * its final newline is not part of it.
   */
  lemma SectionDropsFinalNewline(t: string)
    requires !Contains(t + "\n", FENCE)
    ensures ExtractSection(MARKER + t + "\n") == Some(t)
  {
    var c := MARKER + t + "\n";
    var start := |MARKER|;
    assert c[..|MARKER|] == MARKER;
    MarkerFirst(c);
    forall j | start <= j < start + |t|
      ensures !IsSectionStop(c, j)
    {
      var k := j - start;
      assert c[j..] == (t + "\n")[k..];
      assert !OccursAt(t + "\n", FENCE, k);
    }
    SectionEndAt(c, start, start + |t|);
    assert c[start..start + |t|] == t;
  }

  // ---------------------------------------------------------------------
  // `main`

  /** File `c` yields package `k`. */
  predicate Provides(c: string, k: string) {
    ParseEmailContent(c).Some? && k in ParseEmailContent(c).value
  }

  /** What each file contributes to `RESULT.update`, in order. */
  function Parses(contents: seq<string>): (r: seq<Option<map<string, string>>>)
    ensures |r| == |contents|
    ensures forall i :: 0 <= i < |contents| ==> r[i] == ParseEmailContent(contents[i])
  {
    seq(|contents|, i requires 0 <= i < |contents| => ParseEmailContent(contents[i]))
  }

  /**
   * `RESULT.update(parse_email_content(content))` over the files in order;
   * a file without the section makes `update(None)` raise, which is caught,
   * so it contributes nothing.
   */
  function MergeFiles(contents: seq<string>): map<string, string> {
    UpdateAll(Parses(contents))
  }

  /** A package is in the merged result iff some file yields it. */
  lemma MergeFilesKeys(contents: seq<string>, k: string)
    ensures k in MergeFiles(contents) <==> exists i :: 0 <= i < |contents| && Provides(contents[i], k)
  {
    var ps := Parses(contents);
    UpdateAllKeys(ps, k);
    if exists i :: 0 <= i < |ps| && Yields(ps[i], k) {
      var i :| 0 <= i < |ps| && Yields(ps[i], k);
      assert Provides(contents[i], k);
    }
    if exists i :: 0 <= i < |contents| && Provides(contents[i], k) {
      var i :| 0 <= i < |contents| && Provides(contents[i], k);
      assert Yields(ps[i], k);
    }
  }

  /** Across files too, the last file that yields a package decides its line. */
  lemma MergeFilesLastWins(contents: seq<string>, k: string, i: int)
    requires 0 <= i < |contents| && Provides(contents[i], k)
    requires forall j :: i < j < |contents| ==> !Provides(contents[j], k)
    ensures k in MergeFiles(contents)
    ensures MergeFiles(contents)[k] == ParseEmailContent(contents[i]).value[k]
  {
    var ps := Parses(contents);
    forall j | i < j < |ps|
      ensures !Yields(ps[j], k)
    {
      assert !Provides(contents[j], k);
    }
    UpdateAllLastWins(ps, k, i);
  }

  datatype ArgError =
    | UsageError   // not exactly one argument
    | FormatError  // not six digits

  /** Six ASCII digits. */
  predicate IsYearMonth(ym: string) {
    |ym| == 6 && forall i :: 0 <= i < 6 ==> IsDigit(ym[i])
  }

  /** `f"*{year}-{month}*"` from the first four and the last two characters. */
  function Pattern(ym: string): string
    requires |ym| == 6
  {
    "*" + ym[..4] + "-" + ym[4..] + "*"
  }

  /** Read `YYYYMM` back out of a glob pattern. */
  function YearMonthOf(pattern: string): string
    requires |pattern| == 9
  {
    pattern[1..5] + pattern[6..8]
  }

  /** Argument checking of `main`, given `sys.argv`: the glob pattern or the error. */
  function GlobPattern(argv: seq<string>): (r: Result<string, ArgError>)
    ensures r == Failure(UsageError) <==> |argv| != 2
    ensures r.Success? <==> |argv| == 2 && IsYearMonth(argv[1])
    ensures r.Success? ==> |r.value| == 9 && YearMonthOf(r.value) == argv[1]
    ensures r.Success? ==> r.value[0] == '*' && r.value[5] == '-' && r.value[8] == '*'
  {
    if |argv| != 2 then Failure(UsageError)
    else if !IsYearMonth(argv[1]) then Failure(FormatError)
    else
      var ym := argv[1];
      assert ym == ym[..4] + ym[4..];
      Success(Pattern(ym))
  }

  /** Distinct months give distinct glob patterns. */
  lemma PatternInjective(a: string, b: string)
    requires IsYearMonth(a) && IsYearMonth(b) && Pattern(a) == Pattern(b)
    ensures a == b
  {
    assert a == YearMonthOf(Pattern(a)) by { assert a == a[..4] + a[4..]; }
    assert b == YearMonthOf(Pattern(b)) by { assert b == b[..4] + b[4..]; }
  }

  /** `for i in sorted(RESULT.keys()): print(RESULT[i])`: keys in code-point order. */
  method SortedOutput(result: map<string, string>) returns (keys: seq<string>, lines: seq<string>)
    ensures forall k :: k in keys <==> k in result
    ensures forall i, j :: 0 <= i < j < |keys| ==> LexLess(keys[i], keys[j])
    ensures |lines| == |keys|
    ensures forall i :: 0 <= i < |keys| ==> keys[i] in result && lines[i] == result[keys[i]]
  {
    var remaining := result.Keys;
    keys, lines := [], [];
    while remaining != {}
      invariant remaining <= result.Keys
      invariant forall k :: k in result ==> (k in remaining <==> k !in keys)
      invariant forall k :: k in keys ==> k in result
      invariant forall i, j :: 0 <= i < j < |keys| ==> LexLess(keys[i], keys[j])
      invariant forall i, k :: 0 <= i < |keys| && k in remaining ==> LexLess(keys[i], k)
      invariant |lines| == |keys|
      invariant forall i :: 0 <= i < |keys| ==> lines[i] == result[keys[i]]
      decreases remaining
    {
      LeastExists(remaining);
      var x :| IsLeast(x, remaining);
      keys, lines := keys + [x], lines + [result[x]];
      remaining := remaining - {x};
    }
  }
}

=== FILE: stats.dfy ===
/**
 * The `Stats` counter of periodic-checker.py: a dictionary from key to a
 * running total, kept here as a sequence of `(key, total)` pairs in
 * insertion order, and its report order, `sorted(items, key=-value)`.
 * Python's `sorted` is stable, so keys with equal totals keep their
 * insertion order; that is why the order of the pairs is part of the model.
 */
module Stats {
  import opened Wrappers
  import opened Lists

  type Entry = (string, int)
  type Counter = seq<Entry>

  /** No key occurs twice, as in a dictionary. */
  predicate DistinctKeys(c: Counter) {
    forall i, j :: 0 <= i < j < |c| ==> c[i].0 != c[j].0
  }

  /** Key `k` has a counter. */
  predicate Has(c: Counter, k: string) {
    exists i :: 0 <= i < |c| && c[i].0 == k
  }

  /** Where `k`'s counter sits, if it has one. */
  function IndexOf(c: Counter, k: string): (r: Option<nat>)
    ensures r.None? <==> !Has(c, k)
    ensures r.Some? ==> r.value < |c| && c[r.value].0 == k
    ensures r.Some? ==> forall j :: 0 <= j < r.value ==> c[j].0 != k
  {
    if |c| == 0 then None
    else if c[0].0 == k then Some(0)
    else
      assert forall j :: 1 <= j < |c| ==> c[j] == c[1..][j - 1];
      match IndexOf(c[1..], k)
      case None => None
      case Some(i) => Some(i + 1)
  }

  /** The counter of `k`, or 0 when `k` was never added. */
  function Get(c: Counter, k: string): (r: int)
    ensures !Has(c, k) ==> r == 0
    ensures DistinctKeys(c) ==> forall i :: 0 <= i < |c| && c[i].0 == k ==> r == c[i].1
  {
    match IndexOf(c, k)
    case None => 0
    case Some(i) => c[i].1
  }

  /** `add(key, size)`: create the counter at 0 if needed, then add `size`. */
  function Add(c: Counter, k: string, size: int): (r: Counter)
    requires DistinctKeys(c)
    ensures DistinctKeys(r) && Has(r, k)
    ensures Get(r, k) == Get(c, k) + size
    ensures forall k' :: k' != k ==> Get(r, k') == Get(c, k')
    ensures forall k' :: Has(r, k') <==> Has(c, k') || k' == k
    ensures Has(c, k) ==> |r| == |c| && forall i :: 0 <= i < |c| ==> r[i].0 == c[i].0
    ensures !Has(c, k) ==> |r| == |c| + 1 && r[..|c|] == c && r[|c|].0 == k
  {
    match IndexOf(c, k)
    case Some(i) =>
      var r := c[i := (k, c[i].1 + size)];
      assert r[i].0 == k;
      forall k' | k' != k
        ensures Has(r, k') <==> Has(c, k')
        ensures Get(r, k') == Get(c, k')
      {
        if Has(r, k') {
          var j :| 0 <= j < |r| && r[j].0 == k';
          assert c[j].0 == k';
        }
        if Has(c, k') {
          var j :| 0 <= j < |c| && c[j].0 == k';
          assert r[j].0 == k';
        }
      }
      r
    case None =>
      var r := c + [(k, size)];
      assert r[|c|].0 == k;
      assert forall j :: 0 <= j < |c| ==> r[j] == c[j];
      forall k' | k' != k
        ensures Has(r, k') <==> Has(c, k')
        ensures Get(r, k') == Get(c, k')
      {
        if Has(r, k') {
          var j :| 0 <= j < |r| && r[j].0 == k';
          assert c[j].0 == k';
        }
        if Has(c, k') {
          var j :| 0 <= j < |c| && c[j].0 == k';
          assert r[j].0 == k';
        }
      }
      r
  }

  // ---------------------------------------------------------------------
  // `_sorted_iterator`

  /** Totals do not increase from left to right. */
  predicate Descending(s: Counter) {
    forall i, j :: 0 <= i < j < |s| ==> s[i].1 >= s[j].1
  }

  /** Place `x` after every entry whose total is at least its own. */
  function Insert(s: Counter, x: Entry): (r: Counter)
    requires Descending(s)
    ensures Descending(r)
    ensures multiset(r) == multiset(s) + multiset{x}
    ensures forall e :: e in r <==> e in s || e == x
  {
    if |s| == 0 then [x]
    else if s[0].1 >= x.1 then
      DescendingTail(s);
      var rest := Insert(s[1..], x);
      assert s == [s[0]] + s[1..];
      Prepend(s[0], rest);
      [s[0]] + rest
    else
      DescendingTail(s);
      Prepend(x, s);
      [x] + s
  }

  /** The head of a descending sequence bounds every entry, and the rest is descending too. */
  lemma DescendingTail(s: Counter)
    requires Descending(s) && |s| > 0
    ensures Descending(s[1..])
    ensures forall e :: e in s ==> s[0].1 >= e.1
  {
    assert forall i :: 1 <= i < |s| ==> s[i] == s[1..][i - 1];
  }

  /** An entry at least as large as everything in a descending sequence can go in front. */
  lemma Prepend(x: Entry, s: Counter)
    requires Descending(s) && forall e :: e in s ==> x.1 >= e.1
    ensures Descending([x] + s)
  {
    forall i, j | 0 <= i < j < |s| + 1
      ensures ([x] + s)[i].1 >= ([x] + s)[j].1
    {
      assert ([x] + s)[j] == s[j - 1];
      if i > 0 {
        assert ([x] + s)[i] == s[i - 1];
      }
    }
  }

  /** `sorted(data.items(), key=lambda item: -item[1])`. */
  function SortDesc(c: Counter): (r: Counter)
    ensures Descending(r)
    ensures multiset(r) == multiset(c)
    ensures forall e :: e in r <==> e in c
  {
    if |c| == 0 then []
    else
      var n := |c| - 1;
      assert c == c[..n] + [c[n]];
      Insert(SortDesc(c[..n]), c[n])
  }

  /** The entries of `s` whose total is `v`, in their order in `s`. */
  function Tied(s: Counter, v: int): seq<Entry> {
    if |s| == 0 then []
    else (if s[0].1 == v then [s[0]] else []) + Tied(s[1..], v)
  }

  /** `Tied` distributes over concatenation. */
  lemma {:induction false} TiedAppend(a: Counter, b: Counter, v: int)
    ensures Tied(a + b, v) == Tied(a, v) + Tied(b, v)
  {
    if |a| == 0 {
      assert a + b == b;
    } else {
      var ab, h := a + b, if a[0].1 == v then [a[0]] else [];
      assert ab[0] == a[0] && ab[1..] == a[1..] + b;
      TiedAppend(a[1..], b, v);
      assert Tied(ab, v) == h + Tied(a[1..] + b, v);
      assert Tied(a, v) == h + Tied(a[1..], v);
    }
  }

  /** A descending sequence headed by totals below `v` has no entry tied at `v`. */
  lemma {:induction false} TiedNone(s: Counter, v: int)
    requires Descending(s) && (|s| == 0 || s[0].1 < v)
    ensures Tied(s, v) == []
  {
    if |s| > 0 {
      assert Descending(s[1..]) && (|s[1..]| == 0 || s[1..][0].1 < v) by {
        assert forall i :: 1 <= i < |s| ==> s[i] == s[1..][i - 1];
      }
      TiedNone(s[1..], v);
    }
  }

  /** `Tied` of a sequence with one more entry in front. */
  lemma TiedCons(e: Entry, r: Counter, v: int)
    ensures Tied([e] + r, v) == (if e.1 == v then [e] else []) + Tied(r, v)
  {
    assert ([e] + r)[1..] == r;
  }

  /**
   * `r` keeps the head of `s` in front of `r1`, and `r1` ties like the rest
   * of `s` plus `tail`: then `r` ties like `s` plus `tail`.
   */
  lemma TiedStep(s: Counter, r: Counter, r1: Counter, v: int, tail: seq<Entry>)
    requires |s| > 0 && r == [s[0]] + r1 && Tied(r1, v) == Tied(s[1..], v) + tail
    ensures Tied(r, v) == Tied(s, v) + tail
  {
    TiedCons(s[0], r1, v);
    AppendAssoc(if s[0].1 == v then [s[0]] else [], Tied(s[1..], v), tail);
  }

  /** An entry whose total is at least the new one's stays in front of it. */
  lemma InsertPastHead(s: Counter, x: Entry)
    requires Descending(s) && |s| > 0 && s[0].1 >= x.1
    ensures Descending(s[1..]) && Insert(s, x) == [s[0]] + Insert(s[1..], x)
  {
    assert Descending(s[1..]) by {
      assert forall i :: 1 <= i < |s| ==> s[i] == s[1..][i - 1];
    }
  }

  /** Inserting `x` puts it after every entry it ties with. */
  lemma {:induction false} InsertStable(s: Counter, x: Entry, v: int)
    requires Descending(s)
    ensures Tied(Insert(s, x), v) == Tied(s, v) + (if x.1 == v then [x] else [])
  {
    if |s| == 0 {
    } else if s[0].1 >= x.1 {
      InsertPastHead(s, x);
      InsertStable(s[1..], x, v);
      TiedStep(s, Insert(s, x), Insert(s[1..], x), v, if x.1 == v then [x] else []);
    } else {
      if x.1 == v {
        TiedNone(s, v);
      }
      assert ([x] + s)[0] == x && ([x] + s)[1..] == s;
      assert Tied(Insert(s, x), v) == (if x.1 == v then [x] else []) + Tied(s, v);
    }
  }

  /** The sort is stable: entries with equal totals keep their insertion order. */
  lemma {:induction false} SortDescStable(c: Counter, v: int)
    ensures Tied(SortDesc(c), v) == Tied(c, v)
  {
    if |c| > 0 {
      var n := |c| - 1;
      var front, last := c[..n], c[n];
      var sorted := SortDesc(front);
      assert SortDesc(c) == Insert(sorted, last);
      InsertStable(sorted, last, v);
      SortDescStable(front, v);
      TiedSnoc(c, v);
    }
  }

  /** The last entry's share of `Tied` comes last. */
  lemma TiedSnoc(c: Counter, v: int)
    requires |c| > 0
    ensures Tied(c, v) == Tied(c[..|c| - 1], v) + if c[|c| - 1].1 == v then [c[|c| - 1]] else []
  {
    var n := |c| - 1;
    var last := c[n];
    assert c == c[..n] + [last];
    TiedAppend(c[..n], [last], v);
    assert [last][1..] == [];
  }


  /** Inserting an entry whose key is new keeps the keys distinct. */
  lemma {:induction false} InsertDistinct(s: Counter, x: Entry)
    requires Descending(s) && DistinctKeys(s)
    requires forall e :: e in s ==> e.0 != x.0
    ensures DistinctKeys(Insert(s, x))
  {
    if |s| > 0 && s[0].1 >= x.1 {
      var tail := s[1..];
      assert Descending(tail) && DistinctKeys(tail) by {
        assert forall i :: 1 <= i < |s| ==> s[i] == tail[i - 1];
      }
      InsertDistinct(tail, x);
      var rest := Insert(tail, x);
      assert forall e :: e in tail ==> e.0 != s[0].0 by {
        assert forall i :: 1 <= i < |s| ==> s[i] == tail[i - 1];
      }
      ConsDistinct(s[0], rest);
    } else if |s| > 0 {
      ConsDistinct(x, s);
    }
  }

  /** A head whose key is not among the tail's keys keeps a key-distinct sequence distinct. */
  lemma ConsDistinct(x: Entry, s: Counter)
    requires DistinctKeys(s) && forall e :: e in s ==> e.0 != x.0
    ensures DistinctKeys([x] + s)
  {
    forall i, j | 0 <= i < j < |s| + 1
      ensures ([x] + s)[i].0 != ([x] + s)[j].0
    {
      assert ([x] + s)[j] == s[j - 1];
      if i > 0 {
        assert ([x] + s)[i] == s[i - 1];
      }
    }
  }

  /** The report lists each key once. */
  lemma {:induction false} SortDescDistinct(c: Counter)
    requires DistinctKeys(c)
    ensures DistinctKeys(SortDesc(c))
  {
    if |c| > 0 {
      var n := |c| - 1;
      assert DistinctKeys(c[..n]);
      SortDescDistinct(c[..n]);
      assert forall e :: e in c[..n] ==> e.0 != c[n].0;
      InsertDistinct(SortDesc(c[..n]), c[n]);
    }
  }

  /** Every counter is reported exactly once, with its total. */
  lemma ReportedOnce(c: Counter, k: string)
    requires DistinctKeys(c) && Has(c, k)
    ensures (k, Get(c, k)) in SortDesc(c)
    ensures DistinctKeys(SortDesc(c))
  {
    var i :| 0 <= i < |c| && c[i].0 == k;
    assert c[i] in c;
    SortDescDistinct(c);
  }
}

=== FILE: tags.dfy ===
/**
 * Tag lookup as the scripts do it. A tag list is kept as a sequence of
 * `(Key, Value)` pairs, so duplicate keys and their order survive; the
 * variants differ in how a key is compared (exactly or ignoring case), in
 * which occurrence wins (first or last), and in whether presence of the key
 * or a non-empty value is what counts.
 */
module Tags {
  import opened Wrappers

  /** One `{Key, Value}` pair of an EC2 tag list. */
  type Tag = (string, string)

  /** The governance key: which team owns a resource. */
  const FEDORA_GROUP: string := "FedoraGroup"

  /** The display-name key. */
  const NAME: string := "Name"

  /** `tags or []`: the resource API reports "no tags" as `None`. */
  function OrEmpty(tags: Option<seq<Tag>>): seq<Tag> {
    tags.GetOr([])
  }

  /** How a script compares a tag's key with the key it wants. */
  datatype KeyMatch =
    | Exact(key: string)          // `tag['Key'] == key`
    | IgnoreCase(lowered: string) // `tag['Key'].lower() == lowered`

  /** ASCII lower-casing of one character. */
  function LowerChar(c: char): char {
    if 'A' <= c <= 'Z' then (c as int + 32) as char else c
  }

  /** ASCII lower-casing of a string, character by character. */
  function Lower(s: string): string {
    seq(|s|, i requires 0 <= i < |s| => LowerChar(s[i]))
  }

  predicate Matches(m: KeyMatch, key: string) {
    match m
    case Exact(k) => key == k
    case IgnoreCase(k) => Lower(key) == k
  }

  /** Some tag carries a matching key, whatever its value. */
  predicate HasKey(tags: seq<Tag>, m: KeyMatch) {
    exists i :: 0 <= i < |tags| && Matches(m, tags[i].0)
  }

  /** Index `i` holds the first matching key. */
  predicate IsFirstMatch(tags: seq<Tag>, m: KeyMatch, i: int) {
    && 0 <= i < |tags|
    && Matches(m, tags[i].0)
    && forall j :: 0 <= j < i ==> !Matches(m, tags[j].0)
  }

  /** Index `i` holds the last matching key. */
  predicate IsLastMatch(tags: seq<Tag>, m: KeyMatch, i: int) {
    && 0 <= i < |tags|
    && Matches(m, tags[i].0)
    && forall j :: i < j < |tags| ==> !Matches(m, tags[j].0)
  }

  /** Where a `for ... : if match: ...; break` loop stops. */
  function FirstIndex(tags: seq<Tag>, m: KeyMatch): (r: Option<nat>)
    ensures r.None? <==> !HasKey(tags, m)
    ensures r.Some? ==> IsFirstMatch(tags, m, r.value)
  {
    if |tags| == 0 then None
    else if Matches(m, tags[0].0) then Some(0)
    else
      assert forall j :: 1 <= j < |tags| ==> tags[j] == tags[1..][j - 1];
      match FirstIndex(tags[1..], m)
      case None => None
      case Some(i) => Some(i + 1)
  }

  /** Which assignment a `for ...: if match: x = value` loop (no break) keeps. */
  function LastIndex(tags: seq<Tag>, m: KeyMatch): (r: Option<nat>)
    ensures r.None? <==> !HasKey(tags, m)
    ensures r.Some? ==> IsLastMatch(tags, m, r.value)
  {
    if |tags| == 0 then None
    else if Matches(m, tags[|tags| - 1].0) then Some(|tags| - 1)
    else
      assert forall j :: 0 <= j < |tags| - 1 ==> tags[j] == tags[..|tags| - 1][j];
      LastIndex(tags[..|tags| - 1], m)
  }

  /** First-wins lookup: the value of the first matching tag. */
  function FirstValue(tags: seq<Tag>, m: KeyMatch): (r: Option<string>)
    ensures r.None? <==> !HasKey(tags, m)
    ensures r.Some? ==> exists i :: IsFirstMatch(tags, m, i) && tags[i].1 == r.value
  {
    match FirstIndex(tags, m)
    case None => None
    case Some(i) => Some(tags[i].1)
  }

  /** Last-wins lookup: the value of the last matching tag. */
  function LastValue(tags: seq<Tag>, m: KeyMatch): (r: Option<string>)
    ensures r.None? <==> !HasKey(tags, m)
    ensures r.Some? ==> exists i :: IsLastMatch(tags, m, i) && tags[i].1 == r.value
  {
    match LastIndex(tags, m)
    case None => None
    case Some(i) => Some(tags[i].1)
  }

  /** "Value non-empty": the first matching value exists and is not `""`. */
  predicate HasNonEmptyFirst(tags: seq<Tag>, m: KeyMatch) {
    FirstValue(tags, m).Some? && FirstValue(tags, m).value != ""
  }

  /** How many tags carry a matching key. */
  function Count(tags: seq<Tag>, m: KeyMatch): nat {
    if |tags| == 0 then 0
    else Count(tags[..|tags| - 1], m) + (if Matches(m, tags[|tags| - 1].0) then 1 else 0)
  }

  /** Two distinct matching indices make the count at least two. */
  lemma {:induction false} CountAtLeastTwo(tags: seq<Tag>, m: KeyMatch, i: int, j: int)
    requires 0 <= i < j < |tags|
    requires Matches(m, tags[i].0) && Matches(m, tags[j].0)
    ensures Count(tags, m) >= 2
  {
    var n := |tags| - 1;
    var front := tags[..n];
    if j == n {
      assert front[i] == tags[i];
      CountPositive(front, m, i);
    } else {
      assert front[i] == tags[i] && front[j] == tags[j];
      CountAtLeastTwo(front, m, i, j);
    }
  }

  /** One matching index makes the count positive. */
  lemma {:induction false} CountPositive(tags: seq<Tag>, m: KeyMatch, i: int)
    requires 0 <= i < |tags| && Matches(m, tags[i].0)
    ensures Count(tags, m) >= 1
  {
    var n := |tags| - 1;
    if i < n {
      assert tags[..n][i] == tags[i];
      CountPositive(tags[..n], m, i);
    }
  }

  /** Without a matching key the count is zero, and conversely. */
  lemma {:induction false} CountZero(tags: seq<Tag>, m: KeyMatch)
    ensures Count(tags, m) == 0 <==> !HasKey(tags, m)
  {
    if |tags| > 0 {
      var n := |tags| - 1;
      CountZero(tags[..n], m);
      assert forall j :: 0 <= j < n ==> tags[..n][j] == tags[j];
      if HasKey(tags[..n], m) {
        var j :| 0 <= j < n && Matches(m, tags[..n][j].0);
        assert Matches(m, tags[j].0);
      }
    }
  }

  /** First-wins and last-wins agree when the key occurs at most once. */
  lemma FirstEqualsLastWhenUnique(tags: seq<Tag>, m: KeyMatch)
    requires Count(tags, m) <= 1
    ensures FirstValue(tags, m) == LastValue(tags, m)
  {
    var f := FirstIndex(tags, m);
    var l := LastIndex(tags, m);
    if f.Some? && l.Some? && f.value != l.value {
      assert f.value < l.value;
      CountAtLeastTwo(tags, m, f.value, l.value);
    }
  }

  /** First-wins and last-wins can only disagree when the key is duplicated. */
  lemma FirstLastDisagreeNeedsDuplicate(tags: seq<Tag>, m: KeyMatch)
    requires FirstValue(tags, m) != LastValue(tags, m)
    ensures Count(tags, m) >= 2
  {
    if Count(tags, m) <= 1 {
      FirstEqualsLastWhenUnique(tags, m);
    }
  }

  /**
   * "Key present" and "first value non-empty" disagree exactly when the
   * first matching tag has the empty value.
   */
  lemma PresenceVersusNonEmpty(tags: seq<Tag>, m: KeyMatch)
    ensures HasNonEmptyFirst(tags, m) ==> HasKey(tags, m)
    ensures HasKey(tags, m) != HasNonEmptyFirst(tags, m) <==> FirstValue(tags, m) == Some("")
  {
  }

  /** An exact key match is also a case-insensitive match of its lower-cased form. */
  lemma ExactImpliesIgnoreCase(tags: seq<Tag>, key: string)
    requires HasKey(tags, Exact(key))
    ensures HasKey(tags, IgnoreCase(Lower(key)))
  {
    var i :| 0 <= i < |tags| && Matches(Exact(key), tags[i].0);
    assert Matches(IgnoreCase(Lower(key)), tags[i].0);
  }

  /** Appending a tag: last-wins takes its value when its key matches. */
  lemma {:induction false} LastValueSnoc(tags: seq<Tag>, t: Tag, m: KeyMatch)
    ensures LastValue(tags + [t], m) == if Matches(m, t.0) then Some(t.1) else LastValue(tags, m)
  {
    assert (tags + [t])[..|tags|] == tags;
  }

  /** The last matching tag is the one whose value last-wins lookup returns. */
  lemma LastMatchValue(tags: seq<Tag>, m: KeyMatch, i: int)
    requires IsLastMatch(tags, m, i)
    ensures LastValue(tags, m) == Some(tags[i].1)
  {
    assert LastIndex(tags, m) == Some(i);
  }

  /** Prepending a tag: last-wins keeps the value found later, else takes the new one when its key matches. */
  lemma LastValueCons(t: Tag, rest: seq<Tag>, m: KeyMatch)
    ensures LastValue([t] + rest, m)
      == if HasKey(rest, m) then LastValue(rest, m) else if Matches(m, t.0) then Some(t.1) else None
  {
    assert forall k :: 0 < k < |rest| + 1 ==> ([t] + rest)[k] == rest[k - 1];
    if HasKey(rest, m) {
      var j := LastIndex(rest, m).value;
      LastMatchValue(rest, m, j);
      LastMatchValue([t] + rest, m, j + 1);
    } else if Matches(m, t.0) {
      LastMatchValue([t] + rest, m, 0);
    } else {
      assert !HasKey([t] + rest, m);
    }
  }

  /** Appending a tag: presence of the key is the old presence or the new key. */
  lemma HasKeySnoc(tags: seq<Tag>, t: Tag, m: KeyMatch)
    ensures HasKey(tags + [t], m) <==> HasKey(tags, m) || Matches(m, t.0)
  {
    if HasKey(tags, m) {
      var i :| 0 <= i < |tags| && Matches(m, tags[i].0);
      assert (tags + [t])[i] == tags[i];
    }
    if Matches(m, t.0) {
      assert (tags + [t])[|tags|] == t;
    }
  }

  /** Appending a tag: first-wins keeps an existing value. */
  lemma {:induction false} FirstValueSnoc(tags: seq<Tag>, t: Tag, m: KeyMatch)
    requires HasKey(tags, m)
    ensures FirstValue(tags + [t], m) == FirstValue(tags, m)
  {
    var i := FirstIndex(tags, m).value;
    assert IsFirstMatch(tags + [t], m, i) by {
      assert forall j :: 0 <= j <= i ==> (tags + [t])[j] == tags[j];
    }
  }
}

=== FILE: testing_farm_tags.dfy ===
/**
 * fix-testing-farm-tags.py: among the autoscaler instances of a region,
 * select the ones without a `FedoraGroup` key, collect the volumes attached
 * to them, and tag both with `FedoraGroup=CI`.
 *
 * The query itself (tag `k8s.io/cluster-autoscaler/enabled=true`, state
 * running or stopped) is filtered by the API; the model starts from the
 * instances it returns, in page order.
 */
module TestingFarmTags {
  import opened Wrappers
  import opened Tags
  import opened Lists
  import opened Ec2

  const SET_VALUE: string := "CI"
  const SAMPLE_SIZE: nat := 5

  /** An instance of the filtered query: `Tags` and `BlockDeviceMappings` read with `.get(..., [])`. */
  datatype Instance = Instance(id: string, tags: seq<Tag>, mappings: seq<Mapping>)

  /** `TAG_TO_EXCLUDE_KEY not in tag_keys`: no key is exactly `FedoraGroup`, whatever the values. */
  predicate Selected(inst: Instance) {
    !HasKey(inst.tags, Exact(FEDORA_GROUP))
  }

  /** A mapping with `Ebs` but no `VolumeId`: `mapping["Ebs"]["VolumeId"]` raises `KeyError`. */
  predicate Broken(m: Mapping) {
    m.ebs.Some? && m.ebs.value.volumeId.None?
  }

  /** Mapping `m` contributes volume `v`. */
  predicate AttachesVolume(m: Mapping, v: string) {
    m.ebs.Some? && m.ebs.value.volumeId == Some(v)
  }

  /** A selected instance whose mappings make the loop raise. */
  predicate Crashes(inst: Instance) {
    Selected(inst) && exists j :: 0 <= j < |inst.mappings| && Broken(inst.mappings[j])
  }

  /** Volume `v` is attached to selected instance `inst`. */
  predicate SelectedVolume(inst: Instance, v: string) {
    Selected(inst) && exists j :: 0 <= j < |inst.mappings| && AttachesVolume(inst.mappings[j], v)
  }

  /** The uncaught `KeyError` that ends the script, naming the instance being read. */
  datatype MissingVolumeId = MissingVolumeId(instance: string)

  /** `instances_to_tag` and `volumes_to_tag` of one region. */
  datatype Plan = Plan(instances: seq<string>, volumes: set<string>)

  /** The volume ids of one instance's mappings, or the error on the first broken one. */
  function MappingVolumes(ms: seq<Mapping>): (r: Option<set<string>>)
    ensures r.None? <==> exists j :: 0 <= j < |ms| && Broken(ms[j])
    ensures r.Some? ==> forall v :: v in r.value <==> exists j :: 0 <= j < |ms| && AttachesVolume(ms[j], v)
  {
    if |ms| == 0 then Some({})
    else
      var n := |ms| - 1;
      assert forall j :: 0 <= j < n ==> ms[..n][j] == ms[j];
      var m := ms[n];
      match MappingVolumes(ms[..n])
      case None => None
      case Some(vs) =>
        if m.ebs.None? then Some(vs)
        else if m.ebs.value.volumeId.None? then None
        else Some(vs + {m.ebs.value.volumeId.value})
  }

  /** The collection loop of `process_region`, instance by instance. */
  function Collect(insts: seq<Instance>): Result<Plan, MissingVolumeId> {
    if |insts| == 0 then Success(Plan([], {}))
    else
      var n := |insts| - 1;
      var inst := insts[n];
      match Collect(insts[..n])
      case Failure(e) => Failure(e)
      case Success(plan) =>
        if !Selected(inst) then
          Success(plan)
        else
          match MappingVolumes(inst.mappings)
          case None => Failure(MissingVolumeId(inst.id))
          case Some(vs) => Success(Plan(plan.instances + [inst.id], plan.volumes + vs))
  }

  /** The script stops exactly when some selected instance has an `Ebs` entry without a volume id. */
  lemma {:induction false} CollectFails(insts: seq<Instance>)
    ensures Collect(insts).Failure? <==> exists i :: 0 <= i < |insts| && Crashes(insts[i])
  {
    if |insts| > 0 {
      var n := |insts| - 1;
      var front := insts[..n];
      CollectFails(front);
      if exists i :: 0 <= i < n && Crashes(front[i]) {
        var i :| 0 <= i < n && Crashes(front[i]);
        assert Crashes(insts[i]);
      }
      if exists i :: 0 <= i < |insts| && Crashes(insts[i]) {
        var i :| 0 <= i < |insts| && Crashes(insts[i]);
        if i < n {
          assert Crashes(front[i]);
        }
      }
    }
  }

  /** One step of the loop: a successful run extends the run on the earlier instances. */
  lemma CollectStep(front: seq<Instance>, inst: Instance)
    requires Collect(front + [inst]).Success?
    ensures Collect(front).Success?
    ensures Collect(front + [inst]).value.instances
         == Collect(front).value.instances + (if Selected(inst) then [inst.id] else [])
  {
    assert (front + [inst])[..|front|] == front;
  }

  /** The comprehension over one instance. */
  lemma SelectOne(inst: Instance)
    ensures Select([inst], Selected, (x: Instance) => x.id) == if Selected(inst) then [inst.id] else []
  {
    assert [inst][1..] == [];
  }

  /** On success the instances to tag are the selected ones, in query order. */
  lemma {:induction false} CollectInstances(insts: seq<Instance>)
    requires Collect(insts).Success?
    ensures Collect(insts).value.instances == Select(insts, Selected, (x: Instance) => x.id)
  {
    if |insts| > 0 {
      var n := |insts| - 1;
      var front, inst := insts[..n], insts[n];
      assert insts == front + [inst];
      CollectStep(front, inst);
      CollectInstances(front);
      SelectAppend(front, [inst], Selected, (x: Instance) => x.id);
      SelectOne(inst);
    }
  }

  /** On success the volumes to tag are exactly those attached to selected instances. */
  lemma {:induction false} CollectVolumes(insts: seq<Instance>, v: string)
    requires Collect(insts).Success?
    ensures v in Collect(insts).value.volumes <==> exists i :: 0 <= i < |insts| && SelectedVolume(insts[i], v)
  {
    if |insts| > 0 {
      var n := |insts| - 1;
      var front, inst := insts[..n], insts[n];
      CollectVolumes(front, v);
      if exists i :: 0 <= i < n && SelectedVolume(front[i], v) {
        var i :| 0 <= i < n && SelectedVolume(front[i], v);
        assert SelectedVolume(insts[i], v);
      }
      if exists i :: 0 <= i < |insts| && SelectedVolume(insts[i], v) {
        var i :| 0 <= i < |insts| && SelectedVolume(insts[i], v);
        if i < n {
          assert SelectedVolume(front[i], v);
        }
      }
    }
  }

  /** An instance that already has the key is skipped and adds no volume. */
  lemma SkippedAddsNothing(insts: seq<Instance>, inst: Instance)
    requires Collect(insts).Success? && !Selected(inst)
    ensures Collect(insts + [inst]) == Collect(insts)
  {
    assert (insts + [inst])[..|insts|] == insts;
  }

  // ---------------------------------------------------------------------
  // Tagging

  datatype ResourceKind = Instances | Volumes

  /** One `create_tags` call: the resources and the single tag it writes. */
  datatype TagCall = TagCall(kind: ResourceKind, ids: seq<string>, tag: Tag)

  /**
   * The calls `process_region` makes for a plan; `volumeList` is
   * `list(volumes_to_tag)`, whose order Python leaves unspecified.
   */
  function TagCalls(plan: Plan, volumeList: seq<string>): (r: seq<TagCall>)
    requires Elements(volumeList) == plan.volumes && NoDuplicates(volumeList)
    ensures forall c :: c in r ==> c.tag == (FEDORA_GROUP, SET_VALUE) && |c.ids| > 0
    ensures (exists c :: c in r && c.kind == Instances) <==> |plan.instances| > 0
    ensures (exists c :: c in r && c.kind == Volumes) <==> plan.volumes != {}
    ensures forall c :: c in r && c.kind == Instances ==> c.ids == plan.instances
    ensures forall c :: c in r && c.kind == Volumes ==> Elements(c.ids) == plan.volumes && NoDuplicates(c.ids)
    ensures |r| <= 2
    ensures forall i, j :: 0 <= i < j < |r| ==> r[i].kind == Instances && r[j].kind == Volumes
  {
    var ic := if |plan.instances| > 0 then [TagCall(Instances, plan.instances, (FEDORA_GROUP, SET_VALUE))] else [];
    var vc := if |volumeList| > 0 then [TagCall(Volumes, volumeList, (FEDORA_GROUP, SET_VALUE))] else [];
    assert |volumeList| > 0 <==> plan.volumes != {} by {
      if |volumeList| > 0 {
        assert volumeList[0] in Elements(volumeList);
      }
    }
    ic + vc
  }

  /** The dry-run listing of `tag_resources`: the first ids and how many more there are. */
  function DryRunListing(ids: seq<string>): (r: (seq<string>, Option<nat>))
    ensures |r.0| == if |ids| < SAMPLE_SIZE then |ids| else SAMPLE_SIZE
    ensures r.0 == ids[..|r.0|]
    ensures r.1.Some? <==> |ids| > SAMPLE_SIZE
    ensures r.1.Some? ==> |r.0| + r.1.value == |ids|
  {
    var shown := if |ids| < SAMPLE_SIZE then ids else ids[..SAMPLE_SIZE];
    (shown, if |ids| > SAMPLE_SIZE then Some(|ids| - SAMPLE_SIZE) else None)
  }
}

=== FILE: text.dfy ===
/**
 * The few pieces of Python string behaviour the scripts rely on:
 * `str.isspace` / regex `\s`, `str.strip()`, `str.startswith`, substring
 * search, `str.isdigit` on ASCII, and the code-point order `sorted` uses.
 */
module Text {
  import opened Wrappers

  /** Python's `str.isspace()` for one character, which is also what `\s` matches. */
  predicate IsSpace(c: char) {
    var n := c as int;
    || 9 <= n <= 13       // \t \n \v \f \r
    || 28 <= n <= 32      // \x1c..\x1f and the space
    || n == 0x85 || n == 0xa0 || n == 0x1680
    || 0x2000 <= n <= 0x200a
    || n == 0x2028 || n == 0x2029 || n == 0x202f || n == 0x205f || n == 0x3000
  }

  predicate AllSpace(s: string) {
    forall i :: 0 <= i < |s| ==> IsSpace(s[i])
  }

  /** ASCII `0`..`9`. */
  predicate IsDigit(c: char) {
    '0' <= c <= '9'
  }

  /** Where the run of whitespace starting at `i` ends. */
  function SpaceEnd(s: string, i: nat): (k: nat)
    requires i <= |s|
    ensures i <= k <= |s|
    ensures forall j :: i <= j < k ==> IsSpace(s[j])
    ensures k == |s| || !IsSpace(s[k])
    decreases |s| - i
  {
    if i < |s| && IsSpace(s[i]) then SpaceEnd(s, i + 1) else i
  }

  /** Where the run of whitespace ending at `j` starts. */
  function SpaceStart(s: string, j: nat): (k: nat)
    requires j <= |s|
    ensures k <= j
    ensures forall m :: k <= m < j ==> IsSpace(s[m])
    ensures k == 0 || !IsSpace(s[k - 1])
    decreases j
  {
    if j > 0 && IsSpace(s[j - 1]) then SpaceStart(s, j - 1) else j
  }

  /** `s.lstrip()`. */
  function StripLeft(s: string): (r: string)
    ensures |r| <= |s| && r == s[|s| - |r|..]
    ensures AllSpace(s[..|s| - |r|])
    ensures r == [] || !IsSpace(r[0])
  {
    var k := SpaceEnd(s, 0);
    assert forall i :: 0 <= i < k ==> s[..k][i] == s[i];
    s[k..]
  }

  /** `s.rstrip()`. */
  function StripRight(s: string): (r: string)
    ensures |r| <= |s| && r == s[..|r|]
    ensures AllSpace(s[|r|..])
    ensures r == [] || !IsSpace(r[|r| - 1])
  {
    var k := SpaceStart(s, |s|);
    assert forall i :: 0 <= i < |s| - k ==> s[k..][i] == s[k + i];
    s[..k]
  }

  /** `s.strip()`. */
  function Strip(s: string): string {
    StripRight(StripLeft(s))
  }

  /** `r` is `s` with the whitespace before index `a` and after `r` removed. */
  predicate TrimmedAt(s: string, r: string, a: int) {
    0 <= a && a + |r| <= |s| && r == s[a..a + |r|] && AllSpace(s[..a]) && AllSpace(s[a + |r|..])
  }

  /** No whitespace at either end. */
  predicate Bare(r: string) {
    r == [] || (!IsSpace(r[0]) && !IsSpace(r[|r| - 1]))
  }

  /** `strip` drops leading and trailing whitespace and nothing else. */
  lemma StripTrims(s: string)
    ensures Bare(Strip(s)) && TrimmedAt(s, Strip(s), |s| - |StripLeft(s)|)
  {
    StripBare(s);
    StripCore(s);
    StripTail(s);
  }

  lemma StripBare(s: string)
    ensures Bare(Strip(s))
  {
    var left := StripLeft(s);
    var r := StripRight(left);
    assert r == [] || r[0] == left[0];
  }

  lemma StripCore(s: string)
    ensures |s| - |StripLeft(s)| + |Strip(s)| <= |s|
    ensures Strip(s) == s[|s| - |StripLeft(s)|..|s| - |StripLeft(s)| + |Strip(s)|]
  {
    var left := StripLeft(s);
    var r := StripRight(left);
    var a := |s| - |left|;
    assert left == s[a..] && r == left[..|r|];
  }

  lemma StripTail(s: string)
    ensures AllSpace(s[|s| - |StripLeft(s)| + |Strip(s)|..])
  {
    var left := StripLeft(s);
    var r := StripRight(left);
    var a := |s| - |left|;
    assert Strip(s) == r;
    assert left == s[a..];
    assert s[a + |r|..] == left[|r|..];
  }

  /** Stripping twice is stripping once. */
  lemma StripIdempotent(s: string)
    ensures Strip(Strip(s)) == Strip(s)
  {
    var r := Strip(s);
    StripTrims(s);
    StripNoOp(r);
  }

  /** A string without outer whitespace is its own strip. */
  lemma StripNoOp(s: string)
    requires s == [] || (!IsSpace(s[0]) && !IsSpace(s[|s| - 1]))
    ensures Strip(s) == s
  {
    assert StripLeft(s) == s;
    assert StripRight(s) == s;
  }

  /** A string has one trimmed core: two bare trims of the same string agree. */
  lemma TrimmedUnique(x: string, r1: string, a1: int, r2: string, a2: int)
    requires TrimmedAt(x, r1, a1) && Bare(r1)
    requires TrimmedAt(x, r2, a2) && Bare(r2)
    ensures r1 == r2
  {
    TrimBounds(x, r1, a1);
    TrimBounds(x, r2, a2);
    if r1 != [] && r2 != [] {
      assert a1 == a2;
      assert a1 + |r1| == a2 + |r2|;
    }
  }

  /** A bare trim starts at the first non-whitespace character and ends after the last one. */
  lemma TrimBounds(x: string, r: string, a: int)
    requires TrimmedAt(x, r, a) && Bare(r)
    ensures forall i :: 0 <= i < a ==> IsSpace(x[i])
    ensures forall i :: a + |r| <= i < |x| ==> IsSpace(x[i])
    ensures r != [] ==> !IsSpace(x[a]) && !IsSpace(x[a + |r| - 1])
  {
    forall i | 0 <= i < a
      ensures IsSpace(x[i])
    {
      assert x[..a][i] == x[i];
    }
    forall i | a + |r| <= i < |x|
      ensures IsSpace(x[i])
    {
      assert x[a + |r|..][i - a - |r|] == x[i];
    }
    if r != [] {
      assert r[0] == x[a] && r[|r| - 1] == x[a + |r| - 1];
    }
  }

  /** `(p + s + q).strip()` is `s` when `p` and `q` are whitespace and `s` has none at its ends. */
  lemma StripPadded(p: string, s: string, q: string)
    requires AllSpace(p) && AllSpace(q) && Bare(s)
    ensures Strip(p + s + q) == s
  {
    var x := p + s + q;
    PaddedTrim(p, s, q);
    StripTrims(x);
    TrimmedUnique(x, Strip(x), |x| - |StripLeft(x)|, s, |p|);
  }

  /** `s` is a trim of `p + s + q` at `|p|` when the padding is whitespace. */
  lemma PaddedTrim(p: string, s: string, q: string)
    requires AllSpace(p) && AllSpace(q)
    ensures TrimmedAt(p + s + q, s, |p|)
  {
    var x := p + s + q;
    assert x[..|p|] == p;
    assert x[|p|..|p| + |s|] == s;
    assert x[|p| + |s|..] == q;
  }

  /** `s.startswith(p)`. */
  predicate StartsWith(s: string, p: string) {
    |p| <= |s| && s[..|p|] == p
  }

  /** `p` occurs in `s` starting at index `k`. */
  predicate OccursAt(s: string, p: string, k: int) {
    0 <= k <= |s| && StartsWith(s[k..], p)
  }

  /** `p in s`. */
  predicate Contains(s: string, p: string) {
    exists k :: 0 <= k <= |s| && OccursAt(s, p, k)
  }

  /** The first occurrence of `p` in `s` at or after `from`. */
  function FindFrom(s: string, p: string, from: nat): (r: Option<nat>)
    requires from <= |s|
    ensures r.Some? ==> from <= r.value <= |s| && OccursAt(s, p, r.value)
    ensures r.Some? ==> forall k :: from <= k < r.value ==> !OccursAt(s, p, k)
    ensures r.None? <==> forall k :: from <= k <= |s| ==> !OccursAt(s, p, k)
    decreases |s| - from
  {
    if StartsWith(s[from..], p) then
      assert OccursAt(s, p, from);
      Some(from)
    else if from == |s| then None
    else FindFrom(s, p, from + 1)
  }

  /** Python's `a < b` on `str`: code-point lexicographic order. */
  predicate LexLess(a: string, b: string) {
    if |a| == 0 then |b| > 0
    else if |b| == 0 then false
    else if a[0] != b[0] then a[0] < b[0]
    else LexLess(a[1..], b[1..])
  }

  lemma {:induction false} LexIrreflexive(a: string)
    ensures !LexLess(a, a)
  {
    if |a| > 0 {
      LexIrreflexive(a[1..]);
    }
  }

  lemma {:induction false} LexTransitive(a: string, b: string, c: string)
    requires LexLess(a, b) && LexLess(b, c)
    ensures LexLess(a, c)
  {
    if |a| > 0 && |b| > 0 && |c| > 0 && a[0] == b[0] && b[0] == c[0] {
      LexTransitive(a[1..], b[1..], c[1..]);
    }
  }

  lemma {:induction false} LexTotal(a: string, b: string)
    requires a != b
    ensures LexLess(a, b) || LexLess(b, a)
  {
    if |a| > 0 && |b| > 0 && a[0] == b[0] {
      assert a == [a[0]] + a[1..] && b == [b[0]] + b[1..];
      LexTotal(a[1..], b[1..]);
    }
  }

  lemma LexAsymmetric(a: string, b: string)
    requires LexLess(a, b)
    ensures !LexLess(b, a)
  {
    if LexLess(b, a) {
      LexTransitive(a, b, a);
      LexIrreflexive(a);
    }
  }

  /** `x` is the least element of `s` in code-point order. */
  predicate IsLeast(x: string, s: set<string>) {
    x in s && forall y :: y in s && y != x ==> LexLess(x, y)
  }

  /** Every non-empty finite set of strings has a least element. */
  lemma {:induction false} LeastExists(s: set<string>)
    requires s != {}
    ensures exists x :: IsLeast(x, s)
    decreases |s|
  {
    var x :| x in s;
    var rest := s - {x};
    if rest == {} {
      assert s == {x};
      assert IsLeast(x, s);
    } else {
      LeastExists(rest);
      var m :| IsLeast(m, rest);
      LeastOfTwo(x, m, rest);
      assert s == rest + {x};
    }
  }

  /** Adding `x` to a set with least element `m` gives least element `x` or `m`. */
  lemma LeastOfTwo(x: string, m: string, rest: set<string>)
    requires IsLeast(m, rest) && x !in rest
    ensures IsLeast(x, rest + {x}) || IsLeast(m, rest + {x})
  {
    if LexLess(x, m) {
      forall y | y in rest + {x} && y != x
        ensures LexLess(x, y)
      {
        if y != m {
          LexTransitive(x, m, y);
        }
      }
    } else {
      LexTotal(x, m);
    }
  }
}

=== FILE: untagged_report.dfy ===
/**
 * aws-resources-without-tag.py: list, per region, the instances and volumes
 * without a `FedoraGroup` key, with the instance's name or the name of the
 * instance a volume is attached to.
 *
 * `describe_instances` for an attached instance is a map from instance id
 * to the tags it returns. An id missing from the map stands for the lookup
 * failing: a `ClientError` for an id EC2 does not know, or the `IndexError`
 * of `response['Reservations'][0]` on an empty reservation list. Nothing
 * catches either.
 */
module UntaggedReport {
  import opened Wrappers
  import opened Tags
  import opened Lists

  const NA: string := "N/A"

  /** `ec2.instances.all()`: `tags` is `None` when the instance has none. */
  datatype Instance = Instance(id: string, tags: Option<seq<Tag>>)

  /** One entry of `volume.attachments`. */
  datatype Attachment = Attachment(instanceId: Option<string>)

  datatype Volume = Volume(id: string, tags: Option<seq<Tag>>, attachments: seq<Attachment>)

  /** The uncaught `ClientError` or `IndexError` of `get_instance_name`. */
  datatype UnknownInstance = UnknownInstance(id: string)

  /** `get_name_tag`: the loop returns at the first `Name`, else `'N/A'`. */
  function GetNameTag(tags: Option<seq<Tag>>): string
    decreases |OrEmpty(tags)|
  {
    var ts := OrEmpty(tags);
    if |ts| == 0 then NA
    else if ts[0].0 == NAME then ts[0].1
    else GetNameTag(Some(ts[1..]))
  }

  /** The early return finds the first `Name` value; `None` tags and a missing key give `'N/A'`. */
  lemma {:induction false} GetNameTagFirst(tags: Option<seq<Tag>>)
    ensures GetNameTag(tags) == FirstValue(OrEmpty(tags), Exact(NAME)).GetOr(NA)
    decreases |OrEmpty(tags)|
  {
    var ts := OrEmpty(tags);
    if |ts| == 0 {
    } else if ts[0].0 == NAME {
      assert IsFirstMatch(ts, Exact(NAME), 0);
    } else {
      var rest := ts[1..];
      GetNameTagFirst(Some(rest));
      assert forall i :: 0 <= i < |rest| ==> ts[i + 1] == rest[i];
      if HasKey(rest, Exact(NAME)) {
        var j :| IsFirstMatch(rest, Exact(NAME), j) && rest[j].1 == FirstValue(rest, Exact(NAME)).value;
        assert IsFirstMatch(ts, Exact(NAME), j + 1);
      } else {
        assert !HasKey(ts, Exact(NAME));
      }
    }
  }

  /** The name loop of `get_instance_name`: every `Name` overwrites, starting from `''`. */
  function InstanceNameFrom(name: string, tags: seq<Tag>): string
    decreases |tags|
  {
    if |tags| == 0 then name
    else InstanceNameFrom(if tags[0].0 == NAME then tags[0].1 else name, tags[1..])
  }

  /** The loop leaves the last `Name` value, or its starting value when there is none. */
  lemma {:induction false} InstanceNameFromLast(name: string, tags: seq<Tag>)
    ensures InstanceNameFrom(name, tags) == LastValue(tags, Exact(NAME)).GetOr(name)
    decreases |tags|
  {
    if |tags| > 0 {
      InstanceNameFromLast(if tags[0].0 == NAME then tags[0].1 else name, tags[1..]);
      assert tags == [tags[0]] + tags[1..];
      LastValueCons(tags[0], tags[1..], Exact(NAME));
    }
  }

  /** `get_instance_name` once the instance is found. */
  function InstanceName(tags: seq<Tag>): string {
    InstanceNameFrom("", tags)
  }

  /** The two name lookups of the script agree when `Name` occurs once, and differ in default otherwise. */
  lemma NameVariants(tags: seq<Tag>)
    ensures Count(tags, Exact(NAME)) <= 1 && HasKey(tags, Exact(NAME)) ==> GetNameTag(Some(tags)) == InstanceName(tags)
    ensures !HasKey(tags, Exact(NAME)) ==> GetNameTag(Some(tags)) == NA && InstanceName(tags) == ""
  {
    GetNameTagFirst(Some(tags));
    InstanceNameFromLast("", tags);
    if Count(tags, Exact(NAME)) <= 1 {
      FirstEqualsLastWhenUnique(tags, Exact(NAME));
    }
  }

  /** `TAG_NAME not in [tag['Key'] for tag in tags or []]`. */
  predicate Untagged(tags: Option<seq<Tag>>) {
    !HasKey(OrEmpty(tags), Exact(FEDORA_GROUP))
  }

  /** The first attachment's `InstanceId`, `'N/A'` without one. */
  function AttachedInstanceId(v: Volume): (r: string)
    ensures |v.attachments| == 0 ==> r == NA
    ensures |v.attachments| > 0 && v.attachments[0].instanceId.Some? ==> r == v.attachments[0].instanceId.value
    ensures |v.attachments| > 0 && v.attachments[0].instanceId.None? ==> r == NA
  {
    if |v.attachments| == 0 then NA else v.attachments[0].instanceId.GetOr(NA)
  }

  /** The name shown for a volume; a lookup of an unknown instance fails. */
  function VolumeName(v: Volume, described: map<string, seq<Tag>>): (r: Result<string, UnknownInstance>)
    ensures AttachedInstanceId(v) == NA ==> r == Success(NA)
    ensures r.Failure? <==> AttachedInstanceId(v) != NA && AttachedInstanceId(v) !in described
    ensures r.Success? && AttachedInstanceId(v) != NA
            ==> r.value == LastValue(described[AttachedInstanceId(v)], Exact(NAME)).GetOr("")
  {
    var id := AttachedInstanceId(v);
    if id == NA then Success(NA)
    else if id !in described then Failure(UnknownInstance(id))
    else
      InstanceNameFromLast("", described[id]);
      Success(InstanceName(described[id]))
  }

  predicate UntaggedInstance(i: Instance) {
    Untagged(i.tags)
  }

  /** The report entry of an instance: its id and its first `Name`. */
  function InstanceLine(i: Instance): (string, string) {
    (i.id, GetNameTag(i.tags))
  }

  /** The untagged instances, each with its first `Name`, in enumeration order. */
  function InstanceLines(insts: seq<Instance>): seq<(string, string)> {
    Select(insts, UntaggedInstance, InstanceLine)
  }

  /**
   * `lines` holds one line per untagged instance, in enumeration order: line
   * `k` is the `k`-th untagged instance's id with its first `Name`.
   */
  predicate InstanceLinesExact(insts: seq<Instance>, lines: seq<(string, string)>) {
    var pos := Positions(insts, UntaggedInstance);
    && |lines| == |pos|
    && forall k :: 0 <= k < |pos| ==> lines[k] == (insts[pos[k]].id, GetNameTag(insts[pos[k]].tags))
  }

  /** The instance lines are exactly the untagged instances' lines, in order. */
  lemma InstanceLinesAtPositions(insts: seq<Instance>)
    ensures InstanceLinesExact(insts, InstanceLines(insts))
  {
    SelectAtPositions(insts, UntaggedInstance, InstanceLine);
  }

  /** The volume loop; the first failing lookup ends the script. */
  function VolumeLines(vols: seq<Volume>, described: map<string, seq<Tag>>): Result<seq<(string, string)>, UnknownInstance>
    decreases |vols|
  {
    if |vols| == 0 then Success([])
    else
      var n := |vols| - 1;
      var v := vols[n];
      match VolumeLines(vols[..n], described)
      case Failure(e) => Failure(e)
      case Success(lines) =>
        if !Untagged(v.tags) then Success(lines)
        else
          match VolumeName(v, described)
          case Failure(e) => Failure(e)
          case Success(name) => Success(lines + [(v.id, name)])
  }

  /** A volume whose report line needs an instance that cannot be described. */
  predicate Fails(v: Volume, described: map<string, seq<Tag>>) {
    Untagged(v.tags) && VolumeName(v, described).Failure?
  }

  /** The volume loop fails exactly when some untagged volume's instance is unknown. */
  lemma {:induction false} VolumeLinesFail(vols: seq<Volume>, described: map<string, seq<Tag>>)
    ensures VolumeLines(vols, described).Failure? <==> exists i :: 0 <= i < |vols| && Fails(vols[i], described)
  {
    if |vols| > 0 {
      var n := |vols| - 1;
      var front, v := vols[..n], vols[n];
      assert vols == front + [v];
      VolumeLinesFail(front, described);
      FailSnoc(front, v, described);
      assert forall i :: 0 <= i < n ==> front[i] == vols[i];
    }
  }

  /** One more volume fails the loop iff the loop had failed or the volume itself fails. */
  lemma FailSnoc(front: seq<Volume>, v: Volume, described: map<string, seq<Tag>>)
    ensures VolumeLines(front + [v], described).Failure? <==> VolumeLines(front, described).Failure? || Fails(v, described)
  {
    assert (front + [v])[..|front|] == front;
  }

  /** `vols[i]` is the first volume whose report line needs an unknown instance. */
  predicate FirstFails(vols: seq<Volume>, described: map<string, seq<Tag>>, i: int) {
    && 0 <= i < |vols|
    && Fails(vols[i], described)
    && forall j :: 0 <= j < i ==> !Fails(vols[j], described)
  }

  /** A failing loop stops at the first failing volume, with that volume's instance id. */
  lemma {:induction false} VolumeLinesFirstFailure(vols: seq<Volume>, described: map<string, seq<Tag>>)
    requires VolumeLines(vols, described).Failure?
    ensures exists i ::
      && FirstFails(vols, described, i)
      && VolumeLines(vols, described).error == UnknownInstance(AttachedInstanceId(vols[i]))
  {
    var n := |vols| - 1;
    var front, v := vols[..n], vols[n];
    assert vols == front + [v];
    assert forall j :: 0 <= j < n ==> front[j] == vols[j];
    if VolumeLines(front, described).Failure? {
      VolumeLinesFirstFailure(front, described);
      var i :|
        && FirstFails(front, described, i)
        && VolumeLines(front, described).error == UnknownInstance(AttachedInstanceId(front[i]));
      assert FirstFails(vols, described, i);
    } else {
      VolumeLinesFail(front, described);
      assert FirstFails(vols, described, n);
    }
  }

  predicate UntaggedVolume(v: Volume) {
    Untagged(v.tags)
  }

  /** The ids of the untagged volumes, in enumeration order. */
  function UntaggedIds(vols: seq<Volume>): seq<string> {
    Select(vols, UntaggedVolume, (v: Volume) => v.id)
  }

  /**
   * The report line of a volume: its id and the name shown for its instance.
   * The loop never reaches a volume whose lookup fails; `"N/A"` stands in there.
   */
  function VolumeLine(v: Volume, described: map<string, seq<Tag>>): (string, string) {
    (v.id, match VolumeName(v, described) case Success(name) => name case Failure(_) => NA)
  }

  /**
   * On success, the volume loop yields exactly the lines of the untagged
   * volumes, in enumeration order: each volume's id and its instance's name.
   */
  lemma {:induction false} VolumeLinesSelect(vols: seq<Volume>, described: map<string, seq<Tag>>)
    requires VolumeLines(vols, described).Success?
    ensures VolumeLines(vols, described).value == Select(vols, UntaggedVolume, (v: Volume) => VolumeLine(v, described))
  {
    if |vols| > 0 {
      var n := |vols| - 1;
      var front, v := vols[..n], vols[n];
      assert vols == front + [v];
      VolumeLinesSnoc(front, v, described);
      SelectSnoc(front, v, UntaggedVolume, (v: Volume) => VolumeLine(v, described));
      VolumeLinesSelect(front, described);
    }
  }

  /**
   * On success, one line per untagged volume, in enumeration order, each with
   * the volume id and the name of the instance it is attached to.
   */
  lemma VolumeLinesOnePerVolume(vols: seq<Volume>, described: map<string, seq<Tag>>)
    requires VolumeLines(vols, described).Success?
    ensures VolumeLines(vols, described).value == Select(vols, UntaggedVolume, (v: Volume) => VolumeLine(v, described))
    ensures |VolumeLines(vols, described).value| == |UntaggedIds(vols)|
    ensures forall k :: 0 <= k < |UntaggedIds(vols)| ==> VolumeLines(vols, described).value[k].0 == UntaggedIds(vols)[k]
  {
    VolumeLinesSelect(vols, described);
    var line, id := (v: Volume) => VolumeLine(v, described), (v: Volume) => v.id;
    var lines, ids, pos := VolumeLines(vols, described).value, UntaggedIds(vols), Positions(vols, UntaggedVolume);
    SelectAtPositions(vols, UntaggedVolume, line);
    SelectAtPositions(vols, UntaggedVolume, id);
    forall k | 0 <= k < |ids|
      ensures lines[k].0 == ids[k]
    {
      assert lines[k] == line(vols[pos[k]]) && ids[k] == id(vols[pos[k]]);
    }
  }

  /**
   * `lines` holds one line per untagged volume, in enumeration order: line `k`
   * is the `k`-th untagged volume's id with the name its instance lookup found.
   */
  predicate VolumeLinesExact(vols: seq<Volume>, described: map<string, seq<Tag>>, lines: seq<(string, string)>) {
    var pos := Positions(vols, UntaggedVolume);
    && |lines| == |pos|
    && forall k :: 0 <= k < |pos| ==>
         VolumeName(vols[pos[k]], described).Success? &&
         lines[k] == (vols[pos[k]].id, VolumeName(vols[pos[k]], described).value)
  }

  /**
   * On success, line `k` belongs to the `k`-th untagged volume: its id and the
   * name its instance lookup found.
   */
  lemma VolumeLinesAtPositions(vols: seq<Volume>, described: map<string, seq<Tag>>)
    requires VolumeLines(vols, described).Success?
    ensures VolumeLinesExact(vols, described, VolumeLines(vols, described).value)
  {
    VolumeLinesFail(vols, described);
    VolumeLinesSelect(vols, described);
    var line := (v: Volume) => VolumeLine(v, described);
    SelectAtPositions(vols, UntaggedVolume, line);
    var lines, pos := VolumeLines(vols, described).value, Positions(vols, UntaggedVolume);
    forall k | 0 <= k < |pos|
      ensures VolumeName(vols[pos[k]], described).Success?
      ensures lines[k] == (vols[pos[k]].id, VolumeName(vols[pos[k]], described).value)
    {
      assert !Fails(vols[pos[k]], described);
      assert lines[k] == line(vols[pos[k]]);
    }
  }

  /** One more volume: its line, if it is untagged, goes last. */
  lemma VolumeLinesSnoc(front: seq<Volume>, v: Volume, described: map<string, seq<Tag>>)
    requires VolumeLines(front + [v], described).Success?
    ensures VolumeLines(front, described).Success?
    ensures VolumeLines(front + [v], described).value == VolumeLines(front, described).value +
      if Untagged(v.tags) then [(v.id, VolumeName(v, described).value)] else []
  {
    assert (front + [v])[..|front|] == front;
  }

  /** One more volume: its id, if it is untagged, goes last. */
  lemma UntaggedIdsSnoc(front: seq<Volume>, v: Volume)
    ensures UntaggedIds(front + [v]) == UntaggedIds(front) + if Untagged(v.tags) then [v.id] else []
  {
    assert [v][1..] == [];
    SelectAppend(front, [v], UntaggedVolume, (v: Volume) => v.id);
  }

  /** A volume with no attachment is reported as attached to `'N/A'` without any lookup. */
  lemma UnattachedVolume(v: Volume, described: map<string, seq<Tag>>)
    requires |v.attachments| == 0
    ensures VolumeName(v, described) == Success(NA)
  {
  }

  /** `get_untagged_resources`: the instances first, then the volumes. */
  function Report(insts: seq<Instance>, vols: seq<Volume>, described: map<string, seq<Tag>>)
    : (r: Result<(seq<(string, string)>, seq<(string, string)>), UnknownInstance>)
    ensures r.Failure? <==> exists i :: 0 <= i < |vols| && Fails(vols[i], described)
    ensures r.Failure? ==> exists i :: FirstFails(vols, described, i) && r.error == UnknownInstance(AttachedInstanceId(vols[i]))
    ensures r.Success? ==> forall l :: l in r.value.0 <==>
      exists i :: 0 <= i < |insts| && Untagged(insts[i].tags) && l == (insts[i].id, GetNameTag(insts[i].tags))
    ensures r.Success? ==> InstanceLinesExact(insts, r.value.0)
    ensures r.Success? ==> |r.value.1| == |UntaggedIds(vols)|
    ensures r.Success? ==> forall k :: 0 <= k < |UntaggedIds(vols)| ==> r.value.1[k].0 == UntaggedIds(vols)[k]
    ensures r.Success? ==> VolumeLinesExact(vols, described, r.value.1)
  {
    VolumeLinesFail(vols, described);
    match VolumeLines(vols, described)
    case Failure(e) =>
      VolumeLinesFirstFailure(vols, described);
      Failure(e)
    case Success(vl) =>
      VolumeLinesOnePerVolume(vols, described);
      VolumeLinesAtPositions(vols, described);
      InstanceLinesAtPositions(insts);
      Success((InstanceLines(insts), vl))
  }
}

=== FILE: wrappers.dfy ===
/** Failure-compatible result types shared by every script model. */
module Wrappers {

  /** Python's `None` versus a present value. */
  datatype Option<+T> = None | Some(value: T) {

    /** The value, or `default` when absent: Python's `x if x is not None else default`. */
    function GetOr(default: T): T {
      match this
      case Some(v) => v
      case None => default
    }
  }

  /** The value a script computes, or the exception that ends the script. */
  datatype Result<+R, +E> = Success(value: R) | Failure(error: E) {

    predicate IsFailure() {
      Failure?
    }

    function PropagateFailure<U>(): Result<U, E>
      requires Failure?
    {
      Failure(error)
    }

    function Extract(): R
      requires Success?
    {
      value
    }
  }
}
